=== FILE: README.md ===
# wcdx input remapping, modelled in Dafny

wcdx is a replacement display driver for the Wing Commander games. It also
remaps input. Its remapping layer has these parts:

- **Control engine** (`SE_Controls`). A table maps integer input codes to a
  `KeyState`. Key names translate to codes. Once per tick, every mapped code
  takes one of three values: a physical-key override, an asynchronous key poll,
  or a gamepad reading with hysteresis. Press, hold and release callbacks then
  fire on the edges. The XInput probe backs off by a 250/500/1000/2000 ms ladder
  while no controller answers.
- **Low-level hooks and injection** (`KJ_Keyboard`, `KJ_Mouse`, `KJ_Main`). The
  hooks decide between swallowing and passing on each event. Swallowed events
  become overrides in the engine. Keys are injected through a tagged queue and
  repeated on a schedule. Release events are synthesised for held codes.
  Install and uninstall run their steps in a fixed order.
- **Virtual joystick** (`KJ_Joystick`). A six-axis record with a button mask
  and a hat. The `joyGetPos*` and `joyGetDevCaps*` trampolines blend it with a
  real device. A per-device cache spaces out probes of the real device.
- **XInput suppression** (`KJ_Xinput`). Buttons, triggers and sticks that are
  mapped are cleared before the game sees the controller state. The module
  also decides which `GetProcAddress` lookups are redirected to the hook.
- **Game patches** (`destro_thread`, `frame_limiter`, `widescreen`,
  `push_byte`): the byte-wrapping roll override with its speed ramp, the
  space-flight frame-rate levels, the aspect-ratio cycle, and byte patching
  of the game image.
- **Utilities**: `wcdx.ini` trimming and line parsing, and bounded reads of
  NUL-terminated strings from another process (`SE_Peek`).

Everything is modelled as pure functions over immutable records. Operating
system calls are replaced by inputs:

- the asynchronous key state is the set of keys held;
- the controller state is a sequence of per-slot answers;
- the tick count, the window titles, the result of `ReadProcessMemory`, and
  whether a library or export is found are plain parameters.

Output that the code sends to the system (`SendInput`, callbacks, byte writes)
becomes a returned list of events.

Integer widths are explicit: `Words` defines `U8`…`U64`, `I16` and `I32`,
32-bit wrapping subtraction (`Elapsed`), and C truncating division.
`std::unordered_map` and `std::map` iteration over codes is modelled in
ascending key order. For `unordered_map` the source fixes no order, so where a
contract lists codes or events of several codes in sequence (the list from
`Controls.GetCurrentlyHeldKeys`, the edge and release traces of
`Controls.Read` and `Controls.Reset`), the order across codes is the model's
choice. The source promises only which codes and events appear and how often.

One file and one module per component:

- `words.dfy`, `codes.dfy`, `key_names.dfy`, `backoff.dfy`, `gamepad.dfy`, `ordering.dfy`, `text.dfy`;
- `controls.dfy`, `joystick.dfy`, `xinput.dfy`, `keyboard.dfy`, `mouse.dfy`, `kj_main.dfy`;
- `destro.dfy`, `frame_limiter.dfy`, `titles.dfy`, `widescreen.dfy`, `push_byte.dfy`, `ini.dfy`, `peek.dfy`.

## Model

| member | source | states |
|---|---|---|
| Words.Elapsed | dist/wcdx/src/key_jacker/KJ_Keyboard.h:111-115 | `DWORD` tick difference: plain difference when no wrap, plus 2^32 across a wrap, and adding it back to the earlier tick gives the later one modulo 2^32 |
| Words.ToInt32 | dist/wcdx/src/key_jacker/KJ_Keyboard.h:55 | `static_cast<int>` of a `DWORD` is its two's-complement reading, congruent to it modulo 2^32 |
| Words.WrapI32 | dist/wcdx/src/se_/frame_limiter.h:132-135 | `int` arithmetic keeps the value when it fits and is otherwise congruent modulo 2^32 |
| Words.LowByte | dist/wcdx/src/se_/push_byte.h:27-28 | `static_cast<uint8_t>` keeps a byte unchanged and otherwise agrees modulo 256 |
| Words.TruncDiv | dist/wcdx/src/key_jacker/KJ_Mouse.h:126-136 | C division truncates toward zero, also for a negative dividend |
| Words.Clamp | dist/wcdx/src/key_jacker/KJ_Joystick.h:365-373 | the result lies in the bounds and equals the input when it already does |
| Codes.CodeClassesDisjoint | dist/wcdx/src/se_/SE_Controls.cpp:179-182 | gamepad codes (-99..-10) and mouse-button codes (-5..-1) never overlap, and neither includes the mouse-move code |
| Codes.MouseButtonVkInjective | dist/wcdx/src/se_/SE_Controls.cpp:240-259 | each mouse-button code is polled through its own virtual key |
| KeyNames.SingleCharCode | dist/wcdx/src/se_/SE_Controls.cpp:63-68 | a one-character name maps to its `char` code, with `a`–`z` folded to upper case and bytes from 0x80 read as negative signed `char` |
| KeyNames.KeyCodeZeroIff | dist/wcdx/src/se_/SE_Controls.cpp:62-170 | a name maps to 0 exactly when it is the NUL character or a longer or empty name missing from the name table |
| KeyNames.UnknownNameIsZero | dist/wcdx/src/se_/SE_Controls.cpp:169 | an unlisted name that is not one character long maps to 0 |
| KeyNames.ListedNameCode | dist/wcdx/src/se_/SE_Controls.cpp:70-167 | a listed name longer than one character maps to its table entry, and that code is not 0 |
| KeyNames.TableCodeClasses | dist/wcdx/src/se_/SE_Controls.cpp:70-167 | the 85 named keys split into keyboard codes 1..255, mouse codes and gamepad codes, with none mapping to 0 |
| KeyNames.DigitEntriesAgree | dist/wcdx/src/se_/SE_Controls.cpp:92-101 | the digit branch cannot be reached: the single-character branch already gives each digit name the same code 0x30+d |
| KeyNames.HighByteAliasesMouse | dist/wcdx/src/se_/SE_Controls.cpp:63-68 | the single byte 0xFF becomes -1, the same code as the left mouse button |
| Backoff.ProbeIntervalIsDoubling | dist/wcdx/src/key_jacker/KJ_Joystick.h:67-72 | the interval after f failures is 250 ms doubled once per two failures, capped at 2000 ms |
| Backoff.ProbeIntervalMonotone | dist/wcdx/src/key_jacker/KJ_Joystick.h:67-72 | more failures never shorten the interval |
| Backoff.ProbeIntervalRungs | dist/wcdx/src/se_/SE_Controls.cpp:349-356 | every interval is one of 250, 500, 1000 or 2000 ms |
| Backoff.ProbeIntervalFirstEight | dist/wcdx/src/se_/SE_Controls.cpp:349-356 | the ladder values for the first eight consecutive failures |
| Backoff.AfterProbe | dist/wcdx/src/se_/SE_Controls.cpp:338-357 | success zeroes the failure count and the interval; the k-th failure sets the interval to the ladder's k-th rung (at least 250 ms); both record the probe time |
| Backoff.NextProbeImmediateIffSuccess | dist/wcdx/src/se_/SE_Controls.cpp:318-357 | right after a probe, the next is due at once exactly when the probe succeeded |
| Backoff.NoProbeBeforeInterval | dist/wcdx/src/se_/SE_Controls.cpp:318-357 | after a failure, no probe is due while the wrapped time since it is below the interval |
| Gamepad.ButtonBitInjective | dist/wcdx/src/se_/SE_Controls.cpp:398-411 | each digital gamepad code reads its own single bit of `wButtons` |
| Controls.GetCurrentlyHeldKeys | dist/wcdx/src/se_/SE_Controls.cpp:495-506 | exactly the mapped codes that are down or were down last tick, each once (listed in ascending order, the model's choice) |
| Controls.TriggerDown | dist/wcdx/src/se_/SE_Controls.cpp:364-368 | trigger hysteresis: down from 30, up below 20, and between the two the previous state is kept |
| Controls.AxisPositive | dist/wcdx/src/se_/SE_Controls.cpp:370-373 | positive stick direction: down above the press threshold, up at or below the release threshold, otherwise unchanged |
| Controls.AxisNegative | dist/wcdx/src/se_/SE_Controls.cpp:375-378 | the mirror image of `AxisPositive` on the negative side |
| Controls.PadDown | dist/wcdx/src/se_/SE_Controls.cpp:396-451 | a digital code is down exactly when its button bit is set, and codes outside the switch are never down |
| Controls.StickHysteresis | dist/wcdx/src/se_/SE_Controls.cpp:417-447 | each of the eight stick directions uses the three zones with the left (7849/5887) or right (8689/6517) thresholds |
| Controls.TriggerHysteresis | dist/wcdx/src/se_/SE_Controls.cpp:413-414 | both triggers use the trigger hysteresis: 25 keeps the previous state and 31 presses from released |
| Controls.OverrideReplacesPoll | dist/wcdx/src/se_/SE_Controls.cpp:191-262 | an active override wins; otherwise a keyboard code reads the key poll, a mouse button reads its button's poll, and other codes read up |
| Controls.RoundHalfAway | dist/wcdx/src/se_/SE_Controls.cpp:217-224 | `roundf`: within one half of the argument, with the argument's sign |
| Controls.ScaledDelta | dist/wcdx/src/se_/SE_Controls.cpp:217-224 | a non-zero delta with positive scale never rounds to 0 but keeps its sign; a zero delta or zero scale gives 0 |
| Controls.MoveFires | dist/wcdx/src/se_/SE_Controls.cpp:204-233 | the move callback fires at most once, and exactly when a move handler is mapped, the cursor moved, and a scaled delta leaves the deadzone |
| Controls.FirstAnswer | dist/wcdx/src/se_/SE_Controls.cpp:328-337 | the controller state of the first of the four slots that answers, if any does |
| Controls.ProbeTick | dist/wcdx/src/se_/SE_Controls.cpp:288-359 | the library is looked up only when a gamepad code is mapped, and only once; a probe happens only when due, and its outcome drives the backoff ladder |
| Controls.Resolved | dist/wcdx/src/se_/SE_Controls.cpp:191-262 | resolving changes only `isDown` and no entry is added or lost |
| Controls.EdgeFires | dist/wcdx/src/se_/SE_Controls.cpp:463-472 | the callbacks fired for one code are exactly the kinds whose edge condition holds, each once |
| Controls.EdgeTrace | dist/wcdx/src/se_/SE_Controls.cpp:381-473 | across the table, an edge is fired exactly for the codes and kinds whose condition holds |
| Controls.EdgeTraceOnce | dist/wcdx/src/se_/SE_Controls.cpp:381-473 | over distinct codes, each edge of each code occurs in the trace once when its condition holds and never otherwise |
| Controls.ReadFiresEachEdgeOnce | dist/wcdx/src/se_/SE_Controls.cpp:463-472 | within one tick, each callback of a mapped code fires exactly once when its edge condition holds on the resolved state, and never otherwise |
| Controls.Read | dist/wcdx/src/se_/SE_Controls.cpp:188-474 | one tick: same codes, only `isDown`/`wasDown` change (`wasDown := isDown`), settings kept, the move callback before the edge callbacks |
| Controls.Settle | dist/wcdx/src/se_/SE_Controls.cpp:463-472 | after the callbacks every entry has `wasDown == isDown` and nothing else changes |
| Controls.ReadEdges | dist/wcdx/src/se_/SE_Controls.cpp:463-472 | press fires only on up→down, release only on down→up, constant on every down tick |
| Controls.PressFiresOnce | dist/wcdx/src/se_/SE_Controls.h:20-22 | a key held over two ticks fires press on the first only |
| Controls.GamepadForceRelease | dist/wcdx/src/se_/SE_Controls.cpp:455-459 | without controller state a gamepad code resolves up, and release fires exactly when it was down and has a release callback |
| Controls.ReleasedGamepadStaysSilent | dist/wcdx/src/se_/SE_Controls.cpp:455-459 | a released gamepad code fires nothing while the controller is absent |
| Controls.GamepadReleaseOnce | dist/wcdx/src/se_/SE_Controls.cpp:455-459 | a held gamepad code fires its release exactly once (a multiset count of 1), and nothing on the next controller-less tick |
| Controls.OverridePersists | dist/wcdx/src/se_/SE_Controls.h:50-53 | an override from `NotifyPhysicalKey` on a keyboard code or a mouse-button code (-1..-5, as the mouse hook sends) decides the code on this tick and the next, whatever the poll says |
| Controls.LibraryLookedUpOnce | dist/wcdx/src/se_/SE_Controls.cpp:302-316 | once a gamepad code is mapped, the library lookup happens once and its outcome is kept |
| Controls.NoReadingBetweenProbes | dist/wcdx/src/se_/SE_Controls.cpp:318-359 | between probes a gamepad code reads up and the probe state is unchanged |
| Controls.ProbeFollowsLadder | dist/wcdx/src/se_/SE_Controls.cpp:338-357 | a due probe updates the backoff with success exactly when some slot answered |
| Controls.MoveWithoutDeadzone | dist/wcdx/src/se_/SE_Controls.h:38-41 | with deadzone 0 and a positive scale, the move callback fires exactly when the cursor moved |
| Controls.MoveFiresFirst | dist/wcdx/src/se_/SE_Controls.cpp:204-233 | the first callback of a tick is the move callback exactly when one fires |
| Controls.NotifyPhysicalKey | dist/wcdx/src/se_/SE_Controls.cpp:476-484 | sets the override of an already-mapped code only, and never inserts one |
| Controls.ClearOverrides | dist/wcdx/src/se_/SE_Controls.cpp:486-493 | every entry loses its override; nothing else changes |
| Controls.ReleaseTrace | dist/wcdx/src/se_/SE_Controls.cpp:508-519 | release fires exactly for listed codes that are down or were down and have a release callback |
| Controls.ReleaseTraceOnce | dist/wcdx/src/se_/SE_Controls.cpp:508-519 | over distinct codes, each held code's release occurs in the trace exactly once |
| Controls.Reset | dist/wcdx/src/se_/SE_Controls.cpp:508-519 | fires release for every held entry with a release callback, then empties the table |
| Controls.ResetReleasesOnce | dist/wcdx/src/se_/SE_Controls.cpp:508-519 | a reset fires each held entry's release exactly once and no other code's |
| Controls.ResetTwiceFiresNothing | dist/wcdx/src/se_/SE_Controls.cpp:508-519 | a second reset fires nothing, and nothing is mapped afterwards |
| Controls.Map | dist/wcdx/src/se_/SE_Controls.cpp:521-534 | the name's code gets a fresh state (four flags false) and the given callbacks, keeping a move callback; other codes unchanged |
| Controls.MapMove | dist/wcdx/src/se_/SE_Controls.cpp:536-546 | as `Map` for the move callback, keeping the existing edge callbacks |
| Controls.MapUnknownNameUsesZero | dist/wcdx/src/se_/SE_Controls.cpp:524-525 | mapping an unknown name maps code 0 |
| Controls.MapThenReadPressIffDown | dist/wcdx/src/se_/SE_Controls.h:13-22 | a freshly mapped code fires press on its first tick exactly when it resolves down |
| Controls.SetMouseMoveScale | dist/wcdx/src/se_/SE_Controls.cpp:548-552 | a negative scale is stored as 0; nothing else changes |
| Controls.SetMouseMoveDeadzone | dist/wcdx/src/se_/SE_Controls.cpp:554-558 | a negative deadzone is stored as 0; nothing else changes |
| Controls.ZeroScaleSilencesMove | dist/wcdx/src/se_/SE_Controls.cpp:217-224 | with scale 0 the move callback never fires |
| Joystick.EnsureOriginals | dist/wcdx/src/key_jacker/KJ_Joystick.h:74-86 | the real entry points are looked up once and then kept |
| Joystick.Install | dist/wcdx/src/key_jacker/KJ_Joystick.h:235-244 | first use installs a neutral joystick; later calls change nothing |
| Joystick.Shutdown | dist/wcdx/src/key_jacker/KJ_Joystick.h:247-281 | shutdown neutralises the joystick and forgets the entry points, keeping the probe cache |
| Joystick.SetAxis | dist/wcdx/src/key_jacker/KJ_Joystick.h:287-300 | only the named axis changes; buttons and hat are untouched |
| Joystick.SetBit | dist/wcdx/src/key_jacker/KJ_Joystick.h:302-309 | setting bit k leaves the other 31 bits unchanged |
| Joystick.ClearBit | dist/wcdx/src/key_jacker/KJ_Joystick.h:302-309 | clearing bit k leaves the other 31 bits unchanged |
| Joystick.SetButton | dist/wcdx/src/key_jacker/KJ_Joystick.h:302-309 | only bit i of the mask changes; axes and hat are untouched |
| Joystick.SetPov | dist/wcdx/src/key_jacker/KJ_Joystick.h:311-317 | only the hat changes |
| Joystick.ResetAxesToCenter | dist/wcdx/src/key_jacker/KJ_Joystick.h:320-328 | all six axes centred, buttons and hat kept, nothing when uninitialised |
| Joystick.ResetVirtualJoystick | dist/wcdx/src/key_jacker/KJ_Joystick.h:331-345 | axes centred, buttons 0, hat centred, nothing when uninitialised |
| Joystick.ResetAbsorbsCentering | dist/wcdx/src/key_jacker/KJ_Joystick.h:320-345 | centring the axes before a full reset makes no difference |
| Joystick.BlendJoyValue | dist/wcdx/src/key_jacker/KJ_Joystick.h:365-373 | the real value plus the virtual deflection from 32767, clamped to 0..65535, for every pair of values whose C `int` sum does not overflow |
| Joystick.BlendCenterIsIdentity | dist/wcdx/src/key_jacker/KJ_Joystick.h:365-373 | a centred virtual axis leaves the real value unchanged |
| Joystick.BlendSaturates | dist/wcdx/src/key_jacker/KJ_Joystick.h:365-373 | 65000 with 42767 gives 65535 and 100 with 0 gives 0, never a wrapped value |
| Joystick.BlendMonotone | dist/wcdx/src/key_jacker/KJ_Joystick.h:365-373 | the blend is monotone in both arguments |
| Joystick.IsRealJoystickActive | dist/wcdx/src/key_jacker/KJ_Joystick.h:89-147 | ids from 4 up are never present and touch nothing; a query changes only its own cache slot |
| Joystick.ProbeCacheBehaviour | dist/wcdx/src/key_jacker/KJ_Joystick.h:89-147 | with `joyGetPosEx` found (the caps entries optional), the cached answer is returned before the interval; a due probe finds a device exactly when the position query succeeds and, if a caps entry exists, the caps query does too, and records its outcome, zeroing the ladder on success and climbing it on failure |
| Joystick.AbsentAnswerIsCached | dist/wcdx/src/key_jacker/KJ_Joystick.h:97-110 | after a failed probe, the device reads absent without a probe until the backoff interval has elapsed |
| Joystick.JoyGetPos | dist/wcdx/src/key_jacker/KJ_Joystick.h:375-408 | a null buffer gives `MMSYSERR_INVALPARAM` and changes nothing |
| Joystick.PosMergesWithRealDevice | dist/wcdx/src/key_jacker/KJ_Joystick.h:381-396 | with a real device: x, y and z each blended with the virtual axis, buttons the real ones (dropped when any gamepad code is mapped) OR the low 16 virtual buttons |
| Joystick.JoyGetPosEx | dist/wcdx/src/key_jacker/KJ_Joystick.h:410-455 | a null or undersized buffer gives `MMSYSERR_INVALPARAM` and changes nothing |
| Joystick.PosExMergesWithRealDevice | dist/wcdx/src/key_jacker/KJ_Joystick.h:420-434 | with a real device: real buttons (dropped when any gamepad code is mapped) OR virtual buttons, a non-centred virtual hat overriding, and all six axes x, y, z, r, u, v blended with the virtual ones |
| Joystick.NoDeviceReportsVirtualState | dist/wcdx/src/key_jacker/KJ_Joystick.h:410-454 | for any id with no device (id from 4, missing `joyGetPosEx`, failed or cached-absent probe), the extended reply succeeds with the virtual state exactly |
| Joystick.NoDeviceShortReportsVirtualState | dist/wcdx/src/key_jacker/KJ_Joystick.h:375-408 | for any id with no device, the short reply succeeds with the low 16 bits of the virtual axes and buttons |
| Joystick.NoDeviceInstalls | dist/wcdx/src/key_jacker/KJ_Joystick.h:441-454 | for any id with no device, a first extended reply succeeds, installs the neutral joystick, and reports all six axes centred, no buttons and a centred hat |
| Joystick.NoDeviceShortInstalls | dist/wcdx/src/key_jacker/KJ_Joystick.h:398-408 | for any id with no device, a first short reply installs the neutral joystick and reports centred axes and no buttons |
| Joystick.NoDeviceCases | dist/wcdx/src/key_jacker/KJ_Joystick.h:89-147 | for ids 0..3 there is no device when `joyGetPosEx` is missing or a due probe's position query fails |
| Joystick.JoyGetNumDevs | dist/wcdx/src/key_jacker/KJ_Joystick.h:352-361 | always one device |
| Joystick.JoyGetDevCaps | dist/wcdx/src/key_jacker/KJ_Joystick.h:457-474 | a null or short buffer is rejected; otherwise success, with the real answer passed through exactly when the real entry exists and succeeds, and the fabricated three-axis, 32-button device otherwise |
| Joystick.JoyGetDevCapsA | dist/wcdx/src/key_jacker/KJ_Joystick.h:457-474 | the ANSI variant checks against the ANSI struct size |
| Joystick.JoyGetDevCapsW | dist/wcdx/src/key_jacker/KJ_Joystick.h:476-493 | the wide variant checks against the wide struct size |
| XInputHook.ClearMaskBits | dist/wcdx/src/key_jacker/KJ_Xinput.h:102-115 | the clear mask holds exactly the bits of the mapped digital codes |
| XInputHook.SuppressButtons | dist/wcdx/src/key_jacker/KJ_Xinput.h:102-118 | a button reads held afterwards exactly when it was held and is not mapped; unnamed bits are kept |
| XInputHook.Suppress | dist/wcdx/src/key_jacker/KJ_Xinput.h:98-129 | the packet number is kept; each trigger is zeroed iff its code is mapped, each stick axis iff either direction is |
| XInputHook.SuppressIdempotent | dist/wcdx/src/key_jacker/KJ_Xinput.h:98-129 | suppressing twice is suppressing once |
| XInputHook.SuppressNothingMapped | dist/wcdx/src/key_jacker/KJ_Xinput.h:98-129 | with no gamepad code mapped the state is unchanged |
| XInputHook.GetState | dist/wcdx/src/key_jacker/KJ_Xinput.h:135-144 | without an original the result is "not connected"; otherwise the original's result, suppressed only on success |
| XInputHook.EnsureOriginals | dist/wcdx/src/key_jacker/KJ_Xinput.h:46-62 | the first DLL of the list that loads is used, once |
| XInputHook.Shutdown | dist/wcdx/src/key_jacker/KJ_Xinput.h:295-305 | everything is forgotten |
| XInputHook.HookedGetState | dist/wcdx/src/key_jacker/KJ_Xinput.h:135-144 | the hooked call looks up the originals and replies "not connected" without one |
| XInputHook.NoDllMeansDisconnected | dist/wcdx/src/key_jacker/KJ_Xinput.h:135-144 | when no XInput DLL loads, every call replies "not connected" |
| XInputHook.FirstLoaded | dist/wcdx/src/key_jacker/KJ_Xinput.h:46-62 | the index of the first DLL that loads, or none when none does |
| XInputHook.IsXInputDllName | dist/wcdx/src/key_jacker/KJ_Xinput.h:68-75 | case-insensitive membership in the five XInput DLL names; null is false |
| Text.CompareIgnoringCase | dist/wcdx/src/key_jacker/KJ_Xinput.h:68-75 | `_stricmp(a, b) == 0` exactly when the ASCII-folded texts are equal |
| XInputHook.BasenameAtUnique | dist/wcdx/src/key_jacker/KJ_Xinput.h:83-86 | a path has exactly one position where its file part starts (after the last `\` or `/`, or at 0) |
| XInputHook.Basename | dist/wcdx/src/key_jacker/KJ_Xinput.h:83-86 | the basename is the suffix after the last `\` or `/` and holds neither |
| XInputHook.BasenameDecides | dist/wcdx/src/key_jacker/KJ_Xinput.h:83-92 | because the file part starts at one place only, asking whether the path's file part is an XInput name is asking it of the file part found |
| XInputHook.JoinedPathBasename | dist/wcdx/src/key_jacker/KJ_Xinput.h:83-86 | for any directory, `dir\name` with a separator-free `name` has `name` as its file part |
| XInputHook.LongerComponentRejected | dist/wcdx/src/key_jacker/KJ_Xinput.h:88-92 | a file part that only ends in an XInput DLL name (`myxinput1_4.dll`) is not an XInput name |
| XInputHook.IsXInputModule | dist/wcdx/src/key_jacker/KJ_Xinput.h:77-92 | a module without a path is not XInput; with a path, true exactly when the path's file part (after the last separator) is one of the five XInput DLL names, ignoring case |
| XInputHook.GetProcAddress | dist/wcdx/src/key_jacker/KJ_Xinput.h:163-173 | redirect exactly for the name `XInputGetState` on an XInput module; otherwise forward when the original exists |
| XInputHook.DllNameIgnoresCase | dist/wcdx/src/key_jacker/KJ_Xinput.h:68-75 | upper-case `XINPUT1_4.DLL` is accepted |
| XInputHook.OtherDllNameRejected | dist/wcdx/src/key_jacker/KJ_Xinput.h:68-75 | another DLL name and a null name are rejected |
| XInputHook.OrdinalNeverRedirected | dist/wcdx/src/key_jacker/KJ_Xinput.h:163-173 | a lookup by ordinal is never redirected |
| Keyboard.KeyboardHook | dist/wcdx/src/key_jacker/KJ_Keyboard.h:44-62 | swallow exactly a non-injected, untagged event for a mapped key, recording down for key-down and sys-key-down; pass the rest unchanged |
| Keyboard.SwallowedKeyUpReadsUp | dist/wcdx/src/key_jacker/KJ_Keyboard.h:55-59 | a swallowed key-up makes the key read up on the next poll, whatever the key state says |
| Keyboard.NoFeedback | dist/wcdx/src/key_jacker/KJ_Keyboard.h:45-52 | every event the injector sends is tagged, so the hook passes it through |
| Keyboard.InitialDelay | dist/wcdx/src/key_jacker/KJ_Keyboard.h:136 | the initial delay is (setting + 1) × 250 ms, 250..1000 ms |
| Keyboard.EnsureStarted | dist/wcdx/src/key_jacker/KJ_Keyboard.h:126-143 | the first call sets the delay and interval; later calls change nothing |
| Keyboard.InjectKey | dist/wcdx/src/key_jacker/KJ_Keyboard.h:209-237 | a press of a held key does nothing; a new press records both ticks as now; a release removes the key; both queue one tagged event |
| Keyboard.FastRepeatTick | dist/wcdx/src/key_jacker/KJ_Keyboard.h:251-252 | one interval before now, or 0 when now is below the interval |
| Keyboard.InjectKeyFastRepeat | dist/wcdx/src/key_jacker/KJ_Keyboard.h:240-269 | the key ends held and consumed with the back-dated repeat tick; a key-down is queued only for a new key |
| Keyboard.WaitTime | dist/wcdx/src/key_jacker/KJ_Keyboard.h:73-74 | while a key is held, wait a quarter interval, or exactly 1 ms when the interval is below 4; otherwise indefinitely |
| Keyboard.RepeatKey | dist/wcdx/src/key_jacker/KJ_Keyboard.h:111-118 | a due key is marked consumed with repeat tick now; otherwise unchanged |
| Keyboard.RepeatLoop | dist/wcdx/src/key_jacker/KJ_Keyboard.h:99-118 | each listed key is updated by its schedule, and one repeat is sent exactly per due key (distinct keys, listed in ascending order, the model's choice) |
| Keyboard.WorkerPass | dist/wcdx/src/key_jacker/KJ_Keyboard.h:65-124 | one worker pass sends the queue in order, then exactly the due repeats with no repeat twice, and empties the queue |
| Keyboard.FirstRepeatAfterDelay | dist/wcdx/src/key_jacker/KJ_Keyboard.h:111-114 | a new key first repeats once the wrapped time since the press reaches the initial delay |
| Keyboard.RepeatsEveryInterval | dist/wcdx/src/key_jacker/KJ_Keyboard.h:115-118 | after a repeat, the next is due exactly once the wrapped interval has elapsed |
| Keyboard.FastRepeatDueAtOnce | dist/wcdx/src/key_jacker/KJ_Keyboard.h:240-269 | a fast-repeated key is due on the same tick, unless the tick count is still below the interval |
| Keyboard.RepeatedPressIsNoOp | dist/wcdx/src/key_jacker/KJ_Keyboard.h:214-218 | pressing an already injected key changes nothing |
| Keyboard.ReleaseEvents | dist/wcdx/src/key_jacker/KJ_Keyboard.h:163-175 | two tagged key-ups per key, the scan-code form first |
| Keyboard.ReleaseAllKeys | dist/wcdx/src/key_jacker/KJ_Keyboard.h:159-178 | when started, two tagged key-ups per held key and the map emptied; otherwise nothing |
| Keyboard.Shutdown | dist/wcdx/src/key_jacker/KJ_Keyboard.h:181-206 | releases all keys, then leaves queue and map empty and the injector stopped |
| Mouse.ButtonMessage | dist/wcdx/src/key_jacker/KJ_Mouse.h:39-53 | button messages map to -1 (left), -2 (middle), -3 (right), -4/-5 (X buttons); every other message is none |
| Mouse.MouseHook | dist/wcdx/src/key_jacker/KJ_Mouse.h:27-63 | swallow exactly a non-injected, untagged button event for a mapped code, recording its up/down; pass the rest unchanged |
| Mouse.MoveMessagePassesThrough | dist/wcdx/src/key_jacker/KJ_Mouse.h:53 | move and wheel messages always pass through |
| Mouse.ButtonUp | dist/wcdx/src/key_jacker/KJ_Mouse.h:79-102 | a synthesised release is tagged and does not move |
| Mouse.ButtonUpInjective | dist/wcdx/src/key_jacker/KJ_Mouse.h:79-102 | different buttons get different release events |
| Mouse.ButtonReleases | dist/wcdx/src/key_jacker/KJ_Mouse.h:79-102 | one release for each mouse-button code in the list and nothing for other codes |
| Mouse.ButtonReleasedOnce | dist/wcdx/src/key_jacker/KJ_Mouse.h:79-102 | each listed mouse button is released exactly once |
| Mouse.ReleaseAllButtons | dist/wcdx/src/key_jacker/KJ_Mouse.h:79-102 | exactly one tagged button-up per held mouse-button code |
| Mouse.InjectMouseButton | dist/wcdx/src/key_jacker/KJ_Mouse.h:105-118 | 0 is left, 1 right, 2 middle; other indices send nothing |
| Mouse.AbsoluteCoordinate | dist/wcdx/src/key_jacker/KJ_Mouse.h:126-136 | a non-positive screen size gives 0 |
| Mouse.AbsoluteOnScreen | dist/wcdx/src/key_jacker/KJ_Mouse.h:126-136 | an on-screen coordinate (screen up to 32768) maps into 0..65535 as x·65535/size |
| Mouse.InjectMouseMove | dist/wcdx/src/key_jacker/KJ_Mouse.h:121-139 | a relative move sends x and y unchanged; an absolute move sends the normalised coordinates |
| Mouse.MouseSignal | dist/wcdx/src/key_jacker/KJ_Mouse.h:142-157 | twelve tagged relative moves alternating +2 and -2 |
| Mouse.SignalNetZero | dist/wcdx/src/key_jacker/KJ_Mouse.h:151-156 | the signal's net displacement is zero |
| InputMain.PhysicalRelease | dist/wcdx/src/key_jacker/KJ_Main.h:40-73 | keyboard codes get two tagged key-ups (virtual-key form first); mouse-button codes get one button-up; other codes get nothing |
| InputMain.ReleaseNamesItsCode | dist/wcdx/src/key_jacker/KJ_Main.h:40-73 | every release event of a code names that code |
| InputMain.ReleasedOnce | dist/wcdx/src/key_jacker/KJ_Main.h:38-74 | each release event of a listed code appears exactly once |
| InputMain.ReleaseAllPhysicalKeys | dist/wcdx/src/key_jacker/KJ_Main.h:38-74 | the events are exactly the releases of the held codes, each once |
| InputMain.GamepadCodesSendNothing | dist/wcdx/src/key_jacker/KJ_Main.h:40-73 | a held gamepad code sends nothing |
| InputMain.Install | dist/wcdx/src/key_jacker/KJ_Main.h:77-91 | hooks end installed when they were or when installing succeeds; the engine is untouched; injected keys are released; the joystick is initialised |
| InputMain.InstallClearsFirst | dist/wcdx/src/key_jacker/KJ_Main.h:79-90 | every clearing step comes before every install step |
| InputMain.InstallKeepsHooks | dist/wcdx/src/key_jacker/KJ_Main.h:77-91 | installing again never removes a hook |
| InputMain.Uninstall | dist/wcdx/src/key_jacker/KJ_Main.h:94-109 | hooks removed, injector, joystick and XInput shut down, the engine untouched |
| InputMain.UninstallUnhooksFirst | dist/wcdx/src/key_jacker/KJ_Main.h:95-108 | both hooks go before any state is cleared |
| InputMain.UninstallClearsBeforeShutdown | dist/wcdx/src/key_jacker/KJ_Main.h:95-108 | all clearing happens before any subsystem shuts down |
| Destro.Modifier | dist/wcdx/src/se_/destro_thread.h:81-88 | the result equals value + modifier modulo 256 |
| Destro.ModifierInverse | dist/wcdx/src/se_/destro_thread.h:81-88 | adding m and then -m gives back the byte |
| Destro.TickCount64 | dist/wcdx/src/se_/destro_thread.h:23-33 | the low 32 bits equal the current tick, and the high part advances by 2^32 exactly on a wrap |
| Destro.TickAdvancesByElapsed | dist/wcdx/src/se_/destro_thread.h:23-33 | the 64-bit count advances by exactly the wrapped 32-bit elapsed time, so it never goes back |
| Destro.MidRampIsRounding | dist/wcdx/src/se_/destro_thread.h:104-110 | the mid-ramp speed is 1 + (max-1)·elapsed/ramp rounded half up |
| Destro.MidRampBounds | dist/wcdx/src/se_/destro_thread.h:104-110 | the mid-ramp speed lies in 1..max and is 1 at the start |
| Destro.RampedRollSpeed | dist/wcdx/src/se_/destro_thread.h:90-112 | 0 and a reset ramp when no key is held; otherwise the ramp starts at the first held tick, the speed stays in 1..max(MAX,1), follows the rounding ramp, and reaches MAX after the ramp time |
| Destro.MidRampReferenceMonotone | dist/wcdx/src/se_/destro_thread.h:104-110 | the speed never drops while the key stays held |
| Destro.ResetRamps | dist/wcdx/src/se_/destro_thread.h:184-198 | each ramp start is zeroed exactly when both keys of its own pair are up |
| Destro.RollOverride | dist/wcdx/src/se_/destro_thread.h:200-231 | outside Vengeance nothing; both keys {0,0}; comma {Modifier(1,s),0}; period {Modifier(0xFF,-s),0xFF}; neither: {0,0} once after activity |
| Destro.RollIsSymmetric | dist/wcdx/src/se_/destro_thread.h:215-222 | left and right rolls write opposite bytes, ±(1 + speed) as signed bytes |
| Destro.OppositeModifiers | dist/wcdx/src/se_/destro_thread.h:215-222 | the comma and period bytes for one speed cancel modulo 256, and read as ±(1 + speed) when the speed fits a signed byte |
| Destro.RollPatchWrites | dist/wcdx/src/se_/destro_thread.h:200-231 | patching the roll address with the list writes exactly its two bytes |
| Destro.LoopStep | dist/wcdx/src/se_/destro_thread.h:741-742 | one loop iteration resets the released ramps, then runs the roll override on the reset roll ramp: released roll keys zero the roll ramp and write neutral bytes only after movement, one roll key starts the ramp at `now` when it was 0, both keys write neutral bytes, and outside Vengeance of the Kilrathi only the ramps are reset |
| Destro.NeutralWrittenOnce | dist/wcdx/src/se_/destro_thread.h:223-229 | after activity, the neutral bytes are written on the first idle tick and nothing on the next |
| Destro.RampRestartsAfterRelease | dist/wcdx/src/se_/destro_thread.h:184-198 | a roll pressed again after a full release starts its ramp at the new tick |
| SpaceLimiter.EpisodeAddress | dist/wcdx/src/se_/frame_limiter.h:93-113 | the patch address of the first matching title (Vengeance, Special Operations II, then I), or none |
| SpaceLimiter.Space | dist/wcdx/src/se_/frame_limiter.h:89-130 | the level is the modifier when in 0..4, else 0; one byte equal to the level goes to the episode's address, if any |
| SpaceLimiter.Cycle | dist/wcdx/src/se_/frame_limiter.h:132-135 | the next level after 0..3 is one more; after 4 or an out-of-range value it is 0 |
| SpaceLimiter.CycleVisitsAllLevels | dist/wcdx/src/se_/frame_limiter.h:132-135 | from 0, five cycles visit 1, 2, 3, 4 and come back to 0 |
| SpaceLimiter.WriteIsLevel | dist/wcdx/src/se_/frame_limiter.h:93-99 | in Vengeance the written byte is the new level at 0x6944F |
| SpaceLimiter.SpecialOps2NotMistaken | dist/wcdx/src/se_/frame_limiter.h:100-115 | a Special Operations II window also contains the part one title, and matching II first still picks II |
| Titles.TitleText | dist/wcdx/src/se_/defines.h:36-39 | the title is read into a 512-character buffer, keeping at most 511 characters |
| Titles.AnyMatch | dist/wcdx/src/se_/defines.h:26-45 | true exactly when some visible window of the process has a non-empty title containing the text |
| Titles.HasTitle | dist/wcdx/src/se_/defines.h:48-57 | a null title matches; otherwise as `AnyMatch` |
| Titles.PrefixMatches | dist/wcdx/src/se_/defines.h:38-39 | a window that matches a title also matches every non-empty prefix of it |
| Titles.SpecialOpsTitlesNest | dist/wcdx/src/se_/frame_limiter.h:100-115 | "Special Operations II" contains "Special Operations I", but not the other way round |
| Widescreen.Switch | dist/wcdx/src/se_/widescreen.h:31-45 | 4:3 goes to 16:9, 16:9 to 16:10, anything else to 4:3 |
| Widescreen.SwitchHasPeriodThree | dist/wcdx/src/se_/widescreen.h:31-45 | three switches return to the start, and no fewer do |
| Widescreen.SwitchReachesAll | dist/wcdx/src/se_/widescreen.h:31-45 | three switches visit all three ratios |
| Ini.FirstNonWs | dist/wcdx/src/wcdx_ini.h:21-27 | the first non-whitespace index, with only whitespace before it |
| Ini.EndNonWs | dist/wcdx/src/wcdx_ini.h:21-27 | one past the last non-whitespace index, with only whitespace after it |
| Ini.Trim | dist/wcdx/src/wcdx_ini.h:21-27 | the text from the first to the last non-whitespace character, interior unchanged; empty exactly for all-whitespace input |
| Ini.TrimmedUnique | dist/wcdx/src/wcdx_ini.h:21-27 | any text whose surroundings are whitespace and whose ends are not is the trimmed text |
| Ini.TrimPadded | dist/wcdx/src/wcdx_ini.h:21-27 | trimming removes exactly the whitespace padding around text |
| Ini.TrimIdempotent | dist/wcdx/src/wcdx_ini.h:21-27 | trimming twice is trimming once |
| Ini.FindFirstOf | dist/wcdx/src/wcdx_ini.h:55-57 | the first index holding one of the characters, or none |
| Ini.StripComment | dist/wcdx/src/wcdx_ini.h:55-56 | a prefix of the line free of `;` and `#`, cut exactly at the first of them |
| Ini.ParseLine | dist/wcdx/src/wcdx_ini.h:53-61 | a parsed key and value are non-empty, trimmed and free of comment characters, and the key holds no `=` |
| Ini.SplitAt | dist/wcdx/src/wcdx_ini.h:57-61 | the same facts for the split at the first `=` |
| Ini.ParseFormatted | dist/wcdx/src/wcdx_ini.h:53-61 | a `key=value` line parses back to that key and value, also when the value holds `=` |
| Ini.CommentLineIgnored | dist/wcdx/src/wcdx_ini.h:55-56 | a line starting with `;` or `#` carries no setting |
| Ini.Entries | dist/wcdx/src/wcdx_ini.h:53-61 | every entry comes from one line of the file |
| Ini.EntriesComplete | dist/wcdx/src/wcdx_ini.h:53-61 | every line that parses contributes its setting to the entries |
| Ini.Load | dist/wcdx/src/wcdx_ini.h:43-71 | a missing file reports the save and yields nothing; an unopenable file fails; otherwise every line is parsed |
| Ini.SavedFileHasNoEntries | dist/wcdx/src/wcdx_ini.h:30-40 | the file written by a save yields no settings when loaded |
| PushByte.PushBytes | dist/wcdx/src/se_/push_byte.h:61-87 | fails without writing when the module or protection is missing; otherwise the range becomes the patch (or 0x90 for none) and all else is unchanged |
| PushByte.PushList | dist/wcdx/src/se_/push_byte.h:22-30 | a short list fails without writing; otherwise the low bytes of the list are pushed |
| PushByte.LowBytes | dist/wcdx/src/se_/push_byte.h:27-28 | each element cut to its low byte |
| PushByte.PushArray | dist/wcdx/src/se_/push_byte.h:48-59 | a short array or vector fails without writing |
| PushByte.ListPatchReadsBack | dist/wcdx/src/se_/push_byte.h:74-77 | after a list patch the range reads back as the list's first bytes; extra elements are ignored |
| PushByte.PushIdempotent | dist/wcdx/src/se_/push_byte.h:61-87 | pushing the same patch twice is pushing it once |
| PushByte.DisjointPatchesCommute | dist/wcdx/src/se_/push_byte.h:61-87 | patches of disjoint ranges commute |
| Peek.UnitsRead | dist/wcdx/src/se_/SE_Peek.cpp:82 | one read delivers at most the requested characters, and none when under a whole character came back |
| Peek.Readable | dist/wcdx/src/se_/SE_Peek.cpp:36-57 | the reads deliver at most `maxLen` characters |
| Peek.FirstNul | dist/wcdx/src/se_/SE_Peek.cpp:47-51 | the first NUL in the range, with none before it |
| Peek.Expected | dist/wcdx/src/se_/SE_Peek.cpp:30-64 | the reference result: at most `maxLen` non-NUL characters of the memory; empty on failure; failure without a process or for `maxLen` 0 |
| Peek.ReadString | dist/wcdx/src/se_/SE_Peek.cpp:30-64 | the read loop returns exactly the reference result |
| Peek.ReadAnsiString | dist/wcdx/src/se_/SE_Peek.cpp:30-64 | the byte reader returns the reference result for one-byte characters |
| Peek.ReadWideString | dist/wcdx/src/se_/SE_Peek.cpp:66-100 | the wide reader returns the reference result for two-byte characters |
| Peek.FullReadsFindTerminator | dist/wcdx/src/se_/SE_Peek.cpp:36-57 | when every read delivers a full chunk, all `maxLen` characters are readable |
| Peek.OddByteIsNoWideChar | dist/wcdx/src/se_/SE_Peek.cpp:82 | a single byte is a character for the byte reader but not for the wide one |

## Left out

- Operating system calls are inputs or emitted events, never performed. This covers hooks, `SendInput`, `MapVirtualKey`, `GetAsyncKeyState`, `GetCursorPos`, `LoadLibrary`, `GetProcAddress`, `SystemParametersInfo`, `ReadProcessMemory`, `VirtualProtect` and window enumeration.
- Threads, critical sections, events, the worker's stop flag and the join timeout are left out. One worker pass and one tick are modelled as sequential steps.
- Import-table patching (`KJ_Joystick.h` 154-229, `KJ_Xinput.h` 179-288) is left out: it is raw PE walking over process memory.
- `Controls.ScaledDelta`: the mouse-move scale is an exact real, not a `float`, so `roundf` rounding of inexact products is not modelled.
- `Keyboard.EnsureStarted`: the `double`-based repeat interval (`KJ_Keyboard.h` 137-138) is an input rather than computed from the keyboard speed setting.
- `Destro.RampedRollSpeed`: the mid-ramp speed uses exact reals where the source uses `double`; the ramp time and `MAX_ROLL_SPEED` are a constant and a parameter.
- The joystick speed ramps `GetRampedJoystickSpeedX`/`Y` (`destro_thread.h` 117-182) are left out; they are floating point.
- The per-title mapping table and busy loop of `DestroThread` are left out. They are policy; only the roll-override step they call (`LoopStep`) is modelled.
- Both `FrameLimiter::onFrame` timers are left out; they are timing and floating point.
- `RecomputeWindowFrameRect` after an aspect switch is left out; it is window messaging.
- File I/O of `wcdx_ini_Save` and `wcdx_ini_Load` is modelled only as inputs: existence, opening, save success and the file's lines.
- `SE_Peek`'s constructor, `CreateFromPid` and its handle management are left out. Memory is a function from offset to character, and each `ReadProcessMemory` answer is an element of a sequence.
- `Joystick.JoyGetPos`: its own contract states the error path only. The replies are stated by `Joystick.PosMergesWithRealDevice` (real device), and `Joystick.NoDeviceShortReportsVirtualState` and `Joystick.NoDeviceShortInstalls` (no device, any id).
- `Joystick.JoyGetPosEx`: its own contract states the error path only. The replies are stated by `Joystick.PosExMergesWithRealDevice` (real device), and `Joystick.NoDeviceReportsVirtualState` and `Joystick.NoDeviceInstalls` (no device, any id).
- `Controls.GetCurrentlyHeldKeys`: the ascending order of the returned list is the model's choice; the source returns the codes in `unordered_map` order, which it does not fix. The same holds for the cross-code order of the traces of `Controls.Read` and `Controls.Reset`.
- `Peek.ReadWideString`: characters are Unicode scalar values, so wide memory holding an unpaired UTF-16 surrogate unit cannot be represented.
- `Joystick.JoyInfo`: the `UINT` fields of `JOYINFO` are held as 16-bit values. Every value the hook writes fits, because of the `& 0xFFFF` masks and the clamp, but a real reply above 65535 cannot be represented.
- `SE_Controls` getters for scale and deadzone are not modelled separately; they read the engine's fields.
- `SE_Controls_IsMapped` is the predicate `Controls.IsMapped` (code in the table) and needs no lemma.
- The logging in `SE_Log.h` and the DLL entry in `main.cpp` are left out.

=== FILE: backoff.dfy ===
/** The device-probe backoff ladder.

    Both the control engine's gamepad probe and the legacy joystick probe
    space their probes of absent hardware by the same ladder: 250 ms after the
    first failure, then 500, 1000 and finally 2000 ms, two failures per rung.
    A success resets the interval to 0, meaning "probe every tick".
 */
module Backoff {
  import opened Words

  /** The interval after `failures` consecutive failed probes. */
  function ProbeInterval(failures: int): (ms: nat)
  {
    if failures >= 6 then 2000
    else if failures >= 4 then 1000
    else if failures >= 2 then 500
    else 250
  }

  function Pow2(n: nat): (p: nat)
    ensures p >= 1
  {
    if n == 0 then 1 else 2 * Pow2(n - 1)
  }

  /** An independent statement of the ladder: the base interval doubles every
      two failures and stops doubling at the fourth rung. */
  function LadderReference(failures: int): nat
  {
    250 * Pow2(Min(3, Max(0, failures) / 2))
  }

  /** The written ladder agrees with the doubling description at every count. */
  lemma ProbeIntervalIsDoubling(failures: int)
    ensures ProbeInterval(failures) == LadderReference(failures)
  {
    var rung := Min(3, Max(0, failures) / 2);
    assert rung == 0 || rung == 1 || rung == 2 || rung == 3;
    assert Pow2(0) == 1 && Pow2(1) == 2 && Pow2(2) == 4 && Pow2(3) == 8;
  }

  /** More failures never shorten the interval. */
  lemma ProbeIntervalMonotone(f: int, g: int)
    requires f <= g
    ensures ProbeInterval(f) <= ProbeInterval(g)
  {
  }

  /** The interval is always one of the four rungs, and never 0. */
  lemma ProbeIntervalRungs(f: int)
    ensures ProbeInterval(f) in {250, 500, 1000, 2000}
  {
  }

  /** Failures 1..8 give 250, 500, 500, 1000, 1000, 2000, 2000, 2000 (0 also gives 250). */
  lemma ProbeIntervalFirstEight()
    ensures ProbeInterval(1) == 250 && ProbeInterval(2) == 500 == ProbeInterval(3)
    ensures ProbeInterval(4) == 1000 == ProbeInterval(5)
    ensures ProbeInterval(6) == 2000 == ProbeInterval(7) == ProbeInterval(8)
  {
  }

  /** Probe bookkeeping: time of the last probe, current interval, failure count. */
  datatype ProbeState = ProbeState(lastTick: U32, intervalMs: nat, failures: nat)

  const InitialProbe := ProbeState(0, 0, 0)

  /** Whether a probe is due: always when the interval is 0, otherwise once the
      wrapped 32-bit time since the last probe reaches the interval. */
  predicate ProbeDue(p: ProbeState, now: U32)
  {
    p.intervalMs == 0 || Elapsed(now, p.lastTick) >= p.intervalMs
  }

  /** Record the outcome of a probe made at `now`. */
  function AfterProbe(p: ProbeState, now: U32, success: bool): (q: ProbeState)
    ensures q.lastTick == now
    ensures success ==> q.failures == 0 && q.intervalMs == 0
    ensures !success ==> q.failures == p.failures + 1 && q.intervalMs == ProbeInterval(p.failures + 1)
    ensures !success ==> q.intervalMs >= 250
  {
    if success then ProbeState(now, 0, 0)
    else ProbeState(now, ProbeInterval(p.failures + 1), p.failures + 1)
  }

  /** After any probe, the next one is due immediately exactly when the probe succeeded. */
  lemma NextProbeImmediateIffSuccess(p: ProbeState, now: U32, success: bool)
    ensures ProbeDue(AfterProbe(p, now, success), now) <==> success
  {
  }

  /** After a failure, no probe happens while less than the interval has elapsed. */
  lemma NoProbeBeforeInterval(p: ProbeState, probedAt: U32, now: U32)
    requires Elapsed(now, probedAt) < ProbeInterval(p.failures + 1)
    ensures !ProbeDue(AfterProbe(p, probedAt, false), now)
  {
  }
}

=== FILE: codes.dfy ===
/** Logical input codes: one signed integer space for every device class.

    Positive codes are Windows virtual-key codes, -1..-5 are mouse buttons,
    -8 is mouse movement, and -10..-33 are Xbox controller buttons, triggers
    and thumbstick directions. Code 0 is what an unknown key name maps to.
 */
module Codes {

  // Mouse codes
  const MouseLeft: int := -1
  const MouseMiddle: int := -2
  const MouseRight: int := -3
  const MouseX1: int := -4
  const MouseX2: int := -5
  const MouseMove: int := -8

  // Xbox controller codes
  const XboxA: int := -10
  const XboxB: int := -11
  const XboxX: int := -12
  const XboxY: int := -13
  const XboxLB: int := -14
  const XboxRB: int := -15
  const XboxLSClick: int := -16
  const XboxRSClick: int := -17
  const XboxBack: int := -18
  const XboxStart: int := -19
  const XboxDPadUp: int := -20
  const XboxDPadDown: int := -21
  const XboxDPadLeft: int := -22
  const XboxDPadRight: int := -23
  const XboxLT: int := -24
  const XboxRT: int := -25
  const XboxLSUp: int := -26
  const XboxLSDown: int := -27
  const XboxLSLeft: int := -28
  const XboxLSRight: int := -29
  const XboxRSUp: int := -30
  const XboxRSDown: int := -31
  const XboxRSLeft: int := -32
  const XboxRSRight: int := -33

  // Windows virtual-key codes for the mouse buttons, as polled by GetAsyncKeyState
  const VkLButton: int := 0x01
  const VkRButton: int := 0x02
  const VkMButton: int := 0x04
  const VkXButton1: int := 0x05
  const VkXButton2: int := 0x06

  /** The control engine's notion of a gamepad code (a wider band than the codes in use). */
  predicate IsGamepadCode(code: int)
  {
    code <= -10 && code >= -99
  }

  /** A mouse-button code, -5..-1. */
  predicate IsMouseButtonCode(code: int)
  {
    -5 <= code <= -1
  }

  /** The virtual key GetAsyncKeyState is asked about for a mouse-button code. */
  function MouseButtonVk(code: int): (vk: int)
    requires IsMouseButtonCode(code)
    ensures vk in {VkLButton, VkRButton, VkMButton, VkXButton1, VkXButton2}
  {
    if code == MouseLeft then VkLButton
    else if code == MouseMiddle then VkMButton
    else if code == MouseRight then VkRButton
    else if code == MouseX1 then VkXButton1
    else VkXButton2
  }

  /** Every code the engine names lies in exactly one device class. */
  lemma CodeClassesDisjoint(code: int)
    ensures !(IsGamepadCode(code) && IsMouseButtonCode(code))
    ensures IsGamepadCode(code) ==> code < 0 && code != MouseMove
    ensures IsMouseButtonCode(code) ==> code < 0 && code != MouseMove
  {
  }

  /** Distinct mouse-button codes poll distinct virtual keys. */
  lemma MouseButtonVkInjective(a: int, b: int)
    requires IsMouseButtonCode(a) && IsMouseButtonCode(b)
    ensures MouseButtonVk(a) == MouseButtonVk(b) <==> a == b
  {
  }
}

=== FILE: controls.dfy ===
/** The control-mapping engine: a table from logical input code to key state,
    and the per-tick step that resolves every mapped code and fires its
    press, hold and release callbacks on edges.

    Callbacks are represented by presence flags; firing one is an emitted
    `Fire` value. The operating-system queries the original makes during a
    tick (held virtual keys, cursor position, tick count, the XInput library
    and its answers for the four controller slots) are fields of `TickInput`.
 */
module Controls {
  import opened Words
  import opened Optional
  import opened Codes
  import opened KeyNames
  import opened Backoff
  import opened Gamepad
  import KeyOrder

  /** One mapped code: current and previous resolved state, the override a
      hook may impose, and which callbacks are registered. */
  datatype KeyState = KeyState(
    isDown: bool,
    wasDown: bool,
    overrideActive: bool,
    overrideValue: bool,
    hasPress: bool,
    hasRelease: bool,
    hasConstant: bool,
    hasMove: bool)

  /** A freshly inserted table entry: nothing down, no override, no callbacks. */
  const FreshState := KeyState(false, false, false, false, false, false, false, false)

  type Table = map<int, KeyState>

  /** A mouse-move scale; the setter never stores a negative one. */
  type Scale = r: real | r >= 0.0 witness 0.0

  /** Whether the XInput library has been looked for, and if so whether it
      provided `XInputGetState`. The search happens once per process. */
  datatype Library = NotLoaded | Loaded(hasGetState: bool)

  /** All state the engine keeps between calls. */
  datatype Engine = Engine(
    keys: Table,
    moveScale: Scale,
    moveDeadzone: nat,
    lastPos: (int, int),
    library: Library,
    probe: ProbeState)

  const DefaultMoveScale: Scale := 0.2
  const InitialEngine := Engine(map[], DefaultMoveScale, 0, (0, 0), NotLoaded, InitialProbe)

  // Analog hysteresis thresholds: the lower value applies while already down.
  const TriggerPress: U8 := 30
  const TriggerRelease: U8 := 20
  const LeftThumbPress: I16 := 7849
  const LeftThumbRelease: I16 := 5887
  const RightThumbPress: I16 := 8689
  const RightThumbRelease: I16 := 6517

  datatype Callback = Press | Constant | Release

  /** An invoked callback: an edge callback of a code, or the move callback with its deltas. */
  datatype Fire = Edge(code: int, kind: Callback) | Moved(dx: int, dy: int)

  /** What the original asks the system during one tick. `answers[i]` is the
      reply of `XInputGetState` for user slot i (slots 0..3 are asked; a
      missing entry or `None` is a failure). `libraryExports` says whether the
      first XInput library found provides `XInputGetState`; it is consulted
      only on the first lookup. */
  datatype TickInput = TickInput(
    held: set<int>,
    cursor: (int, int),
    now: U32,
    libraryExports: bool,
    answers: seq<Option<PadState>>)

  datatype TickResult = TickResult(engine: Engine, fired: seq<Fire>)

  // ---------------------------------------------------------------------------
  // Queries

  predicate IsMapped(e: Engine, code: int)
  {
    code in e.keys
  }

  /** Codes whose entry is down now or was down on the previous tick. */
  function HeldSet(e: Engine): set<int>
  {
    set c | c in e.keys && (e.keys[c].isDown || e.keys[c].wasDown)
  }

  /** `GetCurrentlyHeldKeys`, enumerated in ascending code order. */
  function GetCurrentlyHeldKeys(e: Engine): (r: seq<int>)
    ensures forall c :: c in r <==> c in e.keys && (e.keys[c].isDown || e.keys[c].wasDown)
    ensures forall i, j :: 0 <= i < j < |r| ==> r[i] < r[j]
  {
    KeyOrder.Ascending(HeldSet(e))
  }

  // ---------------------------------------------------------------------------
  // Analog hysteresis

  /** A trigger is down at or above the press level; while already down it
      stays down down to the release level. */
  function TriggerDown(value: U8, wasDown: bool): (down: bool)
    ensures value >= TriggerPress ==> down
    ensures value < TriggerRelease ==> !down
    ensures TriggerRelease <= value < TriggerPress ==> (down <==> wasDown)
  {
    value >= (if wasDown then TriggerRelease else TriggerPress)
  }

  /** A thumb axis pushed in its positive direction, with hysteresis. */
  function AxisPositive(value: I16, press: I16, release: I16, wasDown: bool): (down: bool)
    ensures release <= press && value > press ==> down
    ensures release <= press && value <= release ==> !down
    ensures release < value <= press ==> (down <==> wasDown)
  {
    value > (if wasDown then release else press)
  }

  /** A thumb axis pushed in its negative direction, with hysteresis. */
  function AxisNegative(value: I16, press: I16, release: I16, wasDown: bool): (down: bool)
    ensures release <= press && value < -(press as int) ==> down
    ensures release <= press && value >= -(release as int) ==> !down
    ensures -(press as int) <= value < -(release as int) ==> (down <==> wasDown)
  {
    value < -((if wasDown then release else press) as int)
  }

  /** The resolved state of a gamepad code for one controller reading. */
  function PadDown(code: int, wasDown: bool, p: Pad): (down: bool)
    requires IsGamepadCode(code)
    ensures IsDigitalCode(code) ==> (down <==> ButtonHeld(p.buttons, code))
    ensures code < XboxRSRight ==> !down
  {
    if IsDigitalCode(code) then ButtonHeld(p.buttons, code)
    else if code == XboxLT then TriggerDown(p.leftTrigger, wasDown)
    else if code == XboxRT then TriggerDown(p.rightTrigger, wasDown)
    else if code == XboxLSUp then AxisPositive(p.thumbLY, LeftThumbPress, LeftThumbRelease, wasDown)
    else if code == XboxLSDown then AxisNegative(p.thumbLY, LeftThumbPress, LeftThumbRelease, wasDown)
    else if code == XboxLSLeft then AxisNegative(p.thumbLX, LeftThumbPress, LeftThumbRelease, wasDown)
    else if code == XboxLSRight then AxisPositive(p.thumbLX, LeftThumbPress, LeftThumbRelease, wasDown)
    else if code == XboxRSUp then AxisPositive(p.thumbRY, RightThumbPress, RightThumbRelease, wasDown)
    else if code == XboxRSDown then AxisNegative(p.thumbRY, RightThumbPress, RightThumbRelease, wasDown)
    else if code == XboxRSLeft then AxisNegative(p.thumbRX, RightThumbPress, RightThumbRelease, wasDown)
    else if code == XboxRSRight then AxisPositive(p.thumbRX, RightThumbPress, RightThumbRelease, wasDown)
    else false
  }

  /** The eight thumbstick directions, described independently: which axis,
      which sign, which stick's thresholds. */
  predicate IsStickCode(code: int)
  {
    XboxRSRight <= code <= XboxLSUp
  }

  function StickValue(code: int, p: Pad): int
    requires IsStickCode(code)
  {
    if code == XboxLSUp then p.thumbLY
    else if code == XboxLSDown then -(p.thumbLY as int)
    else if code == XboxLSRight then p.thumbLX
    else if code == XboxLSLeft then -(p.thumbLX as int)
    else if code == XboxRSUp then p.thumbRY
    else if code == XboxRSDown then -(p.thumbRY as int)
    else if code == XboxRSRight then p.thumbRX
    else -(p.thumbRX as int)
  }

  function StickPress(code: int): int
  {
    if code >= XboxLSRight then LeftThumbPress else RightThumbPress
  }

  function StickRelease(code: int): int
  {
    if code >= XboxLSRight then LeftThumbRelease else RightThumbRelease
  }

  /** Every stick direction has three zones: beyond the press level it is
      down, within the release level it is up, in between it keeps its state. */
  lemma StickHysteresis(code: int, wasDown: bool, p: Pad)
    requires IsStickCode(code)
    ensures StickValue(code, p) > StickPress(code) ==> PadDown(code, wasDown, p)
    ensures StickValue(code, p) <= StickRelease(code) ==> !PadDown(code, wasDown, p)
    ensures StickRelease(code) < StickValue(code, p) <= StickPress(code) ==>
      (PadDown(code, wasDown, p) <==> wasDown)
  {
  }

  /** Both triggers follow the trigger hysteresis on their own byte. */
  lemma TriggerHysteresis(wasDown: bool, p: Pad)
    ensures PadDown(XboxLT, wasDown, p) == TriggerDown(p.leftTrigger, wasDown)
    ensures PadDown(XboxRT, wasDown, p) == TriggerDown(p.rightTrigger, wasDown)
    ensures p.leftTrigger == 25 ==> (PadDown(XboxLT, wasDown, p) <==> wasDown)
    ensures p.leftTrigger == 31 ==> PadDown(XboxLT, wasDown, p)
  {
  }

  // ---------------------------------------------------------------------------
  // Keyboard, mouse-button and mouse-move resolution

  /** The state the first pass gives a code other than mouse movement: the
      override when one is active (any code), otherwise the polled key for a
      virtual key or mouse button, otherwise up. */
  function PolledDown(code: int, st: KeyState, held: set<int>): bool
  {
    if code > 0 then (if st.overrideActive then st.overrideValue else code in held)
    else if st.overrideActive then st.overrideValue
    else if IsMouseButtonCode(code) then MouseButtonVk(code) in held
    else false
  }

  /** An active override replaces the polled value; without one a code is
      down exactly when its key or button is physically held. */
  lemma OverrideReplacesPoll(code: int, st: KeyState, held: set<int>)
    ensures st.overrideActive ==> PolledDown(code, st, held) == st.overrideValue
    ensures !st.overrideActive && code > 0 ==> (PolledDown(code, st, held) <==> code in held)
    ensures !st.overrideActive && IsMouseButtonCode(code) ==>
      (PolledDown(code, st, held) <==> MouseButtonVk(code) in held)
    ensures !st.overrideActive && code <= 0 && !IsMouseButtonCode(code) ==> !PolledDown(code, st, held)
  {
  }

  /** Round to nearest, halves away from zero. */
  function RoundHalfAway(x: real): (n: int)
    ensures x - 0.5 <= n as real <= x + 0.5
    ensures x >= 0.0 ==> n >= 0
    ensures x <= 0.0 ==> n <= 0
  {
    if x >= 0.0 then (x + 0.5).Floor else -((-x + 0.5).Floor)
  }

  /** A cursor delta after scaling; a non-zero delta never scales to zero
      while the scale is positive. */
  function ScaledDelta(d: int, scale: Scale): (s: int)
    ensures d == 0 ==> s == 0
    ensures scale == 0.0 ==> s == 0
    ensures scale > 0.0 && d != 0 ==> s != 0 && (s > 0 <==> d > 0)
    ensures Abs(s) > 1 ==> (d as real) * scale - 0.5 <= s as real <= (d as real) * scale + 0.5
  {
    var r := RoundHalfAway(d as real * scale);
    if r == 0 && d != 0 && scale > 0.0 then (if d > 0 then 1 else -1) else r
  }

  function CursorDelta(e: Engine, input: TickInput): (int, int)
  {
    (input.cursor.0 - e.lastPos.0, input.cursor.1 - e.lastPos.1)
  }

  predicate CursorMoved(e: Engine, input: TickInput)
  {
    CursorDelta(e, input) != (0, 0)
  }

  /** The move callback's invocation during a tick, if any. */
  function MoveFires(e: Engine, input: TickInput): (f: seq<Fire>)
    ensures |f| <= 1
    ensures forall x :: x in f ==> x.Moved?
    ensures |f| == 1 <==>
      (MouseMove in e.keys && e.keys[MouseMove].hasMove && CursorMoved(e, input)
       && (Abs(ScaledDelta(CursorDelta(e, input).0, e.moveScale)) > e.moveDeadzone
           || Abs(ScaledDelta(CursorDelta(e, input).1, e.moveScale)) > e.moveDeadzone))
  {
    var (dx, dy) := CursorDelta(e, input);
    if MouseMove in e.keys && CursorMoved(e, input) && e.keys[MouseMove].hasMove then
      var sdx := ScaledDelta(dx, e.moveScale);
      var sdy := ScaledDelta(dy, e.moveScale);
      if Abs(sdx) > e.moveDeadzone || Abs(sdy) > e.moveDeadzone then [Moved(sdx, sdy)] else []
    else []
  }

  /** The remembered cursor position advances only when movement is mapped
      and the cursor moved. */
  function NextLastPos(e: Engine, input: TickInput): (int, int)
  {
    if MouseMove in e.keys && CursorMoved(e, input) then input.cursor else e.lastPos
  }

  // ---------------------------------------------------------------------------
  // Gamepad probe

  predicate NeedsGamepad(keys: Table)
  {
    exists c :: c in keys && IsGamepadCode(c)
  }

  /** The first slot among `from`..3 whose query succeeded. */
  function FirstAnswer(answers: seq<Option<PadState>>, from: nat): (r: Option<PadState>)
    ensures r.Some? <==> exists j :: from <= j < 4 && j < |answers| && answers[j].Some?
    ensures r.Some? ==> exists j :: (from <= j < 4 && j < |answers| && answers[j] == r
      && forall l :: from <= l < j ==> answers[l].None?)
    decreases 4 - from
  {
    if from >= 4 then None
    else if from < |answers| && answers[from].Some? then answers[from]
    else FirstAnswer(answers, from + 1)
  }

  datatype ProbeOutcome = ProbeOutcome(library: Library, probe: ProbeState, pad: Option<Pad>)

  /** The library lookup and controller probe of one tick. No reading is
      obtained when nothing needs the gamepad, when there is no
      `XInputGetState`, or when the backoff interval has not elapsed. */
  function ProbeTick(e: Engine, input: TickInput): (o: ProbeOutcome)
    ensures !NeedsGamepad(e.keys) ==> o == ProbeOutcome(e.library, e.probe, None)
    ensures NeedsGamepad(e.keys) ==> o.library.Loaded?
    ensures e.library.Loaded? ==> o.library == e.library
    ensures o.pad.Some? ==>
      (o.library == Loaded(true) && ProbeDue(e.probe, input.now)
       && o.probe == AfterProbe(e.probe, input.now, true))
    ensures o.library == Loaded(true) && NeedsGamepad(e.keys) && ProbeDue(e.probe, input.now) ==>
      o.probe == AfterProbe(e.probe, input.now, o.pad.Some?)
      && (o.pad.Some? <==> FirstAnswer(input.answers, 0).Some?)
    ensures !(o.library == Loaded(true) && ProbeDue(e.probe, input.now)) ==> o.probe == e.probe && o.pad.None?
  {
    if !NeedsGamepad(e.keys) then ProbeOutcome(e.library, e.probe, None)
    else
      var lib := if e.library.NotLoaded? then Loaded(input.libraryExports) else e.library;
      if lib.hasGetState && ProbeDue(e.probe, input.now) then
        var answer := FirstAnswer(input.answers, 0);
        var pad := if answer.Some? then Some(answer.value.pad) else None;
        ProbeOutcome(lib, AfterProbe(e.probe, input.now, answer.Some?), pad)
      else ProbeOutcome(lib, e.probe, None)
  }

  // ---------------------------------------------------------------------------
  // The tick

  /** The state a mapped code resolves to on this tick. */
  function NewDown(code: int, st: KeyState, held: set<int>, moved: bool, pad: Option<Pad>): bool
  {
    if IsGamepadCode(code) then (pad.Some? && PadDown(code, st.wasDown, pad.value))
    else if code == MouseMove then moved
    else PolledDown(code, st, held)
  }

  /** The table after the resolve passes, before `wasDown` is updated. */
  function Resolved(e: Engine, input: TickInput): (t: Table)
    ensures t.Keys == e.keys.Keys
    ensures forall c :: c in t ==> t[c] == e.keys[c].(isDown := t[c].isDown)
  {
    var moved := CursorMoved(e, input);
    var pad := ProbeTick(e, input).pad;
    map c | c in e.keys :: e.keys[c].(isDown := NewDown(c, e.keys[c], input.held, moved, pad))
  }

  /** Whether a code's callback of the given kind runs, given its state after resolution. */
  predicate Fires(st: KeyState, kind: Callback)
  {
    match kind
    case Press => st.hasPress && st.isDown && !st.wasDown
    case Constant => st.hasConstant && st.isDown
    case Release => st.hasRelease && !st.isDown && st.wasDown
  }

  function EdgeFires(code: int, st: KeyState): (f: seq<Fire>)
    ensures forall x :: x in f ==> x.Edge? && x.code == code && Fires(st, x.kind)
    ensures forall k :: Fires(st, k) ==> Edge(code, k) in f
    ensures forall k :: multiset(f)[Edge(code, k)] == (if Fires(st, k) then 1 else 0)
  {
    (if Fires(st, Press) then [Edge(code, Press)] else [])
    + (if Fires(st, Constant) then [Edge(code, Constant)] else [])
    + (if Fires(st, Release) then [Edge(code, Release)] else [])
  }

  /** The edge callbacks of the listed codes, in list order. */
  function EdgeTrace(codes: seq<int>, t: Table): (f: seq<Fire>)
    requires forall c :: c in codes ==> c in t
    ensures forall x :: x in f ==> x.Edge?
    ensures forall c, k :: Edge(c, k) in f <==> c in codes && Fires(t[c], k)
  {
    if codes == [] then []
    else EdgeFires(codes[0], t[codes[0]]) + EdgeTrace(codes[1..], t)
  }

  /** Over distinct codes, each edge appears in the trace exactly as often as
      its condition holds: once or not at all. */
  lemma {:induction false} EdgeTraceOnce(codes: seq<int>, t: Table, c: int, k: Callback)
    requires forall x :: x in codes ==> x in t
    requires KeyOrder.StrictlyAscending(codes)
    ensures multiset(EdgeTrace(codes, t))[Edge(c, k)] == (if c in codes && Fires(t[c], k) then 1 else 0)
  {
    if codes != [] {
      EdgeTraceOnce(codes[1..], t, c, k);
      var head := EdgeFires(codes[0], t[codes[0]]);
      assert c != codes[0] ==> Edge(c, k) !in head;
      assert c == codes[0] ==> c !in codes[1..];
    }
  }

  /** `SE_Controls_Read`: resolve every mapped code, probe the controller,
      fire callbacks on edges, and remember the resolved state. */
  function Read(e: Engine, input: TickInput): (r: TickResult)
    ensures r.engine.keys.Keys == e.keys.Keys
    ensures forall c :: c in r.engine.keys ==> r.engine.keys[c].wasDown == r.engine.keys[c].isDown
    ensures forall c :: c in e.keys ==>
      r.engine.keys[c] == e.keys[c].(isDown := r.engine.keys[c].isDown, wasDown := r.engine.keys[c].isDown)
    ensures r.engine.moveScale == e.moveScale && r.engine.moveDeadzone == e.moveDeadzone
    ensures r.engine.probe == ProbeTick(e, input).probe && r.engine.library == ProbeTick(e, input).library
    ensures r.fired == MoveFires(e, input) + EdgeTrace(KeyOrder.Ascending(e.keys.Keys), Resolved(e, input))
  {
    var resolved := Resolved(e, input);
    var outcome := ProbeTick(e, input);
    TickResult(
      e.(keys := Settle(resolved), lastPos := NextLastPos(e, input),
         library := outcome.library, probe := outcome.probe),
      MoveFires(e, input) + EdgeTrace(KeyOrder.Ascending(e.keys.Keys), resolved))
  }

  /** The end of a tick: every entry remembers its resolved state. */
  function Settle(t: Table): (s: Table)
    ensures s.Keys == t.Keys
    ensures forall c :: c in s ==> s[c] == t[c].(wasDown := t[c].isDown)
  {
    map c | c in t :: t[c].(wasDown := t[c].isDown)
  }

  /** Each edge callback fires exactly when its condition holds on the
      resolved state: press on up-to-down, hold while down, release on
      down-to-up; and the resolved state is what the next tick compares with. */
  lemma ReadEdges(e: Engine, input: TickInput, c: int, k: Callback)
    ensures Edge(c, k) in Read(e, input).fired <==> c in e.keys && Fires(Resolved(e, input)[c], k)
    ensures c in e.keys ==> Read(e, input).engine.keys[c].isDown == Resolved(e, input)[c].isDown
  {
    var resolved := Resolved(e, input);
    var order := KeyOrder.Ascending(resolved.Keys);
    var fired := Read(e, input).fired;
    assert fired == MoveFires(e, input) + EdgeTrace(order, resolved);
    if Edge(c, k) in fired {
      assert Edge(c, k) !in MoveFires(e, input);
      assert Edge(c, k) in EdgeTrace(order, resolved);
    }
  }

  /** A code held on two consecutive ticks fires its press callback only on the first. */
  lemma PressFiresOnce(e: Engine, i1: TickInput, i2: TickInput, c: int)
    requires c in e.keys
    requires Resolved(e, i1)[c].isDown
    requires Resolved(Read(e, i1).engine, i2)[c].isDown
    ensures Edge(c, Press) !in Read(Read(e, i1).engine, i2).fired
  {
    ReadEdges(e, i1, c, Press);
    ReadEdges(Read(e, i1).engine, i2, c, Press);
  }

  /** Without a controller reading a gamepad code resolves to up, fires its
      release exactly when it was down, and ends the tick fully released. */
  lemma GamepadForceRelease(e: Engine, input: TickInput, c: int)
    requires c in e.keys && IsGamepadCode(c)
    requires ProbeTick(e, input).pad.None?
    ensures !Resolved(e, input)[c].isDown
    ensures Edge(c, Release) in Read(e, input).fired <==> e.keys[c].hasRelease && e.keys[c].wasDown
    ensures !Read(e, input).engine.keys[c].isDown && !Read(e, input).engine.keys[c].wasDown
  {
    ReadEdges(e, input, c, Release);
  }

  /** Within one tick each edge callback of a mapped code fires at most once:
      exactly once when its condition holds on the resolved state. */
  lemma ReadFiresEachEdgeOnce(e: Engine, input: TickInput, c: int, k: Callback)
    requires c in e.keys
    ensures multiset(Read(e, input).fired)[Edge(c, k)] == (if Fires(Resolved(e, input)[c], k) then 1 else 0)
  {
    var t := Resolved(e, input);
    var order := KeyOrder.Ascending(e.keys.Keys);
    EdgeTraceOnce(order, t, c, k);
    assert Edge(c, k) !in MoveFires(e, input);
    assert Read(e, input).fired == MoveFires(e, input) + EdgeTrace(order, t);
  }

  /** A fully released gamepad code fires nothing on a tick without a reading. */
  lemma ReleasedGamepadStaysSilent(e: Engine, input: TickInput, c: int)
    requires c in e.keys && IsGamepadCode(c)
    requires !e.keys[c].wasDown
    requires ProbeTick(e, input).pad.None?
    ensures forall k :: Edge(c, k) !in Read(e, input).fired
  {
    forall k ensures Edge(c, k) !in Read(e, input).fired {
      ReadEdges(e, input, c, k);
    }
  }

  /** So across two ticks without a reading, a held gamepad code fires its
      release once and then nothing. */
  lemma GamepadReleaseOnce(e: Engine, i1: TickInput, i2: TickInput, c: int)
    requires c in e.keys && IsGamepadCode(c)
    requires ProbeTick(e, i1).pad.None?
    requires ProbeTick(Read(e, i1).engine, i2).pad.None?
    ensures Edge(c, Release) in Read(e, i1).fired <==> e.keys[c].hasRelease && e.keys[c].wasDown
    ensures multiset(Read(e, i1).fired)[Edge(c, Release)] == (if e.keys[c].hasRelease && e.keys[c].wasDown then 1 else 0)
    ensures forall k :: Edge(c, k) !in Read(Read(e, i1).engine, i2).fired
  {
    GamepadForceRelease(e, i1, c);
    ReadFiresEachEdgeOnce(e, i1, c, Release);
    ReleasedGamepadStaysSilent(Read(e, i1).engine, i2, c);
  }

  /** An override imposed on a keyboard or mouse-button code decides its state
      on every tick until it is cleared, whatever the physical input does. */
  lemma OverridePersists(e: Engine, vk: int, down: bool, i1: TickInput, i2: TickInput)
    requires (vk > 0 || IsMouseButtonCode(vk)) && vk in e.keys
    ensures var e1 := NotifyPhysicalKey(e, vk, down);
      Resolved(e1, i1)[vk].isDown == down
      && Read(e1, i1).engine.keys[vk].overrideActive
      && Resolved(Read(e1, i1).engine, i2)[vk].isDown == down
  {
  }

  /** The controller library is looked up at most once: after the first tick
      that needs the gamepad it stays as found. */
  lemma LibraryLookedUpOnce(e: Engine, i1: TickInput, i2: TickInput)
    requires NeedsGamepad(e.keys)
    ensures Read(e, i1).engine.library.Loaded?
    ensures Read(Read(e, i1).engine, i2).engine.library == Read(e, i1).engine.library
  {
  }

  /** While the backoff interval has not elapsed, no reading is taken, so
      gamepad codes are released even if a controller would answer. */
  lemma NoReadingBetweenProbes(e: Engine, input: TickInput, c: int)
    requires e.library == Loaded(true)
    requires !ProbeDue(e.probe, input.now)
    requires c in e.keys && IsGamepadCode(c)
    ensures !Resolved(e, input)[c].isDown
    ensures Read(e, input).engine.probe == e.probe
  {
  }

  /** A due probe records its outcome in the backoff state: a success resets
      the ladder, a failure climbs it. */
  lemma ProbeFollowsLadder(e: Engine, input: TickInput)
    requires NeedsGamepad(e.keys) && e.library == Loaded(true) && ProbeDue(e.probe, input.now)
    ensures Read(e, input).engine.probe == AfterProbe(e.probe, input.now, FirstAnswer(input.answers, 0).Some?)
  {
    assert ProbeTick(e, input).probe == AfterProbe(e.probe, input.now, FirstAnswer(input.answers, 0).Some?);
  }

  /** With a positive scale and no deadzone, every cursor movement reaches
      the move callback: a non-zero delta never scales to zero. */
  lemma MoveWithoutDeadzone(e: Engine, input: TickInput)
    requires MouseMove in e.keys && e.keys[MouseMove].hasMove
    requires e.moveScale > 0.0 && e.moveDeadzone == 0
    ensures |MoveFires(e, input)| == 1 <==> CursorMoved(e, input)
  {
    var (dx, dy) := CursorDelta(e, input);
    if dx != 0 {
      assert Abs(ScaledDelta(dx, e.moveScale)) > 0;
    }
    if dy != 0 {
      assert Abs(ScaledDelta(dy, e.moveScale)) > 0;
    }
  }

  /** The move callback, when it runs, runs before any edge callback of the tick. */
  lemma MoveFiresFirst(e: Engine, input: TickInput)
    ensures var f := Read(e, input).fired;
      (|f| >= 1 && f[0].Moved?) <==> |MoveFires(e, input)| == 1
  {
    var f := Read(e, input).fired;
    var m := MoveFires(e, input);
    var t := EdgeTrace(KeyOrder.Ascending(e.keys.Keys), Resolved(e, input));
    assert f == m + t;
    if |m| == 0 && |t| > 0 {
      assert f[0] == t[0] && t[0] in t;
    }
  }

  // ---------------------------------------------------------------------------
  // Table maintenance

  /** `SE_Controls_NotifyPhysicalKey`: impose an override on an already
      mapped code; an unmapped code is ignored. */
  function NotifyPhysicalKey(e: Engine, vk: int, down: bool): (r: Engine)
    ensures r.keys.Keys == e.keys.Keys
    ensures vk in e.keys ==> r.keys[vk] == e.keys[vk].(overrideActive := true, overrideValue := down)
    ensures forall c :: c in e.keys && c != vk ==> r.keys[c] == e.keys[c]
    ensures r == e.(keys := r.keys)
  {
    if vk in e.keys then e.(keys := e.keys[vk := e.keys[vk].(overrideActive := true, overrideValue := down)])
    else e
  }

  /** `SE_Controls_ClearOverrides`: every entry loses its override. */
  function ClearOverrides(e: Engine): (r: Engine)
    ensures r.keys.Keys == e.keys.Keys
    ensures forall c :: c in r.keys ==>
      r.keys[c] == e.keys[c].(overrideActive := false, overrideValue := false)
    ensures r == e.(keys := r.keys)
  {
    e.(keys := map c | c in e.keys :: e.keys[c].(overrideActive := false, overrideValue := false))
  }

  /** Release callbacks for the listed codes that are held and have one. */
  function ReleaseTrace(codes: seq<int>, t: Table): (f: seq<Fire>)
    requires forall c :: c in codes ==> c in t
    ensures forall x :: x in f ==> x.Edge? && x.kind == Release
    ensures forall c :: Edge(c, Release) in f <==>
      c in codes && t[c].hasRelease && (t[c].isDown || t[c].wasDown)
  {
    if codes == [] then []
    else
      var c := codes[0];
      (if t[c].hasRelease && (t[c].isDown || t[c].wasDown) then [Edge(c, Release)] else [])
      + ReleaseTrace(codes[1..], t)
  }

  /** Over distinct codes, each release appears in the trace at most once. */
  lemma {:induction false} ReleaseTraceOnce(codes: seq<int>, t: Table, c: int)
    requires forall x :: x in codes ==> x in t
    requires KeyOrder.StrictlyAscending(codes)
    ensures multiset(ReleaseTrace(codes, t))[Edge(c, Release)] ==
      (if c in codes && t[c].hasRelease && (t[c].isDown || t[c].wasDown) then 1 else 0)
  {
    if codes != [] {
      ReleaseTraceOnce(codes[1..], t, c);
      assert c == codes[0] ==> c !in codes[1..];
    }
  }

  /** `SE_Controls_Reset`: fire release for every held entry, then empty the table. */
  function Reset(e: Engine): (r: TickResult)
    ensures r.engine == e.(keys := map[])
    ensures forall x :: x in r.fired ==> x.Edge? && x.kind == Release
    ensures forall c :: Edge(c, Release) in r.fired <==>
      c in e.keys && e.keys[c].hasRelease && (e.keys[c].isDown || e.keys[c].wasDown)
  {
    TickResult(e.(keys := map[]), ReleaseTrace(KeyOrder.Ascending(e.keys.Keys), e.keys))
  }

  /** `SE_Controls_Reset` fires each held entry's release exactly once. */
  lemma ResetReleasesOnce(e: Engine, c: int)
    ensures multiset(Reset(e).fired)[Edge(c, Release)] ==
      (if c in e.keys && e.keys[c].hasRelease && (e.keys[c].isDown || e.keys[c].wasDown) then 1 else 0)
  {
    ReleaseTraceOnce(KeyOrder.Ascending(e.keys.Keys), e.keys, c);
  }

  /** A second reset finds nothing to release. */
  lemma ResetTwiceFiresNothing(e: Engine)
    ensures Reset(Reset(e).engine).fired == []
    ensures forall c :: !IsMapped(Reset(e).engine, c)
  {
  }

  /** `SE_Controls_Map` with edge callbacks: (re)register the code the name
      translates to, keeping an existing move callback, with all four state
      flags cleared. Every other entry is untouched. */
  function Map(e: Engine, name: Name, onPress: bool, onConstant: bool, onRelease: bool): (r: Engine)
    ensures KeyCode(name) in r.keys
    ensures var s := r.keys[KeyCode(name)];
      !s.isDown && !s.wasDown && !s.overrideActive && !s.overrideValue
      && s.hasPress == onPress && s.hasConstant == onConstant && s.hasRelease == onRelease
      && s.hasMove == (KeyCode(name) in e.keys && e.keys[KeyCode(name)].hasMove)
    ensures r.keys.Keys == e.keys.Keys + {KeyCode(name)}
    ensures forall c :: c in e.keys && c != KeyCode(name) ==> r.keys[c] == e.keys[c]
    ensures r == e.(keys := r.keys)
  {
    var code := KeyCode(name);
    var st := if code in e.keys then e.keys[code] else FreshState;
    e.(keys := e.keys[code := st.(hasPress := onPress, hasConstant := onConstant, hasRelease := onRelease,
                                  isDown := false, wasDown := false,
                                  overrideActive := false, overrideValue := false)])
  }

  /** `SE_Controls_Map` with a move callback: keeps existing edge callbacks. */
  function MapMove(e: Engine, name: Name, onMove: bool): (r: Engine)
    ensures KeyCode(name) in r.keys
    ensures var s := r.keys[KeyCode(name)];
      !s.isDown && !s.wasDown && !s.overrideActive && !s.overrideValue && s.hasMove == onMove
      && (KeyCode(name) in e.keys ==>
            s.hasPress == e.keys[KeyCode(name)].hasPress
            && s.hasConstant == e.keys[KeyCode(name)].hasConstant
            && s.hasRelease == e.keys[KeyCode(name)].hasRelease)
      && (KeyCode(name) !in e.keys ==> !s.hasPress && !s.hasConstant && !s.hasRelease)
    ensures r.keys.Keys == e.keys.Keys + {KeyCode(name)}
    ensures forall c :: c in e.keys && c != KeyCode(name) ==> r.keys[c] == e.keys[c]
    ensures r == e.(keys := r.keys)
  {
    var code := KeyCode(name);
    var st := if code in e.keys then e.keys[code] else FreshState;
    e.(keys := e.keys[code := st.(hasMove := onMove, isDown := false, wasDown := false,
                                  overrideActive := false, overrideValue := false)])
  }

  /** An unrecognised name still creates an entry, under code 0. */
  lemma MapUnknownNameUsesZero(e: Engine, name: Name, p: bool, k: bool, rel: bool)
    requires |name| != 1 && !Listed(NameTable, name)
    ensures IsMapped(Map(e, name, p, k, rel), 0)
  {
    UnknownNameIsZero(name);
  }

  /** A newly mapped code fires nothing on the tick it is mapped unless it resolves down. */
  lemma MapThenReadPressIffDown(e: Engine, name: Name, input: TickInput)
    ensures var e1 := Map(e, name, true, false, false);
      Edge(KeyCode(name), Press) in Read(e1, input).fired <==> Resolved(e1, input)[KeyCode(name)].isDown
  {
    var e1 := Map(e, name, true, false, false);
    ReadEdges(e1, input, KeyCode(name), Press);
  }

  /** `SE_Controls_SetMouseMoveScale`: negative scales become 0. */
  function SetMouseMoveScale(e: Engine, scale: real): (r: Engine)
    ensures scale >= 0.0 ==> r.moveScale == scale
    ensures scale < 0.0 ==> r.moveScale == 0.0
    ensures r == e.(moveScale := r.moveScale)
  {
    e.(moveScale := if scale < 0.0 then 0.0 else scale)
  }

  /** `SE_Controls_SetMouseMoveDeadzone`: negative deadzones become 0. */
  function SetMouseMoveDeadzone(e: Engine, deadzone: int): (r: Engine)
    ensures deadzone >= 0 ==> r.moveDeadzone == deadzone
    ensures deadzone < 0 ==> r.moveDeadzone == 0
    ensures r == e.(moveDeadzone := r.moveDeadzone)
  {
    e.(moveDeadzone := if deadzone < 0 then 0 else deadzone)
  }

  /** With scale 0 no movement ever reaches the move callback. */
  lemma ZeroScaleSilencesMove(e: Engine, input: TickInput)
    ensures forall x :: x in Read(SetMouseMoveScale(e, 0.0), input).fired ==> x.Edge?
  {
    var e0 := SetMouseMoveScale(e, 0.0);
    var (dx, dy) := CursorDelta(e0, input);
    assert ScaledDelta(dx, e0.moveScale) == 0 && ScaledDelta(dy, e0.moveScale) == 0;
    assert MoveFires(e0, input) == [];
    var edges := EdgeTrace(KeyOrder.Ascending(e0.keys.Keys), Resolved(e0, input));
    assert Read(e0, input).fired == [] + edges;
  }
}

=== FILE: destro.dfy ===
/** The roll override of the background game thread.

    Every pass of the thread's loop reads the controls, clears the ramp timers
    of released key pairs and then rewrites the two roll bytes of Wing
    Commander II: Vengeance of the Kilrathi from the comma and period keys,
    with a speed that ramps up from 1 to the maximum over the ramp time.
    Time comes from a 64-bit tick count, which on old systems is widened from
    the 32-bit one.
 */
module Destro {
  import opened Words
  import opened Optional
  import PushByte

  const MaxRollSpeed: I32 := 8
  const RampTimeMs: nat := 1000
  /** Offset of the two roll bytes in Vengeance of the Kilrathi. */
  const RollAddress: nat := 0x931AC

  // ---------------------------------------------------------------------------
  // Byte modifier
  // ---------------------------------------------------------------------------

  /** Add a signed amount to a byte, wrapping to 8 bits. */
  function Modifier(value: U8, modifier: int): (r: U8)
    ensures (r - value - modifier) % Two8 == 0
  {
    (value + modifier) % Two8
  }

  /** Modifying by `m` and then by `-m` gives back the byte. */
  lemma ModifierInverse(value: U8, m: int)
    ensures Modifier(Modifier(value, m), -m) == value
  {
    var a := Modifier(value, m);
    assert (a - value - m) % Two8 == 0;
    var k := (value + m) / Two8;
    assert a == value + m - k * Two8;
    assert a - m == value + (-k) * Two8;
  }

  /** A byte read as a signed `char`. */
  function SignedByte(b: U8): int
  {
    if b < 0x80 then b else b - Two8
  }

  // ---------------------------------------------------------------------------
  // 64-bit tick count
  // ---------------------------------------------------------------------------

  /** The fallback's static state: the last 32-bit tick seen and the 64-bit
      count whose high half counts the wraps. */
  datatype TickState = TickState(lastTick: U32, tick64: U64)

  const InitialTicks := TickState(0, 0)

  /** The value the fallback returned when it last saw `lastTick`. */
  function Reported(s: TickState): nat
  {
    (s.tick64 / Two32) * Two32 + s.lastTick
  }

  /** The `GetTickCount64` fallback fed the 32-bit tick count `now`. */
  function TickCount64(s: TickState, now: U32): (r: (TickState, U64))
    ensures r.0.lastTick == now
    ensures r.1 % Two32 == now
    ensures now >= s.lastTick ==> r.0.tick64 == s.tick64
    ensures now < s.lastTick ==> r.0.tick64 == (s.tick64 + Two32) % Two64
  {
    var t := if now < s.lastTick then (s.tick64 + Two32) % Two64 else s.tick64;
    var high := (t / Two32) * Two32;
    assert high <= t < Two64;
    (TickState(now, t), high + now)
  }

  lemma HighStep(t: nat)
    ensures ((t + Two32) / Two32) * Two32 == (t / Two32) * Two32 + Two32
  {
    assert (t + Two32) / Two32 == t / Two32 + 1;
  }

  /** Away from 64-bit overflow, the widened count advances by exactly the
      wrapped 32-bit time since the last call, so it never goes backwards. */
  lemma TickAdvancesByElapsed(s: TickState, now: U32)
    requires s.tick64 + Two32 < Two64
    ensures TickCount64(s, now).1 == Reported(s) + Elapsed(now, s.lastTick)
    ensures TickCount64(s, now).1 >= Reported(s)
    ensures Reported(TickCount64(s, now).0) == TickCount64(s, now).1
  {
    if now < s.lastTick {
      HighStep(s.tick64);
    }
  }

  // ---------------------------------------------------------------------------
  // Ramped roll speed
  // ---------------------------------------------------------------------------

  /** The mid-ramp speed, computed in floating point in the original and here
      with exact real arithmetic: one plus the rounded share of the remaining
      speed steps. */
  function MidRamp(maxSpeed: int, elapsed: nat): (val: int)
    requires maxSpeed > 1 && elapsed < RampTimeMs
  {
    var frac := elapsed as real / RampTimeMs as real;
    var v := 1 + ((maxSpeed - 1) as real * frac + 0.5).Floor;
    if v < 1 then 1 else v
  }

  /** The same rounding in integer arithmetic. */
  function MidRampReference(maxSpeed: int, elapsed: nat): int
    requires maxSpeed > 1
  {
    1 + (2 * (maxSpeed - 1) * elapsed + RampTimeMs) / (2 * RampTimeMs)
  }

  lemma FloorOfQuotient(n: nat, d: nat)
    requires d > 0
    ensures (n as real / d as real).Floor == n / d
  {
    var q := n / d;
    var r := n % d;
    assert n == q * d + r;
    assert n as real / d as real == q as real + r as real / d as real;
    assert 0.0 <= r as real / d as real < 1.0;
  }

  lemma ProductNonNegative(a: nat, b: nat)
    ensures a * b >= 0
  {
  }

  /** The floating-point formula and the integer one agree. */
  lemma MidRampIsRounding(maxSpeed: int, elapsed: nat)
    requires maxSpeed > 1 && elapsed < RampTimeMs
    ensures MidRamp(maxSpeed, elapsed) == MidRampReference(maxSpeed, elapsed)
  {
    var n: nat := 2 * (maxSpeed - 1) * elapsed + RampTimeMs;
    var x := (maxSpeed - 1) as real * (elapsed as real / RampTimeMs as real) + 0.5;
    assert x == n as real / (2 * RampTimeMs) as real;
    FloorOfQuotient(n, 2 * RampTimeMs);
  }

  lemma QuotientBelow(n: nat, d: nat, k: nat)
    requires d > 0 && n < k * d
    ensures n / d < k
  {
    assert (n / d) * d <= n;
  }

  /** Held keys give a speed from 1 up to the maximum, starting at 1. */
  lemma MidRampBounds(maxSpeed: int, elapsed: nat)
    requires maxSpeed > 1 && elapsed < RampTimeMs
    ensures 1 <= MidRamp(maxSpeed, elapsed) <= maxSpeed
    ensures elapsed == 0 ==> MidRamp(maxSpeed, elapsed) == 1
  {
    MidRampIsRounding(maxSpeed, elapsed);
    var m: nat := maxSpeed - 1;
    var n: nat := 2 * m * elapsed + RampTimeMs;
    assert m * elapsed < m * RampTimeMs by {
      assert m * (RampTimeMs - elapsed) > 0 by { ProductPositive(m, RampTimeMs - elapsed); }
    }
    QuotientBelow(n, 2 * RampTimeMs, m + 1);
  }

  lemma ProductPositive(a: nat, b: nat)
    requires a > 0 && b > 0
    ensures a * b > 0
  {
  }

  /** `GetRampedRollSpeed`: the speed and the new ramp start. */
  function RampedRollSpeed(held: bool, rampStart: U64, now: U64, maxSpeed: I32): (r: (int, U64))
    ensures !held ==> r == (0, 0)
    ensures held && rampStart != 0 ==> r.1 == rampStart
    ensures held && rampStart == 0 ==> r.1 == now
    ensures held ==> 1 <= r.0 <= Max(maxSpeed, 1)
    ensures held && maxSpeed > 1 && (now <= r.1 || now - r.1 < RampTimeMs) ==>
      r.0 == MidRampReference(maxSpeed, if now > r.1 then now - r.1 else 0)
    ensures held && maxSpeed > 1 && now > r.1 && now - r.1 >= RampTimeMs ==> r.0 == maxSpeed
  {
    if !held then (0, 0)
    else
      var start := if rampStart == 0 then now else rampStart;
      var elapsed: nat := if now > start then now - start else 0;
      if maxSpeed <= 1 then (if maxSpeed > 0 then maxSpeed else 1, start)
      else if elapsed >= RampTimeMs then (maxSpeed as int, start)
      else
        MidRampBounds(maxSpeed, elapsed);
        MidRampIsRounding(maxSpeed, elapsed);
        (MidRamp(maxSpeed, elapsed), start)
  }

  /** The reference speed never falls as the key stays held. */
  lemma MidRampReferenceMonotone(maxSpeed: int, e1: nat, e2: nat)
    requires maxSpeed > 1 && e1 <= e2
    ensures MidRampReference(maxSpeed, e1) <= MidRampReference(maxSpeed, e2)
  {
    var m: nat := maxSpeed - 1;
    assert 2 * m * e1 <= 2 * m * e2 by { ProductNonNegative(2 * m, e2 - e1); }
    DivMonotone(2 * m * e1 + RampTimeMs, 2 * m * e2 + RampTimeMs, 2 * RampTimeMs);
  }

  lemma DivMonotone(a: nat, b: nat, d: nat)
    requires a <= b && d > 0
    ensures a / d <= b / d
  {
    var qa := a / d;
    var qb := b / d;
    assert qa * d <= b;
    assert b < (qb + 1) * d;
    LessByFactor(qa, qb + 1, d);
  }

  // ---------------------------------------------------------------------------
  // Ramp reset and roll override
  // ---------------------------------------------------------------------------

  /** The six movement keys the thread tracks. */
  datatype MoveKeys = MoveKeys(up: bool, down: bool, left: bool, right: bool, comma: bool, period: bool)

  /** The three ramp timers: joystick X and Y and roll. */
  datatype Ramps = Ramps(x: U64, y: U64, roll: U64)

  /** `Reset_RampedSpeedIfNeeded`: clear the timer of every released key pair. */
  function ResetRamps(k: MoveKeys, r: Ramps): (q: Ramps)
    ensures q.y == (if k.up || k.down then r.y else 0)
    ensures q.x == (if k.left || k.right then r.x else 0)
    ensures q.roll == (if k.comma || k.period then r.roll else 0)
  {
    Ramps(if k.left || k.right then r.x else 0,
          if k.up || k.down then r.y else 0,
          if k.comma || k.period then r.roll else 0)
  }

  /** The roll state: the ramp start and whether movement was last written. */
  datatype RollState = RollState(rampStart: U64, wasPressed: bool)

  const InitialRoll := RollState(0, false)

  /** `Roll_Override`: the new state and the two-byte list written at the roll
      address, if any. */
  function RollOverride(isVoK: bool, comma: bool, period: bool, s: RollState, now: U64, maxSpeed: I32)
    : (r: (RollState, Option<seq<int>>))
    ensures !isVoK ==> r == (s, None)
    ensures r.1.Some? ==> |r.1.value| == 2 && 0 <= r.1.value[0] < Two8 && 0 <= r.1.value[1] < Two8
    ensures isVoK && comma && period ==> r == (RollState(s.rampStart, true), Some([0, 0]))
    ensures isVoK && !comma && !period ==>
      r == (RollState(s.rampStart, false), if s.wasPressed then Some([0, 0]) else None)
    ensures isVoK && comma != period ==> r.0.wasPressed && r.1.Some?
    ensures isVoK && comma && !period ==>
      var speed := RampedRollSpeed(true, s.rampStart, now, maxSpeed).0;
      r.1 == Some([Modifier(0x01, speed) as int, 0])
    ensures isVoK && period && !comma ==>
      var speed := RampedRollSpeed(true, s.rampStart, now, maxSpeed).0;
      r.1 == Some([Modifier(0xFF, -speed) as int, 0xFF])
  {
    if !isVoK then (s, None)
    else if comma && period then (RollState(s.rampStart, true), Some([0, 0]))
    else if comma then
      var (speed, start) := RampedRollSpeed(true, s.rampStart, now, maxSpeed);
      (RollState(start, true), Some([Modifier(0x01, speed) as int, 0]))
    else if period then
      var (speed, start) := RampedRollSpeed(true, s.rampStart, now, maxSpeed);
      (RollState(start, true), Some([Modifier(0xFF, -speed) as int, 0xFF]))
    else if s.wasPressed then (RollState(s.rampStart, false), Some([0, 0]))
    else (s, None)
  }

  /** Comma and period roll by the same amount in opposite directions: the two
      speed bytes always sum to 0 modulo 256, and for a maximum that fits a
      signed byte they read as `1 + speed` and `-(1 + speed)`. */
  lemma RollIsSymmetric(s: RollState, now: U64, maxSpeed: I32)
    ensures var left := RollOverride(true, true, false, s, now, maxSpeed);
      var right := RollOverride(true, false, true, s, now, maxSpeed);
      (left.1.value[0] + right.1.value[0]) % Two8 == 0 && left.0 == right.0
    ensures maxSpeed <= 126 ==>
      var speed := RampedRollSpeed(true, s.rampStart, now, maxSpeed).0;
      var left := RollOverride(true, true, false, s, now, maxSpeed);
      var right := RollOverride(true, false, true, s, now, maxSpeed);
      SignedByte(left.1.value[0] as U8) == 1 + speed && SignedByte(right.1.value[0] as U8) == -1 - speed
  {
    var speed := RampedRollSpeed(true, s.rampStart, now, maxSpeed).0;
    var left := RollOverride(true, true, false, s, now, maxSpeed);
    var right := RollOverride(true, false, true, s, now, maxSpeed);
    assert left.1.value[0] == Modifier(0x01, speed);
    assert right.1.value[0] == Modifier(0xFF, -speed);
    OppositeModifiers(speed);
  }

  /** The two roll bytes for one speed cancel modulo 256, and for a speed that
      fits they are `1 + speed` and `-(1 + speed)` as signed bytes. */
  lemma OppositeModifiers(speed: int)
    ensures (Modifier(0x01, speed) + Modifier(0xFF, -speed)) % Two8 == 0
    ensures 1 <= speed <= 126 ==>
      SignedByte(Modifier(0x01, speed)) == 1 + speed && SignedByte(Modifier(0xFF, -speed)) == -1 - speed
  {
    var a := Modifier(0x01, speed);
    var b := Modifier(0xFF, -speed);
    assert (a - 1 - speed) % Two8 == 0 && (b - 0xFF + speed) % Two8 == 0;
    assert a + b == (a - 1 - speed) + (b - 0xFF + speed) + Two8;
  }

  /** Pushing the written list puts exactly those two bytes at the roll address. */
  lemma RollPatchWrites(isVoK: bool, comma: bool, period: bool, s: RollState, now: U64, maxSpeed: I32,
                        mem: PushByte.Memory, env: PushByte.Env)
    requires env.hasModule && env.protectOk && PushByte.InRange(mem, 2, RollAddress)
    requires RollOverride(isVoK, comma, period, s, now, maxSpeed).1.Some?
    ensures var list := RollOverride(isVoK, comma, period, s, now, maxSpeed).1.value;
      var w := PushByte.PushList(mem, env, 2, RollAddress, list);
      w.ok && w.mem[RollAddress] == list[0] && w.mem[RollAddress + 1] == list[1]
  {
  }

  /** One pass of the thread's loop after the controls are read. */
  function LoopStep(isVoK: bool, k: MoveKeys, ramps: Ramps, wasPressed: bool, now: U64, maxSpeed: I32)
    : (r: (Ramps, bool, Option<seq<int>>))
    ensures r.0.x == ResetRamps(k, ramps).x && r.0.y == ResetRamps(k, ramps).y
    ensures var o := RollOverride(isVoK, k.comma, k.period, RollState(ResetRamps(k, ramps).roll, wasPressed), now, maxSpeed);
      r.0.roll == o.0.rampStart && r.1 == o.0.wasPressed && r.2 == o.1
    ensures !k.comma && !k.period ==> r.0.roll == 0
    ensures isVoK && !k.comma && !k.period ==> !r.1 && r.2 == (if wasPressed then Some([0, 0]) else None)
    ensures isVoK && k.comma && k.period ==> r.0.roll == ramps.roll && r.1 && r.2 == Some([0, 0])
    ensures isVoK && k.comma != k.period ==> r.0.roll == (if ramps.roll == 0 then now else ramps.roll) && r.1
    ensures !isVoK ==> r == (ResetRamps(k, ramps), wasPressed, None)
  {
    var reset := ResetRamps(k, ramps);
    var (roll, patch) := RollOverride(isVoK, k.comma, k.period, RollState(reset.roll, wasPressed), now, maxSpeed);
    (reset.(roll := roll.rampStart), roll.wasPressed, patch)
  }

  /** Releasing both roll keys writes the neutral bytes once; the next idle
      pass writes nothing. */
  lemma NeutralWrittenOnce(k: MoveKeys, ramps: Ramps, now1: U64, now2: U64, maxSpeed: I32)
    requires !k.comma && !k.period
    ensures var first := LoopStep(true, k, ramps, true, now1, maxSpeed);
      first.2 == Some([0, 0]) && !first.1
      && LoopStep(true, k, first.0, first.1, now2, maxSpeed).2 == None
  {
  }

  /** A roll key pressed after a released pass starts its ramp over at speed 1. */
  lemma RampRestartsAfterRelease(released: MoveKeys, pressed: MoveKeys, ramps: Ramps, wasPressed: bool,
                                 t1: U64, t2: U64, maxSpeed: I32)
    requires !released.comma && !released.period
    requires pressed.comma && !pressed.period
    requires t2 != 0
    ensures var first := LoopStep(true, released, ramps, wasPressed, t1, maxSpeed);
      var second := LoopStep(true, pressed, first.0, first.1, t2, maxSpeed);
      second.0.roll == t2 && second.2 == Some([Modifier(0x01, 1) as int, 0])
  {
    var first := LoopStep(true, released, ramps, wasPressed, t1, maxSpeed);
    assert first.0.roll == 0;
    if maxSpeed > 1 {
      assert MidRampReference(maxSpeed, 0) == 1;
    }
  }
}

=== FILE: frame_limiter.dfy ===
/** The space-flight frame limiter of the three Wing Commander II episodes.

    The limiter is one byte in each episode's image: 0 (unlimited), 1 (60),
    2 (30), 3 (20) or 4 (15 frames per second). Setting a level writes it into
    the image of the episode whose window is found and remembers it; the
    cycle hot key moves to the next level, wrapping to unlimited.
 */
module SpaceLimiter {
  import opened Words
  import opened Optional
  import Titles

  const InitialSpaceMax: I32 := 3
  const MaxLevel: int := 4

  /** Limiter byte offsets in each episode's image. */
  const VengeanceAddress: nat := 0x6944F
  const SpecialOps2Address: nat := 0x2EEDE
  const SpecialOps1Address: nat := 0x3C86E

  /** A one-byte patch request. */
  datatype Write = Write(rva: nat, list: seq<int>)

  /** The limiter address of the running episode, testing Vengeance, then
      Special Operations II, then Special Operations I. */
  function EpisodeAddress(windows: seq<Titles.Window>, pid: nat): (a: Option<nat>)
    ensures a.Some? ==> a.value in {VengeanceAddress, SpecialOps2Address, SpecialOps1Address}
    ensures a.None? <==>
      !Titles.AnyMatch(windows, pid, Titles.VengeanceTitle)
      && !Titles.AnyMatch(windows, pid, Titles.SpecialOps2Title)
      && !Titles.AnyMatch(windows, pid, Titles.SpecialOps1Title)
    ensures a == Some(SpecialOps1Address) ==> !Titles.AnyMatch(windows, pid, Titles.SpecialOps2Title)
  {
    if Titles.HasTitle(windows, pid, Some(Titles.VengeanceTitle)) then Some(VengeanceAddress)
    else if Titles.HasTitle(windows, pid, Some(Titles.SpecialOps2Title)) then Some(SpecialOps2Address)
    else if Titles.HasTitle(windows, pid, Some(Titles.SpecialOps1Title)) then Some(SpecialOps1Address)
    else None
  }

  /** `Frame_Limiter_Space`: the new remembered level and the byte written. */
  function Space(modifier: I32, windows: seq<Titles.Window>, pid: nat): (r: (I32, Option<Write>))
    ensures 0 <= r.0 <= MaxLevel
    ensures 0 <= modifier <= MaxLevel ==> r.0 == modifier
    ensures !(0 <= modifier <= MaxLevel) ==> r.0 == 0
    ensures r.1.Some? <==> EpisodeAddress(windows, pid).Some?
    ensures r.1.Some? ==> r.1.value == Write(EpisodeAddress(windows, pid).value, [r.0 as int])
  {
    var level: I32 := if 0 <= modifier <= MaxLevel then modifier else 0;
    var address := EpisodeAddress(windows, pid);
    (level, if address.Some? then Some(Write(address.value, [level as int])) else None)
  }

  /** `Frame_Limiter_Space_Cycle`: set the remembered level plus one, with the
      `int` addition wrapping. */
  function Cycle(spaceMax: I32, windows: seq<Titles.Window>, pid: nat): (r: (I32, Option<Write>))
    ensures 0 <= spaceMax < MaxLevel ==> r.0 == spaceMax + 1
    ensures (spaceMax < 0 || spaceMax >= MaxLevel) ==> r.0 == 0
  {
    Space(WrapI32(spaceMax as int + 1), windows, pid)
  }

  /** Five presses of the cycle key come back to the starting level, visiting
      every level once. */
  lemma CycleVisitsAllLevels(start: I32, windows: seq<Titles.Window>, pid: nat)
    requires 0 <= start <= MaxLevel
    ensures var l1 := Cycle(start, windows, pid).0;
      var l2 := Cycle(l1, windows, pid).0;
      var l3 := Cycle(l2, windows, pid).0;
      var l4 := Cycle(l3, windows, pid).0;
      Cycle(l4, windows, pid).0 == start
      && {start, l1, l2, l3, l4} == {0, 1, 2, 3, 4}
  {
  }

  /** The written byte is the level itself; no episode found means no write. */
  lemma WriteIsLevel(modifier: I32, windows: seq<Titles.Window>, pid: nat)
    requires Titles.AnyMatch(windows, pid, Titles.VengeanceTitle)
    ensures Space(modifier, windows, pid).1 == Some(Write(VengeanceAddress, [Space(modifier, windows, pid).0 as int]))
  {
  }

  /** A Special Operations II window gets the Special Operations II address,
      even though its title also contains the Special Operations I title. */
  lemma SpecialOps2NotMistaken(windows: seq<Titles.Window>, pid: nat)
    requires !Titles.AnyMatch(windows, pid, Titles.VengeanceTitle)
    requires Titles.AnyMatch(windows, pid, Titles.SpecialOps2Title)
    ensures Titles.AnyMatch(windows, pid, Titles.SpecialOps1Title)
    ensures EpisodeAddress(windows, pid) == Some(SpecialOps2Address)
  {
    var i :| 0 <= i < |windows| && Titles.WindowMatches(windows[i], pid, Titles.SpecialOps2Title);
    Titles.SpecialOpsTitlesNest();
    Titles.PrefixMatches(windows[i], pid, Titles.SpecialOps2Title, Titles.SpecialOps1Title);
  }
}

=== FILE: gamepad.dfy ===
/** The XInput gamepad record and the code-to-button table shared by the
    control engine and the gamepad suppression hook.
 */
module Gamepad {
  import opened Words
  import opened Codes

  /** `XINPUT_GAMEPAD`: a button mask, two trigger bytes, four signed thumb axes. */
  datatype Pad = Pad(
    buttons: bv16,
    leftTrigger: U8,
    rightTrigger: U8,
    thumbLX: I16,
    thumbLY: I16,
    thumbRX: I16,
    thumbRY: I16)

  /** `XINPUT_STATE`: a packet number and the pad. */
  datatype PadState = PadState(packet: U32, pad: Pad)

  const NeutralPad := Pad(0, 0, 0, 0, 0, 0, 0)

  /** The digital codes, -23..-10, each standing for one button bit. */
  predicate IsDigitalCode(code: int)
  {
    XboxDPadRight <= code <= XboxA
  }

  /** The XInput button bit a digital code reads. */
  function ButtonBit(code: int): (bit: bv16)
    requires IsDigitalCode(code)
    ensures bit != 0 && bit & (bit - 1) == 0
  {
    if code == XboxA then 0x1000
    else if code == XboxB then 0x2000
    else if code == XboxX then 0x4000
    else if code == XboxY then 0x8000
    else if code == XboxLB then 0x0100
    else if code == XboxRB then 0x0200
    else if code == XboxLSClick then 0x0040
    else if code == XboxRSClick then 0x0080
    else if code == XboxBack then 0x0020
    else if code == XboxStart then 0x0010
    else if code == XboxDPadUp then 0x0001
    else if code == XboxDPadDown then 0x0002
    else if code == XboxDPadLeft then 0x0004
    else 0x0008
  }

  /** Distinct digital codes read distinct bits. */
  lemma ButtonBitInjective(a: int, b: int)
    requires IsDigitalCode(a) && IsDigitalCode(b)
    ensures ButtonBit(a) == ButtonBit(b) <==> a == b
  {
  }

  /** Is the bit of a digital code set in a button mask. */
  predicate ButtonHeld(buttons: bv16, code: int)
    requires IsDigitalCode(code)
  {
    buttons & ButtonBit(code) != 0
  }
}

=== FILE: ini.dfy ===
/** The `wcdx.ini` settings file: whitespace trimming and the line parser.

    File access is replaced by its inputs: whether the file exists, whether it
    opens, and its lines as `std::getline` splits them.
 */
module Ini {
  import opened Optional

  /** The characters `trim` strips: space, tab, newline, carriage return. */
  predicate IsWs(c: char)
  {
    c == ' ' || c == '\t' || c == '\n' || c == '\r'
  }

  predicate AllWs(s: string)
  {
    forall k :: 0 <= k < |s| ==> IsWs(s[k])
  }

  /** `find_first_not_of`, with `|s|` for "not found". */
  function FirstNonWs(s: string, from: nat): (i: nat)
    requires from <= |s|
    ensures from <= i <= |s|
    ensures forall k :: from <= k < i ==> IsWs(s[k])
    ensures i < |s| ==> !IsWs(s[i])
    decreases |s| - from
  {
    if from == |s| || !IsWs(s[from]) then from else FirstNonWs(s, from + 1)
  }

  /** One past `find_last_not_of`, with 0 for "not found". */
  function EndNonWs(s: string, to: nat): (j: nat)
    requires to <= |s|
    ensures j <= to
    ensures forall k :: j <= k < to ==> IsWs(s[k])
    ensures j > 0 ==> !IsWs(s[j - 1])
  {
    if to == 0 || !IsWs(s[to - 1]) then to else EndNonWs(s, to - 1)
  }

  /** `t` is `s` with its leading and trailing whitespace removed, `t` starting
      at index `a` of `s`: all of `s` outside `t` is whitespace, and `t` is empty
      or starts and ends with non-whitespace. */
  predicate Trimmed(s: string, t: string, a: nat)
  {
    a + |t| <= |s| && s[a..a + |t|] == t
    && (forall k :: 0 <= k < a ==> IsWs(s[k]))
    && (forall k :: a + |t| <= k < |s| ==> IsWs(s[k]))
    && (t != [] ==> !IsWs(t[0]) && !IsWs(t[|t| - 1]))
  }

  /** `trim`: the text between the first and the last non-whitespace characters. */
  function Trim(s: string): (t: string)
    ensures Trimmed(s, t, FirstNonWs(s, 0))
    ensures t == [] <==> AllWs(s)
  {
    var a := FirstNonWs(s, 0);
    if a == |s| then []
    else
      var b := EndNonWs(s, |s|);
      assert a < b;
      s[a..b]
  }

  /** At most one text is `s` trimmed: `Trimmed` characterises `trim`. */
  lemma TrimmedUnique(s: string, t: string, a: nat)
    requires Trimmed(s, t, a)
    ensures t == Trim(s)
  {
    var u := Trim(s);
    var b := FirstNonWs(s, 0);
    if t != [] {
      assert !IsWs(s[a]) by { assert s[a] == s[a..a + |t|][0]; }
      assert a == b;
      var e := a + |t|;
      assert !IsWs(s[e - 1]) by { assert s[e - 1] == s[a..a + |t|][|t| - 1]; }
      assert !AllWs(s);
      var f := b + |u|;
      assert !IsWs(s[f - 1]) by { assert s[f - 1] == s[b..b + |u|][|u| - 1]; }
      assert e == f;
    } else {
      assert AllWs(s) by {
        forall k | 0 <= k < |s| ensures IsWs(s[k]) {
        }
      }
    }
  }

  /** Whitespace around text that starts and ends with non-whitespace is
      exactly what `trim` removes. */
  lemma TrimPadded(p: string, t: string, q: string)
    requires AllWs(p) && AllWs(q)
    requires t != [] ==> !IsWs(t[0]) && !IsWs(t[|t| - 1])
    ensures Trim(p + t + q) == t
  {
    var s := p + t + q;
    assert s[|p|..|p| + |t|] == t;
    forall k | |p| + |t| <= k < |s| ensures IsWs(s[k]) {
      assert s[k] == q[k - |p| - |t|];
    }
    TrimmedUnique(s, t, |p|);
  }

  /** Trimming twice is trimming once. */
  lemma TrimIdempotent(s: string)
    ensures Trim(Trim(s)) == Trim(s)
  {
    var t := Trim(s);
    assert [] + t + [] == t;
    TrimPadded([], t, []);
  }

  /** The first index holding a character of `cs`, if any (`find_first_of`). */
  function FindFirstOf(s: string, cs: set<char>): (r: Option<nat>)
    ensures r.Some? ==> r.value < |s| && s[r.value] in cs && forall k :: 0 <= k < r.value ==> s[k] !in cs
    ensures r.None? ==> forall k :: 0 <= k < |s| ==> s[k] !in cs
  {
    if s == [] then None
    else if s[0] in cs then Some(0)
    else
      var rest := FindFirstOf(s[1..], cs);
      assert forall k :: 1 <= k < |s| ==> s[k] == s[1..][k - 1];
      if rest.Some? then Some(rest.value + 1) else None
  }

  const CommentChars: set<char> := {';', '#'}

  /** A line with everything from the first `;` or `#` erased. */
  function StripComment(line: string): (s: string)
    ensures s <= line
    ensures NoComment(s)
    ensures |s| < |line| ==> line[|s|] in CommentChars
  {
    var c := FindFirstOf(line, CommentChars);
    if c.Some? then line[..c.value] else line
  }

  /** One settings line: a trimmed, non-empty key and value split at the first
      `=` after comments are stripped, or nothing. */
  function ParseLine(line: string): (r: Option<(string, string)>)
    ensures r.Some? ==> r.value.0 != [] && r.value.1 != []
    ensures r.Some? ==> Trim(r.value.0) == r.value.0 && Trim(r.value.1) == r.value.1
    ensures r.Some? ==> '=' !in r.value.0
    ensures r.Some? ==> NoComment(r.value.0) && NoComment(r.value.1)
  {
    var s := StripComment(line);
    var eq := FindFirstOf(s, {'='});
    if eq.None? then None else SplitAt(s, eq.value)
  }

  /** The key and value either side of the `=` at `eq`, trimmed. */
  function SplitAt(s: string, eq: nat): (r: Option<(string, string)>)
    requires eq < |s| && NoComment(s) && forall k :: 0 <= k < eq ==> s[k] != '='
    ensures r.Some? ==> r.value.0 != [] && r.value.1 != []
    ensures r.Some? ==> Trim(r.value.0) == r.value.0 && Trim(r.value.1) == r.value.1
    ensures r.Some? ==> '=' !in r.value.0
    ensures r.Some? ==> NoComment(r.value.0) && NoComment(r.value.1)
  {
    var key := Trim(s[..eq]);
    var val := Trim(s[eq + 1..]);
    if key == [] || val == [] then None
    else
      TrimIdempotent(s[..eq]);
      TrimIdempotent(s[eq + 1..]);
      SliceFacts(s, key, FirstNonWs(s[..eq], 0), 0, eq);
      assert s[eq + 1..] == s[eq + 1..|s|];
      SliceFacts(s, val, FirstNonWs(s[eq + 1..], 0), eq + 1, |s|);
      Some((key, val))
  }

  predicate NoComment(s: string)
  {
    forall k :: 0 <= k < |s| ==> s[k] !in CommentChars
  }

  /** Text cut from a comment-free stretch of `s` before any `=` inherits both. */
  lemma SliceFacts(s: string, t: string, a: nat, lo: nat, hi: nat)
    requires lo <= hi <= |s| && Trimmed(s[lo..hi], t, a)
    ensures forall k :: 0 <= k < |t| ==> t[k] == s[lo + a + k]
    ensures NoComment(s) ==> NoComment(t)
    ensures (forall k :: lo <= k < hi ==> s[k] != '=') ==> '=' !in t
  {
    forall k | 0 <= k < |t| ensures t[k] == s[lo + a + k] {
      assert t[k] == s[lo..hi][a..a + |t|][k];
    }
  }

  /** A `key=value` line whose key and value are already trimmed, non-empty and
      free of comment characters, and whose key holds no `=`, parses back to
      that key and value; the value may itself hold `=`. */
  lemma ParseFormatted(key: string, val: string)
    requires key != [] && val != []
    requires !IsWs(key[0]) && !IsWs(key[|key| - 1]) && !IsWs(val[0]) && !IsWs(val[|val| - 1])
    requires '=' !in key
    requires NoComment(key) && NoComment(val)
    ensures ParseLine(key + "=" + val) == Some((key, val))
  {
    var line := key + "=" + val;
    forall k | 0 <= k < |line| ensures line[k] !in CommentChars {
      if k > |key| { assert line[k] == val[k - |key| - 1]; }
    }
    assert StripComment(line) == line;
    var eq := FindFirstOf(line, {'='});
    assert line[|key|] == '=';
    assert forall k :: 0 <= k < |key| ==> line[k] == key[k];
    assert eq == Some(|key|);
    assert line[..|key|] == [] + key + [];
    assert line[|key| + 1..] == [] + val + [];
    TrimPadded([], key, []);
    TrimPadded([], val, []);
  }

  /** The banner `wcdx_ini_Save` writes. */
  const SavedLines: seq<string> := [
    ";" + " =============================================================================================",
    ";" + " wcdx settings",
    ";" + " ============================================================================================="
  ]

  /** Comment lines, including the saved banner, carry no settings. */
  lemma CommentLineIgnored(line: string)
    requires line != [] && line[0] in CommentChars
    ensures ParseLine(line) == None
  {
    assert StripComment(line) == [];
  }

  /** The parsed settings of a file's lines, in order. */
  function Entries(lines: seq<string>): (es: seq<(string, string)>)
    ensures |es| <= |lines|
    ensures forall e :: e in es ==> exists i :: 0 <= i < |lines| && ParseLine(lines[i]) == Some(e)
  {
    if lines == [] then []
    else
      var rest := Entries(lines[1..]);
      assert forall i :: 1 <= i < |lines| ==> lines[i] == lines[1..][i - 1];
      var p := ParseLine(lines[0]);
      if p.Some? then [p.value] + rest else rest
  }

  /** Every line that parses contributes its setting. */
  lemma {:induction false} EntriesComplete(lines: seq<string>, i: int, e: (string, string))
    requires 0 <= i < |lines| && ParseLine(lines[i]) == Some(e)
    ensures e in Entries(lines)
  {
    if i == 0 {
      EntriesHead(lines);
    } else {
      var tail := lines[1..];
      assert lines[i] == tail[i - 1];
      EntriesComplete(tail, i - 1, e);
      EntriesTail(lines, e);
    }
  }

  lemma EntriesHead(lines: seq<string>)
    requires lines != [] && ParseLine(lines[0]).Some?
    ensures ParseLine(lines[0]).value in Entries(lines)
  {
  }

  lemma EntriesTail(lines: seq<string>, e: (string, string))
    requires lines != [] && e in Entries(lines[1..])
    ensures e in Entries(lines)
  {
  }

  datatype LoadResult = LoadResult(ok: bool, entries: seq<(string, string)>)

  /** `wcdx_ini_Load`: a missing file is created with the banner and the load
      reports the save; an unopenable file fails; otherwise every line is
      parsed and the load succeeds. */
  function Load(exists_: bool, opens: bool, saveOk: bool, lines: seq<string>): (r: LoadResult)
    ensures !exists_ ==> r == LoadResult(saveOk, [])
    ensures exists_ && !opens ==> r == LoadResult(false, [])
    ensures exists_ && opens ==> r.ok && r.entries == Entries(lines)
  {
    if !exists_ then LoadResult(saveOk, [])
    else if !opens then LoadResult(false, [])
    else LoadResult(true, Entries(lines))
  }

  /** Loading the file `wcdx_ini_Save` writes yields no settings. */
  lemma SavedFileHasNoEntries()
    ensures Entries(SavedLines) == []
  {
    CommentLineIgnored(SavedLines[0]);
    CommentLineIgnored(SavedLines[1]);
    CommentLineIgnored(SavedLines[2]);
    var tail := SavedLines[1..];
    assert tail[0] == SavedLines[1] && tail[1..][0] == SavedLines[2];
    assert tail[1..][1..] == [];
    assert Entries(tail[1..]) == [];
    assert Entries(tail) == [];
  }
}

=== FILE: joystick.dfy ===
/** The virtual joystick and the legacy WinMM joystick emulation.

    A six-axis virtual joystick, with a button mask and a POV hat, is set by
    the remapping layer. The hooked `joyGetPos`, `joyGetPosEx` and
    `joyGetDevCaps` calls report it, blended with a real device when one is
    present. Each call into the real WinMM library is an input: the library's
    exports, the tick count, and the answers of the real calls.
 */
module Joystick {
  import opened Words
  import opened Optional
  import opened Backoff

  const Center: U32 := 32767
  const PovCentered: U32 := 0xFFFF

  const NoError: U32 := 0
  const InvalidParam: U32 := 11

  /** `sizeof` of the WinMM structures on the 32-bit targets. */
  const JoyInfoExSize: U32 := 52
  const JoyCapsASize: U32 := 404
  const JoyCapsWSize: U32 := 728

  datatype Axis = X | Y | Z | R | U | V

  /** `VirtualJoyState`. */
  datatype VirtualJoy = VirtualJoy(x: U32, y: U32, z: U32, r: U32, u: U32, v: U32, buttons: bv32, pov: U32)

  /** The freshly constructed virtual joystick: centred, no buttons, hat centred. */
  const NeutralJoy := VirtualJoy(Center, Center, Center, Center, Center, Center, 0, PovCentered)

  function AxisValue(j: VirtualJoy, a: Axis): U32
  {
    match a
    case X => j.x
    case Y => j.y
    case Z => j.z
    case R => j.r
    case U => j.u
    case V => j.v
  }

  /** Which WinMM entry points the real library provides. */
  datatype Exports = Exports(pos: bool, posEx: bool, capsA: bool, capsW: bool)

  const NoExports := Exports(false, false, false, false)

  /** The lookup of the real WinMM entry points, done once until shutdown. */
  datatype WinMM = NotLooked | Looked(exports: Exports)

  /** The per-device presence cache: backoff state, last answer, and whether
      any answer has been recorded. */
  datatype ProbeSlot = ProbeSlot(probe: ProbeState, present: bool, valid: bool)

  const EmptySlot := ProbeSlot(InitialProbe, false, false)

  /** One slot for each of the four device ids the original tracks. */
  type Cache = c: seq<ProbeSlot> | |c| == 4 witness [EmptySlot, EmptySlot, EmptySlot, EmptySlot]

  /** All joystick-emulation state. The cache outlives shutdown, as the
      original keeps it in function-local statics. */
  datatype JoySystem = JoySystem(initialized: bool, joy: VirtualJoy, winmm: WinMM, cache: Cache)

  const InitialSystem := JoySystem(false, NeutralJoy, NotLooked, [EmptySlot, EmptySlot, EmptySlot, EmptySlot])

  /** What the real library does during one call: which entry points it has
      (used on the first lookup), the tick count, and the results a presence
      probe would get from the capability and position queries. */
  datatype Env = Env(exports: Exports, now: U32, probeCaps: U32, probePos: U32)

  // ---------------------------------------------------------------------------
  // Setup and teardown

  /** `KJ_Ensure_WinMM_Originals`: look the entry points up once. */
  function EnsureOriginals(w: WinMM, found: Exports): (r: WinMM)
    ensures r.Looked?
    ensures w.Looked? ==> r == w
  {
    if w.NotLooked? then Looked(found) else w
  }

  /** `KJ_Input_Install_Joystick`: on first use, construct a neutral joystick. */
  function Install(s: JoySystem, found: Exports): (r: JoySystem)
    ensures r.initialized && r.cache == s.cache
    ensures s.initialized ==> r == s
    ensures !s.initialized ==> r.joy == NeutralJoy && r.winmm.Looked?
  {
    if s.initialized then s
    else s.(joy := NeutralJoy, initialized := true, winmm := EnsureOriginals(s.winmm, found))
  }

  /** `KJ_Joystick_Shutdown`: neutral joystick, uninitialised, entry points forgotten. */
  function Shutdown(s: JoySystem): (r: JoySystem)
    ensures !r.initialized && r.cache == s.cache
    ensures s.initialized ==> r.joy == NeutralJoy && r.winmm == NotLooked
    ensures !s.initialized ==> r == s
  {
    if !s.initialized then s
    else s.(joy := NeutralJoy, initialized := false, winmm := NotLooked)
  }

  // ---------------------------------------------------------------------------
  // Setters and resets

  /** `KJ_VJoy_SetAxis`: install if needed, then set one axis. */
  function SetAxis(s: JoySystem, axis: Axis, value: U32, found: Exports): (r: JoySystem)
    ensures r.initialized
    ensures AxisValue(r.joy, axis) == value
    ensures forall a :: a != axis ==> AxisValue(r.joy, a) == AxisValue(Install(s, found).joy, a)
    ensures r.joy.buttons == Install(s, found).joy.buttons && r.joy.pov == Install(s, found).joy.pov
  {
    var b := Install(s, found);
    var j := b.joy;
    b.(joy := match axis
      case X => j.(x := value)
      case Y => j.(y := value)
      case Z => j.(z := value)
      case R => j.(r := value)
      case U => j.(u := value)
      case V => j.(v := value))
  }

  /** Bit `k` of a button mask. */
  predicate ButtonBit(b: bv32, k: bv5)
  {
    b & (1 << k) != 0
  }

  /** Setting or clearing bit `i` of a mask leaves every other bit alone. */
  lemma SingleBitUpdate(b: bv32, i: bv5, j: bv5)
    ensures ButtonBit(b | (1 << i), j) == (j == i || ButtonBit(b, j))
    ensures ButtonBit(b & !(1 << i), j) == (j != i && ButtonBit(b, j))
  {
  }

  /** `mask | (1 << k)`. */
  function SetBit(mask: bv32, k: bv5): (m: bv32)
    ensures ButtonBit(m, k)
    ensures forall j: bv5 :: j != k ==> ButtonBit(m, j) == ButtonBit(mask, j)
  {
    forall j: bv5 ensures ButtonBit(mask | (1 << k), j) == (j == k || ButtonBit(mask, j)) {
      SingleBitUpdate(mask, k, j);
    }
    mask | (1 << k)
  }

  /** `mask & ~(1 << k)`. */
  function ClearBit(mask: bv32, k: bv5): (m: bv32)
    ensures !ButtonBit(m, k)
    ensures forall j: bv5 :: j != k ==> ButtonBit(m, j) == ButtonBit(mask, j)
  {
    forall j: bv5 ensures ButtonBit(mask & !(1 << k), j) == (j != k && ButtonBit(mask, j)) {
      SingleBitUpdate(mask, k, j);
    }
    mask & !(1 << k)
  }

  /** `KJ_VJoy_SetButton`: install if needed, then set or clear bit `i`
      (an index of 32 or more is undefined behaviour in the original). */
  function SetButton(s: JoySystem, i: nat, down: bool, found: Exports): (r: JoySystem)
    requires i < 32
    ensures r.initialized
    ensures ButtonBit(r.joy.buttons, i as bv5) == down
    ensures forall j: bv5 :: j != i as bv5 ==>
      ButtonBit(r.joy.buttons, j) == ButtonBit(Install(s, found).joy.buttons, j)
    ensures r.joy == Install(s, found).joy.(buttons := r.joy.buttons)
  {
    var b := Install(s, found);
    b.(joy := b.joy.(buttons := if down then SetBit(b.joy.buttons, i as bv5) else ClearBit(b.joy.buttons, i as bv5)))
  }

  /** `KJ_VJoy_SetPOV`: install if needed, then set the hat. */
  function SetPov(s: JoySystem, pov: U32, found: Exports): (r: JoySystem)
    ensures r.initialized
    ensures r.joy == Install(s, found).joy.(pov := pov)
  {
    var b := Install(s, found);
    b.(joy := b.joy.(pov := pov))
  }

  /** `SE_Joystick_ResetAxesToCenter`: axes only, and only when initialised. */
  function ResetAxesToCenter(s: JoySystem): (r: JoySystem)
    ensures !s.initialized ==> r == s
    ensures s.initialized ==>
      (forall a :: AxisValue(r.joy, a) == Center)
      && r.joy.buttons == s.joy.buttons && r.joy.pov == s.joy.pov
      && r == s.(joy := r.joy)
  {
    if !s.initialized then s
    else s.(joy := s.joy.(x := Center, y := Center, z := Center, r := Center, u := Center, v := Center))
  }

  /** `KJ_ResetVirtualJoystick`: everything neutral, only when initialised. */
  function ResetVirtualJoystick(s: JoySystem): (r: JoySystem)
    ensures !s.initialized ==> r == s
    ensures s.initialized ==>
      (forall a :: AxisValue(r.joy, a) == Center)
      && r.joy.buttons == 0 && r.joy.pov == PovCentered
      && r == s.(joy := r.joy)
  {
    if !s.initialized then s else s.(joy := NeutralJoy)
  }

  /** A full reset after centring the axes is the same as a full reset. */
  lemma ResetAbsorbsCentering(s: JoySystem)
    ensures ResetVirtualJoystick(ResetAxesToCenter(s)) == ResetVirtualJoystick(s)
  {
  }

  // ---------------------------------------------------------------------------
  // Blending

  /** `KJ_BlendJoyValue`: add the virtual deflection from centre to the real
      value in C `int` arithmetic and clamp to 0..65535. */
  function BlendJoyValue(realVal: U32, virtVal: U32): (r: U16)
    ensures realVal < Two31 && virtVal < Two31 && realVal + virtVal - Center < Two31 ==>
      r == Clamp(realVal + (virtVal - Center), 0, 65535)
    ensures realVal <= 65535 && virtVal <= 65535 ==>
      r == Clamp(realVal + (virtVal - Center), 0, 65535)
  {
    var realInt := ToInt32(realVal);
    var virtInt := ToInt32(virtVal);
    var offset := WrapI32(virtInt - 32767);
    var combined := WrapI32(realInt + offset);
    Clamp(combined, 0, 65535)
  }

  /** A centred virtual axis leaves a real reading unchanged. */
  lemma BlendCenterIsIdentity(realVal: U32)
    requires realVal <= 65535
    ensures BlendJoyValue(realVal, Center) == realVal
  {
  }

  /** Saturation instead of wrap-around at both ends. */
  lemma BlendSaturates()
    ensures BlendJoyValue(65000, 42767) == 65535
    ensures BlendJoyValue(100, 0) == 0
  {
  }

  /** For in-range values the blend is monotone in both the real and the virtual value. */
  lemma BlendMonotone(r1: U32, r2: U32, v1: U32, v2: U32)
    requires r1 <= r2 <= 65535 && v1 <= v2 <= 65535
    ensures BlendJoyValue(r1, v1) <= BlendJoyValue(r2, v2)
  {
  }

  // ---------------------------------------------------------------------------
  // Presence probing

  /** `KJ_HasAnyGamepadMappings`: is any code in -33..-10 mapped. */
  predicate HasAnyGamepadMappings(mapped: set<int>)
  {
    exists c :: c in mapped && -33 <= c <= -10
  }

  function Slot(s: JoySystem, id: nat): ProbeSlot
    requires id < 4
  {
    s.cache[id]
  }

  /** Whether the cached answer for a slot is stale. */
  predicate ShouldProbe(slot: ProbeSlot, now: U32)
  {
    !slot.valid || ProbeDue(slot.probe, now)
  }

  datatype Presence = Presence(present: bool, sys: JoySystem)

  /** `KJ_IsRealJoystickActive`: answer from the cache, or probe the device
      (capability query first, then a position query) and record the result. */
  function IsRealJoystickActive(s: JoySystem, id: U32, env: Env): (p: Presence)
    ensures id >= 4 ==> p == Presence(false, s)
    ensures p.sys.initialized == s.initialized && p.sys.joy == s.joy
    ensures id < 4 ==> p.sys.winmm == EnsureOriginals(s.winmm, env.exports)
    ensures forall k :: 0 <= k < 4 && k != id ==> p.sys.cache[k] == s.cache[k]
  {
    if id >= 4 then Presence(false, s)
    else
      var w := EnsureOriginals(s.winmm, env.exports);
      var s1 := s.(winmm := w);
      if !w.exports.posEx then Presence(false, s1)
      else
        var slot := s.cache[id];
        if !ShouldProbe(slot, env.now) then Presence(slot.present, s1)
        else
          var capsResult := if w.exports.capsA || w.exports.capsW then env.probeCaps else NoError;
          var present := capsResult == NoError && env.probePos == NoError;
          var slot' := ProbeSlot(AfterProbe(slot.probe, env.now, present), present, true);
          Presence(present, s1.(cache := s.cache[id := slot']))
  }

  /** The probe cache: a fresh answer is reused until its interval elapses;
      a probe records success with a zero interval and failure on the
      backoff ladder. */
  lemma ProbeCacheBehaviour(s: JoySystem, id: U32, env: Env)
    requires id < 4 && s.winmm.Looked? && s.winmm.exports.posEx
    ensures var slot := s.cache[id];
      var p := IsRealJoystickActive(s, id, env);
      var w := s.winmm.exports;
      (!ShouldProbe(slot, env.now) ==> p == Presence(slot.present, s))
      && (ShouldProbe(slot, env.now) ==>
            p.present == ((w.capsA || w.capsW ==> env.probeCaps == NoError) && env.probePos == NoError)
            && p.sys.cache[id].valid && p.sys.cache[id].present == p.present
            && p.sys.cache[id].probe.lastTick == env.now
            && (p.present ==> p.sys.cache[id].probe.failures == 0 && p.sys.cache[id].probe.intervalMs == 0)
            && (!p.present ==>
                  p.sys.cache[id].probe.failures == slot.probe.failures + 1
                  && p.sys.cache[id].probe.intervalMs == ProbeInterval(slot.probe.failures + 1)))
  {
  }

  /** After a failed probe, the same absent answer is returned without a
      probe until the backoff interval has elapsed. */
  lemma AbsentAnswerIsCached(s: JoySystem, id: U32, env: Env, later: Env)
    requires id < 4 && s.winmm.Looked? && s.winmm.exports.posEx
    requires ShouldProbe(s.cache[id], env.now)
    requires !IsRealJoystickActive(s, id, env).present
    requires Elapsed(later.now, env.now) < ProbeInterval(s.cache[id].probe.failures + 1)
    ensures var s1 := IsRealJoystickActive(s, id, env).sys;
      IsRealJoystickActive(s1, id, later) == Presence(false, s1)
  {
    var s1 := IsRealJoystickActive(s, id, env).sys;
    assert s1.cache[id].probe == AfterProbe(s.cache[id].probe, env.now, false);
    NoProbeBeforeInterval(s.cache[id].probe, env.now, later.now);
  }

  // ---------------------------------------------------------------------------
  // The hooked queries

  /** `JOYINFO`. */
  datatype JoyInfo = JoyInfo(x: U16, y: U16, z: U16, buttons: bv16)

  /** `JOYINFOEX` (the reserved tail is not modelled). */
  datatype JoyInfoEx = JoyInfoEx(
    size: U32, flags: U32,
    x: U32, y: U32, z: U32, r: U32, u: U32, v: U32,
    buttons: bv32, buttonNumber: U32, pov: U32)

  /** What the real entry point returned and left in the caller's buffer. */
  datatype RealCall<T> = RealCall(result: U32, buffer: T)

  datatype Reply<T> = Reply(result: U32, buffer: Option<T>, sys: JoySystem)

  function Low16(x: U32): (r: U16)
    ensures x < Two16 ==> r == x
  {
    x % Two16
  }

  function LowButtons(b: bv32): bv16
  {
    (b & 0xFFFF) as bv16
  }

  /** The presence check the query hooks share: the named real entry point
      must exist and the device must answer. */
  function RealPresence(s: JoySystem, id: U32, env: Env, entry: bool): (p: Presence)
    ensures !entry ==> !p.present
  {
    if entry then IsRealJoystickActive(s, id, env) else Presence(false, s)
  }

  /** The real short reading with the virtual joystick blended in. */
  function Merge(b: JoyInfo, j: VirtualJoy, gamepad: bool): (o: JoyInfo)
  {
    var base: bv16 := if gamepad then 0 else b.buttons;
    JoyInfo(BlendJoyValue(b.x, j.x), BlendJoyValue(b.y, j.y), BlendJoyValue(b.z, j.z),
            base | LowButtons(j.buttons))
  }

  /** `KJ_joyGetPos`. */
  function JoyGetPos(s: JoySystem, id: U32, buf: Option<JoyInfo>, env: Env,
                     answer: RealCall<JoyInfo>, mapped: set<int>): (r: Reply<JoyInfo>)
    ensures buf.None? ==> r == Reply(InvalidParam, None, s)
    ensures buf.Some? ==> r.buffer.Some?
  {
    if buf.None? then Reply(InvalidParam, None, s)
    else
      var s1 := s.(winmm := EnsureOriginals(s.winmm, env.exports));
      var p := RealPresence(s1, id, env, s1.winmm.exports.pos);
      if p.present then
        var j := p.sys.joy;
        var b := answer.buffer;
        if answer.result == NoError && p.sys.initialized then
          Reply(answer.result, Some(Merge(b, j, HasAnyGamepadMappings(mapped))), p.sys)
        else Reply(answer.result, Some(b), p.sys)
      else
        var s2 := Install(p.sys, env.exports);
        var j := s2.joy;
        Reply(NoError, Some(JoyInfo(Low16(j.x), Low16(j.y), Low16(j.z), LowButtons(j.buttons))), s2)
  }

  /** The real extended reading with the virtual joystick blended in. */
  function MergeEx(b: JoyInfoEx, j: VirtualJoy, gamepad: bool): (o: JoyInfoEx)
  {
    var baseButtons: bv32 := if gamepad then 0 else b.buttons;
    var basePov := if gamepad then PovCentered else b.pov;
    b.(x := BlendJoyValue(b.x, j.x), y := BlendJoyValue(b.y, j.y), z := BlendJoyValue(b.z, j.z),
       r := BlendJoyValue(b.r, j.r), u := BlendJoyValue(b.u, j.u), v := BlendJoyValue(b.v, j.v),
       buttons := baseButtons | j.buttons,
       pov := if j.pov != PovCentered then j.pov else basePov)
  }

  /** `KJ_joyGetPosEx`. */
  function JoyGetPosEx(s: JoySystem, id: U32, buf: Option<JoyInfoEx>, env: Env,
                       answer: RealCall<JoyInfoEx>, mapped: set<int>): (r: Reply<JoyInfoEx>)
    ensures buf.None? || buf.value.size < JoyInfoExSize ==> r == Reply(InvalidParam, buf, s)
    ensures buf.Some? ==> r.buffer.Some?
  {
    if buf.None? || buf.value.size < JoyInfoExSize then Reply(InvalidParam, buf, s)
    else
      var s1 := s.(winmm := EnsureOriginals(s.winmm, env.exports));
      var p := RealPresence(s1, id, env, s1.winmm.exports.posEx);
      if p.present then
        var j := p.sys.joy;
        var b := answer.buffer;
        if answer.result == NoError && p.sys.initialized then
          Reply(answer.result, Some(MergeEx(b, j, HasAnyGamepadMappings(mapped))), p.sys)
        else Reply(answer.result, Some(b), p.sys)
      else
        var s2 := Install(p.sys, env.exports);
        var j := s2.joy;
        Reply(NoError, Some(buf.value.(x := j.x, y := j.y, z := j.z, r := j.r, u := j.u, v := j.v,
                                       buttons := j.buttons, pov := j.pov)), s2)
  }

  /** With a real device answering, the extended reply merges the virtual
      buttons into the real ones (dropping the real ones when the gamepad is
      remapped), and a non-centred virtual hat overrides the real one. */
  lemma PosExMergesWithRealDevice(s: JoySystem, id: U32, b: JoyInfoEx, env: Env,
                                  answer: RealCall<JoyInfoEx>, mapped: set<int>)
    requires b.size >= JoyInfoExSize
    requires s.initialized && s.winmm.Looked? && s.winmm.exports.posEx
    requires IsRealJoystickActive(s, id, env).present && answer.result == NoError
    ensures var r := JoyGetPosEx(s, id, Some(b), env, answer, mapped);
      var j := s.joy;
      var o := answer.buffer;
      r.result == NoError && r.buffer.Some?
      && r.buffer.value.buttons == (if HasAnyGamepadMappings(mapped) then 0 else o.buttons) | j.buttons
      && r.buffer.value.pov == (if j.pov != PovCentered then j.pov
                                else if HasAnyGamepadMappings(mapped) then PovCentered
                                else o.pov)
      && r.buffer == Some(MergeEx(o, j, HasAnyGamepadMappings(mapped)))
      && (j.x <= 65535 && o.x <= 65535 ==> r.buffer.value.x == Clamp(o.x + (j.x - Center), 0, 65535))
      && (j.y <= 65535 && o.y <= 65535 ==> r.buffer.value.y == Clamp(o.y + (j.y - Center), 0, 65535))
      && (j.z <= 65535 && o.z <= 65535 ==> r.buffer.value.z == Clamp(o.z + (j.z - Center), 0, 65535))
      && (j.r <= 65535 && o.r <= 65535 ==> r.buffer.value.r == Clamp(o.r + (j.r - Center), 0, 65535))
      && (j.u <= 65535 && o.u <= 65535 ==> r.buffer.value.u == Clamp(o.u + (j.u - Center), 0, 65535))
      && (j.v <= 65535 && o.v <= 65535 ==> r.buffer.value.v == Clamp(o.v + (j.v - Center), 0, 65535))
  {
    var p := IsRealJoystickActive(s, id, env);
    assert EnsureOriginals(s.winmm, env.exports) == s.winmm;
    assert s.(winmm := s.winmm) == s;
    assert RealPresence(s, id, env, true) == p;
    assert p.sys.joy == s.joy && p.sys.initialized;
    assert JoyGetPosEx(s, id, Some(b), env, answer, mapped).buffer
      == Some(MergeEx(answer.buffer, s.joy, HasAnyGamepadMappings(mapped)));
  }

  /** With a real device answering, the short reply blends the three virtual
      axes into the real ones and ORs the low 16 virtual buttons into the real
      buttons, which are dropped when the gamepad is remapped. */
  lemma PosMergesWithRealDevice(s: JoySystem, id: U32, b: JoyInfo, env: Env,
                                answer: RealCall<JoyInfo>, mapped: set<int>)
    requires s.initialized && s.winmm.Looked? && s.winmm.exports.pos
    requires IsRealJoystickActive(s, id, env).present && answer.result == NoError
    ensures var r := JoyGetPos(s, id, Some(b), env, answer, mapped);
      var j := s.joy;
      var o := answer.buffer;
      r.result == NoError && r.buffer == Some(Merge(o, j, HasAnyGamepadMappings(mapped)))
      && r.buffer.value.buttons == (if HasAnyGamepadMappings(mapped) then 0 else o.buttons) | LowButtons(j.buttons)
      && (j.x <= 65535 ==> r.buffer.value.x == Clamp(o.x + (j.x - Center), 0, 65535))
      && (j.y <= 65535 ==> r.buffer.value.y == Clamp(o.y + (j.y - Center), 0, 65535))
      && (j.z <= 65535 ==> r.buffer.value.z == Clamp(o.z + (j.z - Center), 0, 65535))
  {
    var p := IsRealJoystickActive(s, id, env);
    assert EnsureOriginals(s.winmm, env.exports) == s.winmm;
    assert s.(winmm := s.winmm) == s;
    assert RealPresence(s, id, env, true) == p;
    assert p.sys.joy == s.joy && p.sys.initialized;
    assert JoyGetPos(s, id, Some(b), env, answer, mapped).buffer
      == Some(Merge(answer.buffer, s.joy, HasAnyGamepadMappings(mapped)));
  }

  /** Without a real device (an id from 4 up, a missing `joyGetPosEx`, or a
      probe that failed or is cached as absent) the extended reply is the
      virtual joystick exactly, and it succeeds. */
  lemma NoDeviceReportsVirtualState(s: JoySystem, id: U32, b: JoyInfoEx, env: Env,
                                    answer: RealCall<JoyInfoEx>, mapped: set<int>)
    requires b.size >= JoyInfoExSize
    requires s.initialized
    requires var s1 := s.(winmm := EnsureOriginals(s.winmm, env.exports));
      !RealPresence(s1, id, env, s1.winmm.exports.posEx).present
    ensures var r := JoyGetPosEx(s, id, Some(b), env, answer, mapped);
      var j := s.joy;
      r.result == NoError && r.sys.joy == j
      && r.buffer == Some(b.(x := j.x, y := j.y, z := j.z, r := j.r, u := j.u, v := j.v,
                            buttons := j.buttons, pov := j.pov))
  {
  }

  /** Without a real device (an id from 4 up, a missing `joyGetPos`, or a
      probe that failed or is cached as absent) the short reply is the low
      16 bits of the virtual joystick, and it succeeds. */
  lemma NoDeviceShortReportsVirtualState(s: JoySystem, id: U32, sb: JoyInfo, env: Env,
                                         answer: RealCall<JoyInfo>, mapped: set<int>)
    requires s.initialized
    requires var s1 := s.(winmm := EnsureOriginals(s.winmm, env.exports));
      !RealPresence(s1, id, env, s1.winmm.exports.pos).present
    ensures var r := JoyGetPos(s, id, Some(sb), env, answer, mapped);
      var j := s.joy;
      r.result == NoError && r.sys.joy == j
      && r.buffer == Some(JoyInfo(j.x % Two16, j.y % Two16, j.z % Two16, LowButtons(j.buttons)))
  {
  }

  /** A reply without a device installs the virtual joystick on first use. */
  lemma NoDeviceInstalls(s: JoySystem, id: U32, b: JoyInfoEx, env: Env, answer: RealCall<JoyInfoEx>, mapped: set<int>)
    requires b.size >= JoyInfoExSize && !s.initialized
    requires var s1 := s.(winmm := EnsureOriginals(s.winmm, env.exports));
      !RealPresence(s1, id, env, s1.winmm.exports.posEx).present
    ensures var r := JoyGetPosEx(s, id, Some(b), env, answer, mapped);
      r.result == NoError && r.sys.initialized && r.sys.joy == NeutralJoy
      && r.buffer == Some(b.(x := Center, y := Center, z := Center, r := Center, u := Center, v := Center,
                            buttons := 0, pov := PovCentered))
  {
  }

  /** The short reply without a device installs the virtual joystick too. */
  lemma NoDeviceShortInstalls(s: JoySystem, id: U32, sb: JoyInfo, env: Env, answer: RealCall<JoyInfo>,
                              mapped: set<int>)
    requires !s.initialized
    requires var s1 := s.(winmm := EnsureOriginals(s.winmm, env.exports));
      !RealPresence(s1, id, env, s1.winmm.exports.pos).present
    ensures var r := JoyGetPos(s, id, Some(sb), env, answer, mapped);
      r.result == NoError && r.sys.initialized
      && r.buffer == Some(JoyInfo(Center, Center, Center, 0))
  {
  }

  /** For ids 0..3 there is no device whenever the looked-up `joyGetPosEx`
      is missing, or the due probe fails. */
  lemma NoDeviceCases(s: JoySystem, id: U32, env: Env)
    requires id < 4
    ensures var s1 := s.(winmm := EnsureOriginals(s.winmm, env.exports));
      !s1.winmm.exports.posEx ==> !RealPresence(s1, id, env, s1.winmm.exports.posEx).present
    ensures var s1 := s.(winmm := EnsureOriginals(s.winmm, env.exports));
      s1.winmm.exports.posEx && ShouldProbe(s.cache[id], env.now) && env.probePos != NoError ==>
        !RealPresence(s1, id, env, s1.winmm.exports.posEx).present
  {
  }

  /** `KJ_joyGetNumDevs`: the real count is never consulted. */
  function JoyGetNumDevs(): (n: U32)
    ensures n == 1
  {
    1
  }

  /** `JOYCAPS` (the A and W variants differ only in their name buffer). */
  datatype JoyCaps = JoyCaps(
    mid: U16, pid: U16, name: seq<char>,
    xMin: U32, xMax: U32, yMin: U32, yMax: U32, zMin: U32, zMax: U32,
    numButtons: U32, periodMin: U32, periodMax: U32,
    numAxes: U32, maxAxes: U32)

  /** The capabilities reported when no real device answers. */
  const FabricatedCaps := JoyCaps(0, 0, "", 0, 65535, 0, 65535, 0, 65535, 32, 0, 0, 3, 6)

  /** `KJ_joyGetDevCapsA` and `W`: reject a missing or short buffer, pass a
      real success through, otherwise fabricate a three-axis, 32-button device. */
  function JoyGetDevCaps(s: JoySystem, buf: Option<JoyCaps>, cb: U32, structSize: U32,
                         env: Env, realEntry: bool, answer: RealCall<JoyCaps>): (r: Reply<JoyCaps>)
    ensures buf.None? || cb < structSize ==> r == Reply(InvalidParam, buf, s)
    ensures buf.Some? && cb >= structSize ==>
      r.result == NoError
      && (r.buffer == Some(answer.buffer) || r.buffer == Some(FabricatedCaps))
      && (r.buffer == Some(FabricatedCaps) <== !realEntry || answer.result != NoError)
      && (realEntry && answer.result == NoError ==> r.buffer == Some(answer.buffer))
  {
    if buf.None? || cb < structSize then Reply(InvalidParam, buf, s)
    else
      var w := EnsureOriginals(s.winmm, env.exports);
      if realEntry && answer.result == NoError then Reply(NoError, Some(answer.buffer), s.(winmm := w))
      else Reply(NoError, Some(FabricatedCaps), s.(winmm := w))
  }

  function JoyGetDevCapsA(s: JoySystem, buf: Option<JoyCaps>, cb: U32, env: Env,
                          answer: RealCall<JoyCaps>): (r: Reply<JoyCaps>)
    ensures buf.None? || cb < JoyCapsASize ==> r.result == InvalidParam
    ensures buf.Some? && cb >= JoyCapsASize ==> r.result == NoError
  {
    JoyGetDevCaps(s, buf, cb, JoyCapsASize, env, EnsureOriginals(s.winmm, env.exports).exports.capsA, answer)
  }

  function JoyGetDevCapsW(s: JoySystem, buf: Option<JoyCaps>, cb: U32, env: Env,
                          answer: RealCall<JoyCaps>): (r: Reply<JoyCaps>)
    ensures buf.None? || cb < JoyCapsWSize ==> r.result == InvalidParam
    ensures buf.Some? && cb >= JoyCapsWSize ==> r.result == NoError
  {
    JoyGetDevCaps(s, buf, cb, JoyCapsWSize, env, EnsureOriginals(s.winmm, env.exports).exports.capsW, answer)
  }
}

=== FILE: key_names.dfy ===
/** Translation of key names (as used in mapping calls) to logical input codes.

    A `std::string` is a sequence of bytes; a name here is a sequence of
    characters below 256, and a single character is read as a signed `char`.
 */
module KeyNames {
  import opened Codes

  type ByteChar = c: char | (c as int) < 256 witness 'a'
  type Name = seq<ByteChar>

  type KeyboardCode = c: int | 0 < c < 256 witness 1
  type MouseNameCode = c: int | IsMouseButtonCode(c) || c == MouseMove witness MouseLeft
  type PadCode = c: int | -33 <= c <= -10 witness XboxA

  /** Named keyboard keys before the digits, in the order the original tests them. */
  const KeyboardNames: seq<(Name, KeyboardCode)> := [
    ("esc", 0x1B), ("space", 0x20), ("enter", 0x0D), ("tab", 0x09),
    ("backspace", 0x08), ("shift", 0xA0), ("ctrl", 0xA2), ("alt", 0xA4),
    ("capslock", 0x14), ("insert", 0x2D), ("delete", 0x2E), ("home", 0x24),
    ("end", 0x23), ("pageup", 0x21), ("pagedown", 0x22),
    ("up", 0x26), ("down", 0x28), ("left", 0x25), ("right", 0x27)
  ]

  /** The one-character digit names; the single-character branch always wins over them. */
  const DigitNames: seq<(Name, KeyboardCode)> := [
    ("0", 0x30), ("1", 0x31), ("2", 0x32), ("3", 0x33), ("4", 0x34),
    ("5", 0x35), ("6", 0x36), ("7", 0x37), ("8", 0x38), ("9", 0x39)
  ]

  const FunctionKeyNames: seq<(Name, KeyboardCode)> := [
    ("f1", 0x70), ("f2", 0x71), ("f3", 0x72), ("f4", 0x73),
    ("f5", 0x74), ("f6", 0x75), ("f7", 0x76), ("f8", 0x77),
    ("f9", 0x78), ("f10", 0x79), ("f11", 0x7A), ("f12", 0x7B)
  ]

  /** Locks, numpad and punctuation. */
  const OtherKeyNames: seq<(Name, KeyboardCode)> := [
    ("printscreen", 0x2C), ("scrolllock", 0x91), ("pause", 0x13),
    ("numlock", 0x90), ("kp_divide", 0x6F), ("kp_multiply", 0x6A),
    ("kp_minus", 0x6D), ("kp_plus", 0x6B), ("kp_enter", 0x0D),
    ("comma", 0xBC), ("period", 0xBE), ("slash", 0xBF), ("minus", 0xBD),
    ("equals", 0xBB)
  ]

  const MouseNames: seq<(Name, MouseNameCode)> := [
    ("mouse_left", MouseLeft), ("mouse_middle", MouseMiddle), ("mouse_right", MouseRight),
    ("mouse_x1", MouseX1), ("mouse_x2", MouseX2), ("mouse_move", MouseMove)
  ]

  /** The digital buttons of the pad. */
  const PadButtonNames: seq<(Name, PadCode)> := [
    ("XboxA", XboxA), ("XboxB", XboxB), ("XboxX", XboxX), ("XboxY", XboxY),
    ("XboxLB", XboxLB), ("XboxRB", XboxRB),
    ("XboxLSClick", XboxLSClick), ("XboxRSClick", XboxRSClick),
    ("XboxBack", XboxBack), ("XboxStart", XboxStart)
  ]

  const PadDPadNames: seq<(Name, PadCode)> := [
    ("XboxDPadUp", XboxDPadUp), ("XboxDPadDown", XboxDPadDown),
    ("XboxDPadLeft", XboxDPadLeft), ("XboxDPadRight", XboxDPadRight)
  ]

  /** Triggers and the eight stick directions. */
  const PadAnalogNames: seq<(Name, PadCode)> := [
    ("XboxLT", XboxLT), ("XboxRT", XboxRT),
    ("XboxLSUp", XboxLSUp), ("XboxLSDown", XboxLSDown),
    ("XboxLSLeft", XboxLSLeft), ("XboxLSRight", XboxLSRight),
    ("XboxRSUp", XboxRSUp), ("XboxRSDown", XboxRSDown),
    ("XboxRSLeft", XboxRSLeft), ("XboxRSRight", XboxRSRight)
  ]

  const PadNames: seq<(Name, PadCode)> := PadButtonNames + PadDPadNames + PadAnalogNames

  /** Every named key, in the order the original compares them. */
  const NameTable: seq<(Name, int)> :=
    KeyboardNames + DigitNames + FunctionKeyNames + OtherKeyNames + MouseNames + PadNames

  /** The code of the first entry named `name`, or 0 when none is. */
  function Lookup(table: seq<(Name, int)>, name: Name): int
  {
    if table == [] then 0
    else if table[0].0 == name then table[0].1
    else Lookup(table[1..], name)
  }

  predicate Listed(table: seq<(Name, int)>, name: Name)
  {
    exists i :: 0 <= i < |table| && table[i].0 == name
  }

  /** A one-byte name: lower-case letters fold to upper case, every other byte
      is its own value read as a signed `char`. */
  function SingleCharCode(c: ByteChar): (code: int)
    ensures 'a' <= c <= 'z' ==> code == c as int - 32
    ensures !('a' <= c <= 'z') && (c as int) < 128 ==> code == c as int
    ensures (c as int) >= 128 ==> code == c as int - 256
  {
    var c' := if 'a' <= c <= 'z' then (c as int - 'a' as int + 'A' as int) else c as int;
    if c' >= 128 then c' - 256 else c'
  }

  /** `getKeyCode`: the logical code for a key name. */
  function KeyCode(name: Name): int
  {
    if |name| == 1 then SingleCharCode(name[0]) else Lookup(NameTable, name)
  }

  lemma {:induction false} LookupFound(table: seq<(Name, int)>, name: Name, i: int)
    requires 0 <= i < |table| && table[i].0 == name
    requires forall j :: 0 <= j < i ==> table[j].0 != name
    ensures Lookup(table, name) == table[i].1
    decreases i
  {
    if i > 0 {
      LookupFound(table[1..], name, i - 1);
    }
  }

  lemma {:induction false} LookupMissing(table: seq<(Name, int)>, name: Name)
    requires !Listed(table, name)
    ensures Lookup(table, name) == 0
    decreases |table|
  {
    if table != [] {
      assert table[0].0 != name;
      forall i | 0 <= i < |table| - 1 ensures table[1..][i].0 != name {
        assert table[1..][i] == table[i + 1];
      }
      LookupMissing(table[1..], name);
    }
  }

  /** A lookup that finds a name returns a code some entry of that name carries. */
  lemma {:induction false} LookupListed(table: seq<(Name, int)>, name: Name)
    requires Listed(table, name)
    ensures exists i :: 0 <= i < |table| && table[i].0 == name && table[i].1 == Lookup(table, name)
    decreases |table|
  {
    if table[0].0 != name {
      var i :| 0 <= i < |table| && table[i].0 == name;
      assert table[1..][i - 1] == table[i];
      LookupListed(table[1..], name);
      var k :| 0 <= k < |table[1..]| && table[1..][k].0 == name && table[1..][k].1 == Lookup(table[1..], name);
      assert table[k + 1] == table[1..][k];
    }
  }

  /** Unrecognised names of any length other than one map to code 0. */
  lemma UnknownNameIsZero(name: Name)
    requires |name| != 1 && !Listed(NameTable, name)
    ensures KeyCode(name) == 0
  {
    LookupMissing(NameTable, name);
  }

  /** No entry carries code 0; keyboard entries come first, then mouse, then gamepad. */
  lemma TableCodeClasses()
    ensures |NameTable| == 85
    ensures forall i :: 0 <= i < |NameTable| ==> NameTable[i].1 != 0
    ensures forall i :: 0 <= i < 55 ==> 0 < NameTable[i].1 < 256
    ensures forall i :: 55 <= i < 61 ==> IsMouseButtonCode(NameTable[i].1) || NameTable[i].1 == MouseMove
    ensures forall i :: 61 <= i < 85 ==> IsGamepadCode(NameTable[i].1)
  {
    var k1 := KeyboardNames + DigitNames;
    var k2 := k1 + FunctionKeyNames;
    var k := k2 + OtherKeyNames;
    var km := k + MouseNames;
    assert NameTable == km + PadNames;
    forall i | 0 <= i < 55 ensures 0 < NameTable[i].1 < 256 {
      assert NameTable[i] == k[i];
      if i < 41 {
        assert k[i] == k2[i];
        if i < 29 {
          assert k2[i] == k1[i];
        }
      }
    }
    forall i | 55 <= i < 61 ensures IsMouseButtonCode(NameTable[i].1) || NameTable[i].1 == MouseMove {
      assert NameTable[i] == km[i] == MouseNames[i - 55];
    }
    forall i | 61 <= i < 85 ensures IsGamepadCode(NameTable[i].1) {
      assert NameTable[i] == PadNames[i - 61];
    }
  }

  /** Code 0 comes exactly from the NUL byte or an unlisted name of length other than one. */
  lemma KeyCodeZeroIff(name: Name)
    ensures KeyCode(name) == 0 <==>
      (|name| == 1 && name[0] == '\0') || (|name| != 1 && !Listed(NameTable, name))
  {
    if |name| != 1 {
      if Listed(NameTable, name) {
        LookupListed(NameTable, name);
        TableCodeClasses();
      } else {
        LookupMissing(NameTable, name);
      }
    }
  }

  /** The digit entries are shadowed by the one-character branch, which gives
      the same codes, so they change nothing. */
  lemma DigitEntriesAgree(d: int)
    requires 0 <= d < |DigitNames|
    ensures |DigitNames[d].0| == 1
    ensures KeyCode(DigitNames[d].0) == DigitNames[d].1 == 0x30 + d
  {
  }

  /** A listed multi-character name resolves to the code of an entry carrying
      that name, and that code is never 0. */
  lemma ListedNameCode(name: Name)
    requires |name| != 1 && Listed(NameTable, name)
    ensures KeyCode(name) != 0
    ensures exists i :: 0 <= i < |NameTable| && NameTable[i].0 == name && NameTable[i].1 == KeyCode(name)
  {
    LookupListed(NameTable, name);
    TableCodeClasses();
  }

  /** A single byte at or above 0x80 becomes a negative code; byte 0xFF collides
      with the left mouse button. */
  lemma HighByteAliasesMouse()
    ensures KeyCode(['ÿ']) == MouseLeft
  {
  }
}

=== FILE: keyboard.dfy ===
/** The low-level keyboard hook and the key-injection worker.

    Injected keys are queued as tagged `INPUT` records and sent by a worker
    thread, which also auto-repeats held injected keys. Here the worker's
    life is a sequence of passes, each a pure step at an explicit tick; the
    virtual-key to scan-code translation is left abstract: an event names
    its virtual key and says whether it is sent in scan-code form.
 */
module Keyboard {
  import opened Words
  import opened Optional
  import Controls
  import KeyOrder

  // ---------------------------------------------------------------------------
  // The hook

  const WmKeyDown: int := 0x0100
  const WmKeyUp: int := 0x0101
  const WmSysKeyDown: int := 0x0104
  const WmSysKeyUp: int := 0x0105

  /** What a low-level keyboard hook sees: the message and `KBDLLHOOKSTRUCT`'s
      key, injected flag and whether `dwExtraInfo` carries the injection tag. */
  datatype KeyHookEvent = KeyHookEvent(message: int, vkCode: U32, injected: bool, tagged: bool)

  datatype HookDecision = PassThrough | Swallow

  /** `LowLevelKeyboardProc`: pass through negative codes, missing data and
      injected or tagged events; swallow a mapped key after imposing its
      physical state as an override; pass through everything else. */
  function KeyboardHook(e: Controls.Engine, nCode: I32, data: Option<KeyHookEvent>): (r: (HookDecision, Controls.Engine))
    ensures r.0 == Swallow <==> nCode >= 0 && data.Some? && !data.value.injected && !data.value.tagged
                                  && Controls.IsMapped(e, ToInt32(data.value.vkCode))
    ensures r.0 == PassThrough ==> r.1 == e
    ensures r.0 == Swallow ==> r.1 == Controls.NotifyPhysicalKey(e, ToInt32(data.value.vkCode),
      data.value.message == WmKeyDown || data.value.message == WmSysKeyDown)
  {
    if nCode < 0 || data.None? then (PassThrough, e)
    else
      var kb := data.value;
      if kb.injected || kb.tagged then (PassThrough, e)
      else
        var code := ToInt32(kb.vkCode);
        if Controls.IsMapped(e, code) then
          (Swallow, Controls.NotifyPhysicalKey(e, code, kb.message == WmKeyDown || kb.message == WmSysKeyDown))
        else (PassThrough, e)
  }

  /** A swallowed key-up clears the pressed override: the next poll of the
      key reads up whatever the asynchronous key state says. */
  lemma SwallowedKeyUpReadsUp(e: Controls.Engine, kb: KeyHookEvent, held: set<int>)
    requires kb.message == WmKeyUp && !kb.injected && !kb.tagged
    requires Controls.IsMapped(e, ToInt32(kb.vkCode))
    ensures var r := KeyboardHook(e, 0, Some(kb));
      r.0 == Swallow
      && !Controls.PolledDown(ToInt32(kb.vkCode), r.1.keys[ToInt32(kb.vkCode)], held)
  {
    var code := ToInt32(kb.vkCode);
    Controls.OverrideReplacesPoll(code, KeyboardHook(e, 0, Some(kb)).1.keys[code], held);
  }

  // ---------------------------------------------------------------------------
  // Injection state

  /** `INPUT` of type keyboard as this file builds it: the key, whether `wVk`
      is filled in, whether `KEYEVENTF_SCANCODE` is set, whether it is a key-up,
      and whether `dwExtraInfo` is the injection tag. */
  datatype KeyInput = KeyInput(vk: int, withVk: bool, scanCode: bool, keyUp: bool, tagged: bool)

  /** `InjectedKeyInfo`. */
  datatype InjectedKey = InjectedKey(initialTick: U32, lastRepeatTick: U32, initialConsumed: bool)

  /** The injection subsystem: whether the worker has been started, the
      initial delay and repeat interval, the held injected keys and the queue. */
  datatype Injector = Injector(
    started: bool,
    initialDelayMs: U32,
    repeatIntervalMs: U32,
    keys: map<int, InjectedKey>,
    queue: seq<KeyInput>)

  const InitialInjector := Injector(false, 500, 50, map[], [])

  /** What the subsystem keeps true between calls: nothing is held or queued
      while the worker is stopped, and every queued event carries the tag. */
  predicate Valid(s: Injector)
  {
    (!s.started ==> s.keys == map[] && s.queue == [])
    && forall i :: 0 <= i < |s.queue| ==> s.queue[i].tagged
  }

  /** The initial delay derived from the keyboard-delay setting (0..3 in
      practice), in 32-bit unsigned arithmetic. */
  function InitialDelay(delaySetting: U32): (ms: U32)
    ensures delaySetting < 4 ==> ms == (delaySetting + 1) * 250 && 250 <= ms <= 1000
  {
    ((delaySetting + 1) * 250) % Two32
  }

  /** `EnsureInjectThread`: on first use record the delay and the interval
      (`intervalMs` stands for the floating-point conversion of the speed
      setting) and start the worker; later calls change nothing. */
  function EnsureStarted(s: Injector, delaySetting: U32, intervalMs: U32): (r: Injector)
    ensures r.started
    ensures s.started ==> r == s
    ensures !s.started ==> r.initialDelayMs == InitialDelay(delaySetting) && r.repeatIntervalMs == intervalMs
    ensures r.keys == s.keys && r.queue == s.queue
  {
    if s.started then s
    else s.(started := true, initialDelayMs := InitialDelay(delaySetting), repeatIntervalMs := intervalMs)
  }

  /** The settings `EnsureInjectThread` would read. */
  datatype Settings = Settings(delaySetting: U32, intervalMs: U32)

  // ---------------------------------------------------------------------------
  // Injection calls

  /** `KJ_Input_InjectKey`: a press of a key already held changes nothing and
      queues nothing; otherwise a press starts the key's repeat clock at `now`,
      a release forgets the key, and either queues one tagged scan-code event. */
  function InjectKey(s: Injector, vk: U32, down: bool, now: U32, cfg: Settings): (r: Injector)
    ensures r.started
    ensures down && vk in s.keys ==> r == EnsureStarted(s, cfg.delaySetting, cfg.intervalMs)
    ensures down && vk !in s.keys ==> r.keys == s.keys[vk := InjectedKey(now, now, false)]
    ensures !down ==> r.keys == s.keys - {vk}
    ensures !(down && vk in s.keys) ==>
      r.queue == s.queue + [KeyInput(vk, false, true, !down, true)]
    ensures Valid(s) ==> Valid(r)
  {
    var t := EnsureStarted(s, cfg.delaySetting, cfg.intervalMs);
    if down && vk in t.keys then t
    else
      var keys := if down then t.keys[vk := InjectedKey(now, now, false)] else t.keys - {vk};
      t.(keys := keys, queue := t.queue + [KeyInput(vk, false, true, !down, true)])
  }

  /** The repeat clock `KJ_Input_InjectKeyFastRepeat` sets: one interval ago,
      or 0 when the tick count is still below the interval. */
  function FastRepeatTick(now: U32, interval: U32): (t: U32)
    ensures interval > 0 && now >= interval ==> Elapsed(now, t) == interval
    ensures !(interval > 0 && now >= interval) ==> t == 0
  {
    if interval > 0 && now >= interval then now - interval else 0
  }

  /** `KJ_Input_InjectKeyFastRepeat`: mark the key's initial delay as spent and
      backdate its repeat clock; queue a tagged key-down only for a key that
      was not held. */
  function InjectKeyFastRepeat(s: Injector, vk: U32, now: U32, cfg: Settings): (r: Injector)
    ensures r.started
    ensures vk in r.keys && r.keys[vk].initialConsumed
    ensures r.keys[vk].lastRepeatTick == FastRepeatTick(now, r.repeatIntervalMs)
    ensures vk !in s.keys ==> r.keys[vk].initialTick == now
    ensures vk in s.keys ==> r.keys[vk].initialTick == s.keys[vk].initialTick
    ensures forall k :: k in s.keys && k != vk ==> k in r.keys && r.keys[k] == s.keys[k]
    ensures r.keys.Keys == s.keys.Keys + {vk}
    ensures vk !in s.keys ==> r.queue == s.queue + [KeyInput(vk, false, true, false, true)]
    ensures vk in s.keys ==> r.queue == s.queue
    ensures Valid(s) ==> Valid(r)
  {
    var t := EnsureStarted(s, cfg.delaySetting, cfg.intervalMs);
    var last := FastRepeatTick(now, t.repeatIntervalMs);
    if vk !in t.keys then
      t.(keys := t.keys[vk := InjectedKey(now, last, true)],
         queue := t.queue + [KeyInput(vk, false, true, false, true)])
    else
      t.(keys := t.keys[vk := t.keys[vk].(initialConsumed := true, lastRepeatTick := last)])
  }

  // ---------------------------------------------------------------------------
  // The worker

  /** How long the worker waits for new work: a quarter of the repeat
      interval (at least 1 ms) while keys are held, otherwise until woken
      (`None`). */
  function WaitTime(s: Injector): (w: Option<U32>)
    ensures w.Some? <==> s.keys != map[]
    ensures w.Some? ==> 1 <= w.value && (s.repeatIntervalMs >= 4 ==> w.value == s.repeatIntervalMs / 4)
    ensures w.Some? && s.repeatIntervalMs < 4 ==> w.value == 1
  {
    if s.keys == map[] then None
    else if s.repeatIntervalMs / 4 == 0 then Some(1)
    else Some(s.repeatIntervalMs / 4)
  }

  /** Is a repeat of this key due at `now`? */
  predicate RepeatDue(info: InjectedKey, now: U32, delay: U32, interval: U32)
  {
    if !info.initialConsumed then Elapsed(now, info.initialTick) >= delay
    else Elapsed(now, info.lastRepeatTick) >= interval
  }

  /** One key's turn in the repeat loop: a due key is sent once and its clock
      restarts at `now`; the first repeat also consumes the initial delay. */
  function RepeatKey(info: InjectedKey, now: U32, delay: U32, interval: U32): (r: InjectedKey)
    ensures RepeatDue(info, now, delay, interval) ==> r == InjectedKey(info.initialTick, now, true)
    ensures !RepeatDue(info, now, delay, interval) ==> r == info
  {
    if RepeatDue(info, now, delay, interval) then InjectedKey(info.initialTick, now, true) else info
  }

  /** The repeat key-down the worker sends. */
  function RepeatEvent(vk: int): KeyInput
  {
    KeyInput(vk, false, true, false, true)
  }

  /** The repeat loop over the held keys in `order`. */
  function RepeatLoop(keys: map<int, InjectedKey>, order: seq<int>, now: U32, delay: U32, interval: U32)
    : (r: (map<int, InjectedKey>, seq<KeyInput>))
    requires forall k :: k in order ==> k in keys
    requires KeyOrder.StrictlyAscending(order)
    ensures r.0.Keys == keys.Keys
    ensures forall k :: k in keys && k in order ==> r.0[k] == RepeatKey(keys[k], now, delay, interval)
    ensures forall k :: k in keys && k !in order ==> r.0[k] == keys[k]
    ensures forall ev :: ev in r.1 <==>
      ev.vk in order && RepeatDue(keys[ev.vk], now, delay, interval) && ev == RepeatEvent(ev.vk)
    ensures |r.1| <= |order|
    ensures forall i, j :: 0 <= i < j < |r.1| ==> r.1[i].vk < r.1[j].vk
    decreases |order|
  {
    if order == [] then (keys, [])
    else
      var k := order[0];
      var rest := RepeatLoop(keys, order[1..], now, delay, interval);
      assert k !in order[1..];
      var due := RepeatDue(keys[k], now, delay, interval);
      var keys' := rest.0[k := RepeatKey(keys[k], now, delay, interval)];
      (keys', (if due then [RepeatEvent(k)] else []) + rest.1)
  }

  /** One pass of `KJ_InjectThreadProc` after a wake-up at `now`: send the
      whole queue in order, then the due repeats of the held keys. */
  function WorkerPass(s: Injector, now: U32): (r: (Injector, seq<KeyInput>))
    ensures r.0.queue == []
    ensures r.0.keys.Keys == s.keys.Keys
    ensures forall k :: k in s.keys ==>
      r.0.keys[k] == RepeatKey(s.keys[k], now, s.initialDelayMs, s.repeatIntervalMs)
    ensures |s.queue| <= |r.1| && r.1[..|s.queue|] == s.queue
    ensures forall ev :: ev in r.1[|s.queue|..] <==>
      ev.vk in s.keys && RepeatDue(s.keys[ev.vk], now, s.initialDelayMs, s.repeatIntervalMs)
      && ev == RepeatEvent(ev.vk)
    ensures forall i, j :: |s.queue| <= i < j < |r.1| ==> r.1[i] != r.1[j]
    ensures r.0.started == s.started && r.0.initialDelayMs == s.initialDelayMs
      && r.0.repeatIntervalMs == s.repeatIntervalMs
    ensures Valid(s) ==> Valid(r.0)
  {
    var order := KeyOrder.Ascending(s.keys.Keys);
    var loop := RepeatLoop(s.keys, order, now, s.initialDelayMs, s.repeatIntervalMs);
    assert (s.queue + loop.1)[|s.queue|..] == loop.1;
    (s.(keys := loop.0, queue := []), s.queue + loop.1)
  }

  /** A key pressed by `InjectKey` at `t0` first repeats on the first pass at
      least the initial delay later, measured in wrapping 32-bit time. */
  lemma FirstRepeatAfterDelay(s: Injector, vk: U32, t0: U32, cfg: Settings, now: U32)
    requires vk !in s.keys
    ensures var r := InjectKey(s, vk, true, t0, cfg);
      RepeatDue(r.keys[vk], now, r.initialDelayMs, r.repeatIntervalMs)
      <==> Elapsed(now, t0) >= r.initialDelayMs
  {
  }

  /** After a repeat the key repeats again exactly once the interval has elapsed. */
  lemma RepeatsEveryInterval(info: InjectedKey, t1: U32, now: U32, delay: U32, interval: U32)
    requires RepeatDue(info, t1, delay, interval)
    ensures RepeatDue(RepeatKey(info, t1, delay, interval), now, delay, interval)
      <==> Elapsed(now, t1) >= interval
  {
  }

  /** A fast-repeated key is due on a pass at the same tick, unless the tick
      count is still below the interval (the clock is then set to 0). */
  lemma FastRepeatDueAtOnce(s: Injector, vk: U32, now: U32, cfg: Settings)
    ensures var r := InjectKeyFastRepeat(s, vk, now, cfg);
      RepeatDue(r.keys[vk], now, r.initialDelayMs, r.repeatIntervalMs)
      <==> now >= r.repeatIntervalMs
  {
  }

  /** A press of a key already held is a no-op once the worker runs. */
  lemma RepeatedPressIsNoOp(s: Injector, vk: U32, now: U32, cfg: Settings)
    requires s.started && vk in s.keys
    ensures InjectKey(s, vk, true, now, cfg) == s
  {
  }

  // ---------------------------------------------------------------------------
  // Release and shutdown

  /** The two key-ups sent for each key: scan-code form, then virtual-key form. */
  function ReleaseEvents(order: seq<int>): (evs: seq<KeyInput>)
    ensures |evs| == 2 * |order|
    ensures order != [] ==> evs[..2] == [KeyInput(order[0], true, true, true, true),
                                        KeyInput(order[0], true, false, true, true)]
    ensures forall ev :: ev in evs ==> ev.tagged && ev.keyUp && ev.withVk && ev.vk in order
    ensures forall k :: k in order ==>
      KeyInput(k, true, true, true, true) in evs && KeyInput(k, true, false, true, true) in evs
  {
    if order == [] then []
    else
      [KeyInput(order[0], true, true, true, true), KeyInput(order[0], true, false, true, true)]
      + ReleaseEvents(order[1..])
  }

  /** `KJ_Keyboard_ReleaseAllKeys`: while the worker runs, send two tagged
      key-ups per held injected key directly and forget every key; the queue
      is left alone. */
  function ReleaseAllKeys(s: Injector): (r: (Injector, seq<KeyInput>))
    ensures !s.started ==> r == (s, [])
    ensures s.started ==> r.0 == s.(keys := map[])
    ensures |r.1| == (if s.started then 2 * |s.keys| else 0)
    ensures forall ev :: ev in r.1 ==> ev.tagged && ev.keyUp && ev.withVk && ev.vk in s.keys
    ensures s.started ==> forall k :: k in s.keys ==>
      KeyInput(k, true, true, true, true) in r.1 && KeyInput(k, true, false, true, true) in r.1
    ensures Valid(s) ==> Valid(r.0)
  {
    if !s.started then (s, [])
    else
      var order := KeyOrder.Ascending(s.keys.Keys);
      (s.(keys := map[]), ReleaseEvents(order))
  }

  /** `KJ_Keyboard_Shutdown`: release everything, then (if the worker ran)
      drop the queue and the held keys, and mark the worker stopped. */
  function Shutdown(s: Injector): (r: (Injector, seq<KeyInput>))
    ensures !r.0.started
    ensures r.1 == ReleaseAllKeys(s).1
    ensures s.started ==> r.0.keys == map[] && r.0.queue == []
    ensures Valid(s) ==> Valid(r.0) && r.0.keys == map[] && r.0.queue == []
  {
    var (t, evs) := ReleaseAllKeys(s);
    var u := if s.started then t.(keys := map[], queue := []) else t;
    (u.(started := false), evs)
  }

  /** Every event the injector queues or sends carries the tag, so the hook
      lets its own events through instead of feeding them back. */
  lemma NoFeedback(e: Controls.Engine, s: Injector, now: U32, ev: KeyInput, message: int, vkCode: U32)
    requires Valid(s)
    requires ev in WorkerPass(s, now).1 || ev in ReleaseAllKeys(s).1
    ensures KeyboardHook(e, 0, Some(KeyHookEvent(message, vkCode, false, ev.tagged))).0 == PassThrough
  {
    var r := WorkerPass(s, now).1;
    if ev in r {
      var i :| 0 <= i < |r| && r[i] == ev;
      if i < |s.queue| {
        assert r[..|s.queue|][i] == ev;
      } else {
        assert r[|s.queue|..][i - |s.queue|] == ev;
      }
    }
  }
}

=== FILE: kj_main.dfy ===
/** The input subsystem's entry points: releasing every held physical key,
    and the order of the install and uninstall steps, recorded as a trace. */
module InputMain {
  import opened Codes
  import Controls
  import Keyboard
  import Mouse
  import Joystick
  import XInputHook
  import KeyOrder

  /** An `INPUT` record sent by the subsystem. */
  datatype InputEvent = KeyEvent(key: Keyboard.KeyInput) | MouseEvent(mouse: Mouse.MouseInput)

  /** The events that release one held code: a keyboard code gets a
      virtual-key key-up then a scan-code key-up, a mouse-button code gets its
      button-up, and any other code (gamepad, mouse move, 0, 256 and above)
      gets nothing. */
  function PhysicalRelease(code: int): (evs: seq<InputEvent>)
    ensures 0 < code < 256 ==> evs == [KeyEvent(Keyboard.KeyInput(code, true, false, true, true)),
                                       KeyEvent(Keyboard.KeyInput(code, true, true, true, true))]
    ensures IsMouseButtonCode(code) ==> evs == [MouseEvent(Mouse.ButtonUp(code))]
    ensures !(0 < code < 256) && !IsMouseButtonCode(code) ==> evs == []
    ensures forall ev :: ev in evs ==> (ev.KeyEvent? ==> ev.key.vk == code && ev.key.tagged && ev.key.keyUp)
  {
    if 0 < code < 256 then
      [KeyEvent(Keyboard.KeyInput(code, true, false, true, true)),
       KeyEvent(Keyboard.KeyInput(code, true, true, true, true))]
    else if IsMouseButtonCode(code) then [MouseEvent(Mouse.ButtonUp(code))]
    else []
  }

  /** The code an event releases. */
  function ReleasedCode(ev: InputEvent): int
  {
    match ev
    case KeyEvent(k) => k.vk
    case MouseEvent(m) =>
      match m.action
      case LeftUp => MouseLeft
      case MiddleUp => MouseMiddle
      case RightUp => MouseRight
      case XUp(b) => if b == Mouse.XButton1 then MouseX1 else MouseX2
      case _ => 0
  }

  /** Every release event names the code it releases. */
  lemma ReleaseNamesItsCode(code: int, ev: InputEvent)
    requires ev in PhysicalRelease(code)
    ensures ReleasedCode(ev) == code
  {
  }

  /** The releases for the codes in order. */
  function ReleaseTrace(codes: seq<int>): (evs: seq<InputEvent>)
    ensures forall ev :: ev in evs <==> exists c :: c in codes && ev in PhysicalRelease(c)
  {
    if codes == [] then []
    else
      var rest := ReleaseTrace(codes[1..]);
      assert forall c :: c in codes <==> c == codes[0] || c in codes[1..];
      PhysicalRelease(codes[0]) + rest
  }

  /** For distinct codes, each release event of a held code is sent exactly once. */
  lemma {:induction false} ReleasedOnce(codes: seq<int>, c: int, ev: InputEvent)
    requires forall i, j :: 0 <= i < j < |codes| ==> codes[i] != codes[j]
    requires ev in PhysicalRelease(c)
    ensures multiset(ReleaseTrace(codes))[ev] == (if c in codes then 1 else 0)
    decreases |codes|
  {
    if codes != [] {
      forall i, j | 0 <= i < j < |codes[1..]| ensures codes[1..][i] != codes[1..][j] {
        assert codes[1..][i] == codes[i + 1] && codes[1..][j] == codes[j + 1];
      }
      ReleasedOnce(codes[1..], c, ev);
      forall i | 0 <= i < |codes[1..]| ensures codes[1..][i] != codes[0] {
        assert codes[1..][i] == codes[i + 1];
      }
      assert c in codes <==> c == codes[0] || c in codes[1..];
      var head := PhysicalRelease(codes[0]);
      assert ReleaseTrace(codes) == head + ReleaseTrace(codes[1..]);
      ReleaseNamesItsCode(c, ev);
      if ev in head {
        ReleaseNamesItsCode(codes[0], ev);
      }
      assert multiset(head)[ev] == (if c == codes[0] then 1 else 0);
    }
  }

  /** `KJ_Input_ReleaseAllPhysicalKeys`: release every code the control engine
      holds, in ascending code order. The engine itself is not changed. */
  function ReleaseAllPhysicalKeys(e: Controls.Engine): (evs: seq<InputEvent>)
    ensures forall c, ev :: c in Controls.HeldSet(e) && ev in PhysicalRelease(c) ==> multiset(evs)[ev] == 1
    ensures forall ev :: ev in evs <==> exists c :: c in Controls.HeldSet(e) && ev in PhysicalRelease(c)
  {
    var held := Controls.GetCurrentlyHeldKeys(e);
    forall c, ev | c in Controls.HeldSet(e) && ev in PhysicalRelease(c)
      ensures multiset(ReleaseTrace(held))[ev] == 1
    {
      ReleasedOnce(held, c, ev);
    }
    ReleaseTrace(held)
  }

  /** A held gamepad code sends nothing on release. */
  lemma GamepadCodesSendNothing(e: Controls.Engine, c: int)
    requires IsGamepadCode(c)
    ensures forall ev :: ev in ReleaseAllPhysicalKeys(e) ==> ReleasedCode(ev) != c
  {
    forall ev | ev in ReleaseAllPhysicalKeys(e) ensures ReleasedCode(ev) != c {
      var d :| d in Controls.HeldSet(e) && ev in PhysicalRelease(d);
      ReleaseNamesItsCode(d, ev);
    }
  }

  // ---------------------------------------------------------------------------
  // Install and uninstall

  /** The state the entry points touch. */
  datatype World = World(
    engine: Controls.Engine,
    injector: Keyboard.Injector,
    joystick: Joystick.JoySystem,
    xinput: XInputHook.Originals,
    keyboardHook: bool,
    mouseHook: bool)

  /** One entry of the install/uninstall trace: an event sent, or a step. */
  datatype Action =
    | Sent(ev: InputEvent)
    | ResetJoystick
    | HookKeyboard | HookMouse | InstallJoystick | PatchXInput | PatchGetProcAddress
    | UnhookKeyboard | UnhookMouse
    | ShutdownKeyboard | ShutdownJoystick | ShutdownXInput

  predicate IsInstallStep(a: Action)
  {
    a.HookKeyboard? || a.HookMouse? || a.InstallJoystick? || a.PatchXInput? || a.PatchGetProcAddress?
  }

  predicate IsUnhookStep(a: Action)
  {
    a.UnhookKeyboard? || a.UnhookMouse?
  }

  predicate IsShutdownStep(a: Action)
  {
    a.ShutdownKeyboard? || a.ShutdownJoystick? || a.ShutdownXInput?
  }

  predicate IsClearingStep(a: Action)
  {
    a.Sent? || a.ResetJoystick?
  }

  function SentAll(evs: seq<InputEvent>): (r: seq<Action>)
    ensures |r| == |evs|
    ensures forall i :: 0 <= i < |r| ==> r[i] == Sent(evs[i])
  {
    if evs == [] then [] else [Sent(evs[0])] + SentAll(evs[1..])
  }

  function KeyEvents(ks: seq<Keyboard.KeyInput>): (r: seq<InputEvent>)
    ensures |r| == |ks|
    ensures forall i :: 0 <= i < |r| ==> r[i] == KeyEvent(ks[i])
  {
    if ks == [] then [] else [KeyEvent(ks[0])] + KeyEvents(ks[1..])
  }

  function MouseEvents(ms: seq<Mouse.MouseInput>): (r: seq<InputEvent>)
    ensures |r| == |ms|
    ensures forall i :: 0 <= i < |r| ==> r[i] == MouseEvent(ms[i])
  {
    if ms == [] then [] else [MouseEvent(ms[0])] + MouseEvents(ms[1..])
  }

  /** The events of the clearing steps both entry points run: physical keys,
      then injected keys, then mouse buttons. */
  function ClearEvents(w: World): seq<InputEvent>
  {
    ReleaseAllPhysicalKeys(w.engine)
    + KeyEvents(Keyboard.ReleaseAllKeys(w.injector).1)
    + MouseEvents(Mouse.ReleaseAllButtons(w.engine))
  }

  /** The state after the clearing steps, the virtual joystick reset last. */
  function Cleared(w: World): World
  {
    w.(injector := Keyboard.ReleaseAllKeys(w.injector).0,
       joystick := Joystick.ResetVirtualJoystick(w.joystick))
  }

  const InstallSteps: seq<Action> := [HookKeyboard, HookMouse, InstallJoystick, PatchXInput, PatchGetProcAddress]
  const ShutdownSteps: seq<Action> := [ShutdownKeyboard, ShutdownJoystick, ShutdownXInput]

  function InstallTrace(sent: seq<InputEvent>): seq<Action>
  {
    SentAll(sent) + [ResetJoystick] + InstallSteps
  }

  function UninstallTrace(sent: seq<InputEvent>): seq<Action>
  {
    [UnhookKeyboard, UnhookMouse] + SentAll(sent) + [ResetJoystick] + ShutdownSteps
  }

  /** `KJ_Input_Install`. `keyboardOk`/`mouseOk` say whether the OS accepts a
      new hook; `found` is what the joystick lookup finds. */
  function Install(w: World, keyboardOk: bool, mouseOk: bool, found: Joystick.Exports): (r: (World, seq<Action>))
    ensures r.0.keyboardHook == (w.keyboardHook || keyboardOk)
    ensures r.0.mouseHook == (w.mouseHook || mouseOk)
    ensures r.0.engine == w.engine
    ensures w.injector.started ==> r.0.injector.keys == map[]
    ensures r.0.joystick.initialized
    ensures !w.joystick.initialized ==> r.0.joystick.joy == Joystick.NeutralJoy
  {
    var c := Cleared(w);
    (c.(keyboardHook := c.keyboardHook || keyboardOk,
        mouseHook := c.mouseHook || mouseOk,
        joystick := Joystick.Install(c.joystick, found)), InstallTrace(ClearEvents(w)))
  }

  /** Install releases everything and resets the joystick before any hook or
      patch goes in. */
  lemma InstallClearsFirst(w: World, keyboardOk: bool, mouseOk: bool, found: Joystick.Exports)
    ensures var t := Install(w, keyboardOk, mouseOk, found).1;
      forall i, j :: 0 <= i < |t| && 0 <= j < |t| && IsClearingStep(t[i]) && IsInstallStep(t[j]) ==> i < j
  {
    InstallTraceClearsFirst(ClearEvents(w));
  }

  lemma InstallTraceClearsFirst(evs: seq<InputEvent>)
    ensures var t := InstallTrace(evs);
      forall i, j :: 0 <= i < |t| && 0 <= j < |t| && IsClearingStep(t[i]) && IsInstallStep(t[j]) ==> i < j
  {
    var sent := SentAll(evs);
    var t := InstallTrace(evs);
    assert t == sent + [ResetJoystick] + InstallSteps;
    forall i | |sent| + 1 <= i < |t| ensures !IsClearingStep(t[i]) {
      assert t[i] == InstallSteps[i - |sent| - 1];
    }
    forall j | 0 <= j < |sent| + 1 ensures !IsInstallStep(t[j]) {
      if j < |sent| { assert t[j] == sent[j]; }
    }
    ClearingThenInstall(t, |sent| + 1);
  }

  /** A trace with no install step before `k` and no clearing from `k` on
      clears before it installs. */
  lemma ClearingThenInstall(t: seq<Action>, k: nat)
    requires k <= |t|
    requires forall i :: 0 <= i < k ==> !IsInstallStep(t[i])
    requires forall i :: k <= i < |t| ==> !IsClearingStep(t[i])
    ensures forall i, j :: (0 <= i < |t| && 0 <= j < |t| && IsClearingStep(t[i]) && IsInstallStep(t[j])) ==> i < j
  {
  }

  /** `KJ_Input_Uninstall`. */
  function Uninstall(w: World): (r: (World, seq<Action>))
    ensures !r.0.keyboardHook && !r.0.mouseHook
    ensures r.0.engine == w.engine
    ensures !r.0.injector.started
    ensures (w.injector.started || Keyboard.Valid(w.injector)) ==>
      r.0.injector.queue == [] && r.0.injector.keys == map[]
    ensures !r.0.joystick.initialized
    ensures !r.0.xinput.looked && !r.0.xinput.getState
  {
    var unhooked := w.(keyboardHook := false, mouseHook := false);
    var c := Cleared(unhooked);
    assert Keyboard.ReleaseAllKeys(c.injector).1 == [];
    var stopped := c.(injector := Keyboard.Shutdown(c.injector).0,
                      joystick := Joystick.Shutdown(c.joystick),
                      xinput := XInputHook.Shutdown(c.xinput));
    (stopped, UninstallTrace(ClearEvents(unhooked)))
  }

  /** Uninstall removes both hooks before clearing anything. */
  lemma UninstallUnhooksFirst(w: World)
    ensures var t := Uninstall(w).1;
      |t| >= 6 && t[0] == UnhookKeyboard && t[1] == UnhookMouse
      && forall i, j :: (0 <= i < |t| && 0 <= j < |t| && IsUnhookStep(t[i]) && IsClearingStep(t[j])) ==> i < j
  {
    UninstallTraceUnhooksFirst(ClearEvents(w.(keyboardHook := false, mouseHook := false)));
  }

  lemma UninstallTraceUnhooksFirst(evs: seq<InputEvent>)
    ensures var t := UninstallTrace(evs);
      |t| >= 6 && t[0] == UnhookKeyboard && t[1] == UnhookMouse
      && forall i, j :: (0 <= i < |t| && 0 <= j < |t| && IsUnhookStep(t[i]) && IsClearingStep(t[j])) ==> i < j
  {
    var sent := SentAll(evs);
    var t := UninstallTrace(evs);
    assert t == [UnhookKeyboard, UnhookMouse] + sent + [ResetJoystick] + ShutdownSteps;
    forall i | 2 <= i < |t| ensures !IsUnhookStep(t[i]) {
      if i < 2 + |sent| {
        assert t[i] == sent[i - 2];
      } else if i > 2 + |sent| {
        assert t[i] == ShutdownSteps[i - |sent| - 3];
      }
    }
  }

  /** Uninstall clears everything before shutting a subsystem down. */
  lemma UninstallClearsBeforeShutdown(w: World)
    ensures var t := Uninstall(w).1;
      forall i, j :: (0 <= i < |t| && 0 <= j < |t| && IsClearingStep(t[i]) && IsShutdownStep(t[j])) ==> i < j
  {
    UninstallTraceClearsBeforeShutdown(ClearEvents(w.(keyboardHook := false, mouseHook := false)));
  }

  lemma UninstallTraceClearsBeforeShutdown(evs: seq<InputEvent>)
    ensures var t := UninstallTrace(evs);
      forall i, j :: (0 <= i < |t| && 0 <= j < |t| && IsClearingStep(t[i]) && IsShutdownStep(t[j])) ==> i < j
  {
    var sent := SentAll(evs);
    var t := UninstallTrace(evs);
    assert t == [UnhookKeyboard, UnhookMouse] + sent + [ResetJoystick] + ShutdownSteps;
    forall i | 3 + |sent| <= i < |t| ensures !IsClearingStep(t[i]) {
      assert t[i] == ShutdownSteps[i - |sent| - 3];
    }
    forall j | 0 <= j < 3 + |sent| ensures !IsShutdownStep(t[j]) {
      if 2 <= j < 2 + |sent| { assert t[j] == sent[j - 2]; }
    }
    ClearingThenShutdown(t, 3 + |sent|);
  }

  /** A trace with no shutdown before `k` and no clearing from `k` on clears
      before it shuts down. */
  lemma ClearingThenShutdown(t: seq<Action>, k: nat)
    requires k <= |t|
    requires forall i :: 0 <= i < k ==> !IsShutdownStep(t[i])
    requires forall i :: k <= i < |t| ==> !IsClearingStep(t[i])
    ensures forall i, j :: (0 <= i < |t| && 0 <= j < |t| && IsClearingStep(t[i]) && IsShutdownStep(t[j])) ==> i < j
  {
  }

  /** Installing twice installs no extra hook and leaves the hooks in place. */
  lemma InstallKeepsHooks(w: World, k1: bool, m1: bool, k2: bool, m2: bool, found: Joystick.Exports)
    ensures var w1 := Install(w, k1, m1, found).0;
      var w2 := Install(w1, k2, m2, found).0;
      (w1.keyboardHook ==> w2.keyboardHook) && (w1.mouseHook ==> w2.mouseHook)
  {
  }
}

=== FILE: mouse.dfy ===
/** The low-level mouse hook and the mouse events the injector sends. */
module Mouse {
  import opened Words
  import opened Optional
  import opened Codes
  import Controls

  const WmLButtonDown: int := 0x0201
  const WmLButtonUp: int := 0x0202
  const WmRButtonDown: int := 0x0204
  const WmRButtonUp: int := 0x0205
  const WmMButtonDown: int := 0x0207
  const WmMButtonUp: int := 0x0208
  const WmXButtonDown: int := 0x020B
  const WmXButtonUp: int := 0x020C
  const XButton1: U16 := 1
  const XButton2: U16 := 2

  /** What a low-level mouse hook sees: the message, the high word of
      `mouseData`, the injected flag and whether `dwExtraInfo` is the tag. */
  datatype MouseHookEvent = MouseHookEvent(message: int, whichButton: U16, injected: bool, tagged: bool)

  /** The code and direction of a button message; other messages (moves,
      wheels) are not buttons. Any X button other than the first reads as
      the second. */
  function ButtonMessage(message: int, whichButton: U16): (r: Option<(int, bool)>)
    ensures r.Some? ==> IsMouseButtonCode(r.value.0)
    ensures r.Some? <==> message in {WmLButtonDown, WmLButtonUp, WmRButtonDown, WmRButtonUp,
                                      WmMButtonDown, WmMButtonUp, WmXButtonDown, WmXButtonUp}
    ensures r.Some? ==> (r.value.1 <==> message in {WmLButtonDown, WmRButtonDown, WmMButtonDown, WmXButtonDown})
    ensures message in {WmXButtonDown, WmXButtonUp} ==>
      r.value.0 == (if whichButton == XButton1 then MouseX1 else MouseX2)
  {
    if message == WmLButtonDown then Some((MouseLeft, true))
    else if message == WmLButtonUp then Some((MouseLeft, false))
    else if message == WmMButtonDown then Some((MouseMiddle, true))
    else if message == WmMButtonUp then Some((MouseMiddle, false))
    else if message == WmRButtonDown then Some((MouseRight, true))
    else if message == WmRButtonUp then Some((MouseRight, false))
    else if message == WmXButtonDown || message == WmXButtonUp then
      Some(((if whichButton == XButton1 then MouseX1 else MouseX2), message == WmXButtonDown))
    else None
  }

  datatype HookDecision = PassThrough | Swallow

  /** `LowLevelMouseProc`: swallow a button message of a mapped button after
      imposing its state as an override; pass everything else through. */
  function MouseHook(e: Controls.Engine, nCode: I32, data: Option<MouseHookEvent>): (r: (HookDecision, Controls.Engine))
    ensures r.0 == Swallow <==> (nCode >= 0 && data.Some? && !data.value.injected && !data.value.tagged
      && ButtonMessage(data.value.message, data.value.whichButton).Some?
      && Controls.IsMapped(e, ButtonMessage(data.value.message, data.value.whichButton).value.0))
    ensures r.0 == PassThrough ==> r.1 == e
    ensures r.0 == Swallow ==>
      var b := ButtonMessage(data.value.message, data.value.whichButton).value;
      r.1 == Controls.NotifyPhysicalKey(e, b.0, b.1)
  {
    if nCode < 0 || data.None? then (PassThrough, e)
    else
      var ms := data.value;
      if ms.injected || ms.tagged then (PassThrough, e)
      else match ButtonMessage(ms.message, ms.whichButton) {
        case None => (PassThrough, e)
        case Some(b) =>
          if b.0 != 0 && Controls.IsMapped(e, b.0) then (Swallow, Controls.NotifyPhysicalKey(e, b.0, b.1))
          else (PassThrough, e)
      }
  }

  /** Moves never reach the control engine through the hook, even when
      `mouse_move` is mapped. */
  lemma MoveMessagePassesThrough(e: Controls.Engine, ms: MouseHookEvent)
    requires ms.message == 0x0200
    ensures MouseHook(e, 0, Some(ms)) == (PassThrough, e)
  {
  }

  // ---------------------------------------------------------------------------
  // Sent events

  /** The `MOUSEINPUT` flags this file uses. */
  datatype MouseAction =
    | LeftDown | LeftUp | RightDown | RightUp | MiddleDown | MiddleUp
    | XUp(button: U16)
    | Move(absolute: bool)

  /** A tagged mouse `INPUT`; `dx`/`dy` matter for moves only. */
  datatype MouseInput = MouseInput(action: MouseAction, dx: int, dy: int, tagged: bool)

  /** The button-up that releases a mouse-button code. */
  function ButtonUp(code: int): (ev: MouseInput)
    requires IsMouseButtonCode(code)
    ensures ev.tagged && ev.dx == 0 && ev.dy == 0
  {
    var action :=
      if code == MouseLeft then LeftUp
      else if code == MouseMiddle then MiddleUp
      else if code == MouseRight then RightUp
      else if code == MouseX1 then XUp(XButton1)
      else XUp(XButton2);
    MouseInput(action, 0, 0, true)
  }

  /** Distinct buttons are released by distinct events. */
  lemma ButtonUpInjective(a: int, b: int)
    requires IsMouseButtonCode(a) && IsMouseButtonCode(b)
    ensures ButtonUp(a) == ButtonUp(b) <==> a == b
  {
  }

  /** The button-ups for the mouse-button codes among `codes`, in order. */
  function ButtonReleases(codes: seq<int>): (evs: seq<MouseInput>)
    ensures |evs| <= |codes|
    ensures forall ev :: ev in evs <==> exists c :: c in codes && IsMouseButtonCode(c) && ev == ButtonUp(c)
  {
    if codes == [] then []
    else
      var rest := ButtonReleases(codes[1..]);
      assert forall c :: c in codes <==> c == codes[0] || c in codes[1..];
      if IsMouseButtonCode(codes[0]) then [ButtonUp(codes[0])] + rest else rest
  }

  /** Each held button code is released exactly once when the codes are distinct. */
  lemma {:induction false} ButtonReleasedOnce(codes: seq<int>, c: int)
    requires forall i, j :: 0 <= i < j < |codes| ==> codes[i] != codes[j]
    requires IsMouseButtonCode(c)
    ensures multiset(ButtonReleases(codes))[ButtonUp(c)] == (if c in codes then 1 else 0)
    decreases |codes|
  {
    if codes != [] {
      assert forall i, j :: 0 <= i < j < |codes[1..]| ==> codes[1..][i] != codes[1..][j] by {
        forall i, j | 0 <= i < j < |codes[1..]| ensures codes[1..][i] != codes[1..][j] {
          assert codes[1..][i] == codes[i + 1] && codes[1..][j] == codes[j + 1];
        }
      }
      ButtonReleasedOnce(codes[1..], c);
      assert codes[0] !in codes[1..] by {
        forall i | 0 <= i < |codes[1..]| ensures codes[1..][i] != codes[0] {
          assert codes[1..][i] == codes[i + 1];
        }
      }
      assert c in codes <==> c == codes[0] || c in codes[1..];
      var rest := ButtonReleases(codes[1..]);
      if IsMouseButtonCode(codes[0]) {
        assert ButtonReleases(codes) == [ButtonUp(codes[0])] + rest;
        ButtonUpInjective(codes[0], c);
      }
    }
  }

  /** `KJ_Mouse_ReleaseAllButtons`: one tagged button-up per held mouse-button
      code; other held codes are ignored. */
  function ReleaseAllButtons(e: Controls.Engine): (evs: seq<MouseInput>)
    ensures forall c :: IsMouseButtonCode(c) ==>
      multiset(evs)[ButtonUp(c)] == (if c in Controls.HeldSet(e) then 1 else 0)
    ensures forall ev :: ev in evs ==> ev.tagged && exists c :: c in Controls.HeldSet(e) && IsMouseButtonCode(c) && ev == ButtonUp(c)
  {
    var held := Controls.GetCurrentlyHeldKeys(e);
    forall c | IsMouseButtonCode(c)
      ensures multiset(ButtonReleases(held))[ButtonUp(c)] == (if c in Controls.HeldSet(e) then 1 else 0)
    {
      ButtonReleasedOnce(held, c);
    }
    ButtonReleases(held)
  }

  /** `KJ_Input_InjectMouseButton`: 0 is the left button, 1 the right, 2 the
      middle; any other index sends nothing. */
  function InjectMouseButton(button: I32, down: bool): (evs: seq<MouseInput>)
    ensures |evs| == (if 0 <= button <= 2 then 1 else 0)
    ensures forall ev :: ev in evs ==> ev.tagged && ev.dx == 0 && ev.dy == 0
    ensures button == 0 ==> evs[0].action == (if down then LeftDown else LeftUp)
    ensures button == 1 ==> evs[0].action == (if down then RightDown else RightUp)
    ensures button == 2 ==> evs[0].action == (if down then MiddleDown else MiddleUp)
  {
    if button == 0 then [MouseInput(if down then LeftDown else LeftUp, 0, 0, true)]
    else if button == 1 then [MouseInput(if down then RightDown else RightUp, 0, 0, true)]
    else if button == 2 then [MouseInput(if down then MiddleDown else MiddleUp, 0, 0, true)]
    else []
  }

  /** One coordinate of an absolute move: `x * 65535 / size` in 32-bit C
      arithmetic, or 0 for a non-positive screen size. */
  function AbsoluteCoordinate(x: I32, size: I32): (d: I32)
    ensures size <= 0 ==> d == 0
  {
    if size <= 0 then 0
    else
      var product := WrapI32(x * 65535);
      QuotientFits(product, size);
      TruncDiv(product, size)
  }

  lemma QuotientFits(a: I32, b: I32)
    requires b > 0
    ensures -Two31 <= TruncDiv(a, b) < Two31
  {
    var n: nat := if a >= 0 then a else -(a as int);
    QuotientBelowDividend(n, b);
    if a >= 0 {
      assert TruncDiv(a, b) == n / b;
    } else {
      assert TruncDiv(a, b) == -(n / b);
    }
  }

  lemma QuotientBelowDividend(n: nat, b: int)
    requires b > 0
    ensures n / b <= n
  {
    assert n <= b * n by { assert (b - 1) * n >= 0; }
    QuotientAtMost(n, b, n);
  }

  /** On a screen at most 32768 pixels wide the product does not wrap, and
      an on-screen coordinate lands in the 0..65535 range. */
  lemma AbsoluteOnScreen(x: I32, size: I32)
    requires 0 <= x <= size <= 32768 && size > 0
    ensures AbsoluteCoordinate(x, size) == x * 65535 / size
    ensures 0 <= AbsoluteCoordinate(x, size) <= 65535
  {
    ProductBound(x, size);
    ScaledQuotient(x * 65535, size);
  }

  /** A product that fits and is at most `65535 * size` is divided without
      wrapping into 0..65535. */
  lemma ScaledQuotient(p: int, size: I32)
    requires size > 0 && 0 <= p <= size * 65535 && p < Two31
    ensures TruncDiv(WrapI32(p), size) == p / size
    ensures 0 <= p / size <= 65535
  {
    QuotientAtMost(p, size, 65535);
  }

  lemma ProductBound(x: int, size: int)
    requires 0 <= x <= size <= 32768
    ensures 0 <= x * 65535 <= size * 65535 <= 32768 * 65535 < Two31
  {
  }

  /** `KJ_Input_InjectMouseMove`: an absolute move is scaled to the 0..65535
      desktop range by the screen size; a relative move is sent unchanged. */
  function InjectMouseMove(x: I32, y: I32, absolute: bool, screenW: I32, screenH: I32): (ev: MouseInput)
    ensures ev.tagged && ev.action == Move(absolute)
    ensures !absolute ==> ev.dx == x && ev.dy == y
    ensures absolute ==> ev.dx == AbsoluteCoordinate(x, screenW) && ev.dy == AbsoluteCoordinate(y, screenH)
  {
    if absolute then MouseInput(Move(true), AbsoluteCoordinate(x, screenW), AbsoluteCoordinate(y, screenH), true)
    else MouseInput(Move(false), x, y, true)
  }

  /** `KJ_Input_InjectMouseSignal`: six pairs of relative moves, right by 2
      then left by 2. */
  function MouseSignal(): (evs: seq<MouseInput>)
    ensures |evs| == 12
    ensures forall i :: 0 <= i < 12 ==>
      evs[i] == MouseInput(Move(false), (if i % 2 == 0 then 2 else -2), 0, true)
  {
    SignalPairs(6)
  }

  function SignalPairs(n: nat): (evs: seq<MouseInput>)
    ensures |evs| == 2 * n
    ensures forall i :: 0 <= i < 2 * n ==>
      evs[i] == MouseInput(Move(false), (if i % 2 == 0 then 2 else -2), 0, true)
  {
    if n == 0 then []
    else
      var rest := SignalPairs(n - 1);
      var evs := [MouseInput(Move(false), 2, 0, true), MouseInput(Move(false), -2, 0, true)] + rest;
      assert forall i :: 2 <= i < 2 * n ==> evs[i] == rest[i - 2] && i % 2 == (i - 2) % 2;
      evs
  }

  /** Total horizontal displacement of a run of relative moves. */
  function NetDx(evs: seq<MouseInput>): int
  {
    if evs == [] then 0 else evs[0].dx + NetDx(evs[1..])
  }

  /** The signal leaves the cursor where it was. */
  lemma {:induction false} SignalNetZero()
    ensures NetDx(MouseSignal()) == 0
  {
    PairsNetZero(6);
  }

  lemma {:induction false} PairsNetZero(n: nat)
    ensures NetDx(SignalPairs(n)) == 0
  {
    if n > 0 {
      var evs := SignalPairs(n);
      PairsNetZero(n - 1);
      assert evs[2..] == SignalPairs(n - 1);
      assert evs[1..][1..] == evs[2..];
    }
  }
}

=== FILE: ordering.dfy ===
/** A deterministic enumeration of a finite set of integer codes.

    The original keeps its tables in `std::unordered_map`, whose iteration order
    is unspecified. The model enumerates keys in ascending order, which is one of
    the orders the original may produce. Where a contract lists codes, or the
    events of several codes, in sequence, that cross-code order is the model's
    choice; only which codes and events appear, and how often, is what the
    original promises.
 */
module KeyOrder {

  ghost predicate StrictlyAscending(s: seq<int>)
  {
    forall i, j :: 0 <= i < j < |s| ==> s[i] < s[j]
  }

  /** A non-empty set has a member. */
  lemma HasMember(s: set<int>)
    requires s != {}
    ensures exists y :: y in s
  {
    if forall y :: y !in s {
      assert false;
    }
  }

  predicate IsLeast(m: int, s: set<int>)
  {
    m in s && forall x :: x in s ==> m <= x
  }

  lemma {:induction false} HasMinimum(s: set<int>)
    requires s != {}
    ensures exists m :: IsLeast(m, s)
    decreases |s|
  {
    HasMember(s);
    var y :| y in s;
    var rest := s - {y};
    if rest == {} {
      forall x | x in s ensures y <= x {
        assert x == y || x in rest;
      }
      assert IsLeast(y, s);
    } else {
      HasMinimum(rest);
      var k :| IsLeast(k, rest);
      var m := if y < k then y else k;
      forall x | x in s ensures m <= x {
        assert x == y || x in rest;
      }
      assert IsLeast(m, s);
    }
  }

  /** The least element of a non-empty set. */
  function Least(s: set<int>): (m: int)
    requires s != {}
    ensures m in s
    ensures forall x :: x in s ==> m <= x
  {
    HasMinimum(s);
    var m :| IsLeast(m, s);
    m
  }

  /** The elements of `s`, each exactly once, in ascending order. */
  function Ascending(s: set<int>): (r: seq<int>)
    ensures |r| == |s|
    ensures forall x :: x in r <==> x in s
    ensures StrictlyAscending(r)
    decreases |s|
  {
    if s == {} then []
    else
      var m := Least(s);
      [m] + Ascending(s - {m})
  }

  /** Elements of a strictly ascending sequence occur at exactly one index. */
  lemma AscendingUnique(s: seq<int>, i: int, j: int)
    requires StrictlyAscending(s)
    requires 0 <= i < |s| && 0 <= j < |s| && s[i] == s[j]
    ensures i == j
  {
  }
}

=== FILE: peek.dfy ===
/** Reading NUL-terminated strings out of another process's memory.

    The target process is two inputs: `mem`, the character found at each
    character offset from the string's address, and `answers`, what each
    successive `ReadProcessMemory` call reports (success and the number of
    bytes delivered). A call with no answer left fails.

    A Dafny `char` is a Unicode scalar value, so wide memory holding an
    unpaired UTF-16 surrogate unit cannot be represented; the wide reader is
    modelled only for memory without lone surrogates.
 */
module Peek {
  import opened Words
  import opened Optional

  /** The terminator. */
  const Nul: char := 0 as char

  /** The most characters requested by one read. */
  const Chunk: nat := 256

  /** The bytes of one character of `std::string` and of `std::wstring`. */
  const AnsiUnit: nat := 1
  const WideUnit: nat := 2

  datatype ReadAnswer = ReadAnswer(ok: bool, bytes: nat)

  /** Characters one read delivers: the reported bytes (never more than were
      requested) in whole characters. */
  function UnitsRead(a: ReadAnswer, toRead: nat, unit: nat): (n: nat)
    requires unit >= 1
    ensures n <= toRead
    ensures a.bytes < unit ==> n == 0
  {
    var bytes := Min(a.bytes, toRead * unit);
    assert bytes / unit <= toRead by { QuotientAtMost(bytes, unit, toRead); }
    bytes / unit
  }

  /** How many characters the sequence of reads delivers, ignoring NULs: reads
      go on while each is complete, stopping at `maxLen`, at a failed or empty
      read, or after a short one. */
  function Readable(answers: seq<ReadAnswer>, maxLen: nat, unit: nat, k: nat, total: nat): (n: nat)
    requires unit >= 1 && total <= maxLen
    ensures total <= n <= maxLen
    decreases maxLen - total
  {
    if total >= maxLen || k >= |answers| || !answers[k].ok || answers[k].bytes == 0 then total
    else
      var toRead := Min(Chunk, maxLen - total);
      var units := UnitsRead(answers[k], toRead, unit);
      if units < toRead then total + units
      else Readable(answers, maxLen, unit, k + 1, total + units)
  }

  /** The first NUL at an offset in `[lo, hi)`, if any. */
  function FirstNul(mem: nat -> char, lo: nat, hi: nat): (r: Option<nat>)
    requires lo <= hi
    ensures r.Some? ==> lo <= r.value < hi && mem(r.value) == Nul
    ensures r.Some? ==> forall j :: lo <= j < r.value ==> mem(j) != Nul
    ensures r.None? ==> forall j :: lo <= j < hi ==> mem(j) != Nul
    decreases hi - lo
  {
    if lo == hi then None
    else if mem(lo) == Nul then Some(lo)
    else FirstNul(mem, lo + 1, hi)
  }

  /** The characters at offsets `[0, n)`. */
  function Prefix(mem: nat -> char, n: nat): (s: string)
    ensures |s| == n && forall i :: 0 <= i < n ==> s[i] == mem(i)
  {
    seq(n, i requires 0 <= i < n => mem(i))
  }

  /** What the read returns, stated without the loop: the text before the
      first NUL among the characters the reads deliver, or all of them when
      there is no NUL; failure only when nothing can be read. */
  function Expected(hasProcess: bool, mem: nat -> char, maxLen: nat, answers: seq<ReadAnswer>, unit: nat)
    : (r: (bool, string))
    requires unit >= 1
    ensures |r.1| <= maxLen
    ensures forall i :: 0 <= i < |r.1| ==> r.1[i] == mem(i) && r.1[i] != Nul
    ensures !r.0 ==> r.1 == []
    ensures !hasProcess || maxLen == 0 ==> !r.0
  {
    if !hasProcess || maxLen == 0 then (false, [])
    else
      var n := Readable(answers, maxLen, unit, 0, 0);
      var nul := FirstNul(mem, 0, n);
      if nul.Some? then (true, Prefix(mem, nul.value))
      else if n > 0 then (true, Prefix(mem, n))
      else (false, [])
  }

  /** The shared loop of `ReadAnsiString` and `ReadWideString`, with `unit`
      bytes per character. */
  method ReadString(hasProcess: bool, mem: nat -> char, maxLen: nat, answers: seq<ReadAnswer>, unit: nat)
    returns (ok: bool, out: string)
    requires unit >= 1
    ensures (ok, out) == Expected(hasProcess, mem, maxLen, answers, unit)
  {
    if !hasProcess || maxLen == 0 {
      return false, [];
    }
    ghost var n := Readable(answers, maxLen, unit, 0, 0);
    var total := 0;
    var k := 0;
    while total < maxLen
      invariant total <= maxLen
      invariant Readable(answers, maxLen, unit, k, total) == n
      invariant forall j :: 0 <= j < total ==> mem(j) != Nul
      decreases maxLen - total
    {
      if k >= |answers| || !answers[k].ok || answers[k].bytes == 0 {
        break;
      }
      var toRead := Min(Chunk, maxLen - total);
      var units := UnitsRead(answers[k], toRead, unit);
      assert total + units <= n;
      var i := 0;
      while i < units
        invariant i <= units
        invariant forall j :: 0 <= j < total + i ==> mem(j) != Nul
      {
        if mem(total + i) == Nul {
          FirstNulIs(mem, n, total + i);
          return true, Prefix(mem, total + i);
        }
        i := i + 1;
      }
      total := total + units;
      k := k + 1;
      if units < toRead {
        assert total == n;
        break;
      }
    }
    assert total == n;
    assert FirstNul(mem, 0, n).None?;
    if total > 0 {
      return true, Prefix(mem, total);
    }
    return false, [];
  }

  lemma FirstNulIs(mem: nat -> char, n: nat, p: nat)
    requires p < n && mem(p) == Nul && forall j :: 0 <= j < p ==> mem(j) != Nul
    ensures FirstNul(mem, 0, n) == Some(p)
  {
  }

  /** `ReadAnsiString`: one byte per character. */
  method ReadAnsiString(hasProcess: bool, mem: nat -> char, maxLen: nat, answers: seq<ReadAnswer>)
    returns (ok: bool, out: string)
    ensures (ok, out) == Expected(hasProcess, mem, maxLen, answers, AnsiUnit)
    ensures |out| <= maxLen && (!ok ==> out == [])
  {
    ok, out := ReadString(hasProcess, mem, maxLen, answers, AnsiUnit);
  }

  /** `ReadWideString`: two bytes per character, a trailing odd byte dropped. */
  method ReadWideString(hasProcess: bool, mem: nat -> char, maxChars: nat, answers: seq<ReadAnswer>)
    returns (ok: bool, out: string)
    ensures (ok, out) == Expected(hasProcess, mem, maxChars, answers, WideUnit)
    ensures |out| <= maxChars && (!ok ==> out == [])
  {
    ok, out := ReadString(hasProcess, mem, maxChars, answers, WideUnit);
  }

  /** Reads that all deliver the whole chunk make all `maxLen` characters
      readable, so the result depends on the memory alone. */
  lemma FullReadsFindTerminator(maxLen: nat, answers: seq<ReadAnswer>, unit: nat)
    requires unit >= 1 && maxLen <= Chunk * |answers|
    requires forall k :: 0 <= k < |answers| ==> FullAnswer(answers[k], unit)
    ensures Readable(answers, maxLen, unit, 0, 0) == maxLen
  {
    FullReadsFrom(answers, maxLen, unit, 0, 0);
  }

  /** A successful read reporting at least a whole chunk of bytes. */
  predicate FullAnswer(a: ReadAnswer, unit: nat)
  {
    a.ok && a.bytes >= Chunk * unit
  }

  lemma UnitsReadFull(a: ReadAnswer, toRead: nat, unit: nat)
    requires unit >= 1 && toRead <= Chunk && FullAnswer(a, unit)
    ensures UnitsRead(a, toRead, unit) == toRead
  {
    ProductMonotone(toRead, Chunk, unit);
    CancelFactor(toRead, unit);
  }

  lemma ProductMonotone(a: nat, b: nat, u: nat)
    requires a <= b
    ensures a * u <= b * u
  {
    assert b * u == a * u + (b - a) * u;
  }

  lemma CancelFactor(x: nat, u: nat)
    requires u >= 1
    ensures (x * u) / u == x
  {
    var q := (x * u) / u;
    var r := (x * u) % u;
    assert (x - q) * u == r;
    assert (q - x) * u == -r;
    LessByFactor(x - q, 1, u);
    LessByFactor(q - x, 1, u);
  }

  lemma {:induction false} FullReadsFrom(answers: seq<ReadAnswer>, maxLen: nat, unit: nat, k: nat, total: nat)
    requires unit >= 1 && total <= maxLen && k <= |answers|
    requires maxLen - total <= Chunk * (|answers| - k)
    requires forall i :: 0 <= i < |answers| ==> FullAnswer(answers[i], unit)
    ensures Readable(answers, maxLen, unit, k, total) == maxLen
    decreases maxLen - total
  {
    if total < maxLen {
      var toRead := Min(Chunk, maxLen - total);
      UnitsReadFull(answers[k], toRead, unit);
      if toRead == Chunk {
        FullReadsFrom(answers, maxLen, unit, k + 1, total + toRead);
      }
    }
  }

  /** A single odd byte is not a wide character: the wide read fails where the
      byte read of the same answer succeeds. */
  lemma OddByteIsNoWideChar(mem: nat -> char)
    requires mem(0) != Nul
    ensures Expected(true, mem, 10, [ReadAnswer(true, 1)], WideUnit) == (false, [])
    ensures Expected(true, mem, 10, [ReadAnswer(true, 1)], AnsiUnit) == (true, [mem(0)])
  {
    assert Readable([ReadAnswer(true, 1)], 10, WideUnit, 0, 0) == 0;
    assert Readable([ReadAnswer(true, 1)], 10, AnsiUnit, 0, 0) == 1;
    assert Prefix(mem, 1) == [mem(0)];
  }
}

=== FILE: push_byte.dfy ===
/** Byte patching of the game's image.

    The image is an abstract byte memory indexed by relative virtual address.
    Whether the module handle is found and whether the protection change
    succeeds are inputs; a range that runs past the memory is treated as a
    failed protection change.
 */
module PushByte {
  import opened Words
  import opened Optional

  type Memory = seq<U8>

  const Nop: U8 := 0x90

  /** The environment of a patch: is there a module, does `VirtualProtect` succeed. */
  datatype Env = Env(hasModule: bool, protectOk: bool)

  datatype PatchResult = PatchResult(ok: bool, mem: Memory)

  predicate InRange(mem: Memory, size: nat, rva: nat)
  {
    rva + size <= |mem|
  }

  /** The raw-pointer `Push_Byte`: copy `size` bytes of the patch to `rva`, or
      fill the range with NOPs for a null patch. */
  function PushBytes(mem: Memory, env: Env, size: nat, rva: nat, patch: Option<seq<U8>>): (r: PatchResult)
    requires patch.Some? ==> |patch.value| >= size
    ensures !(env.hasModule && env.protectOk && InRange(mem, size, rva)) ==> r == PatchResult(false, mem)
    ensures env.hasModule && env.protectOk && InRange(mem, size, rva) ==> r.ok
    ensures |r.mem| == |mem|
    ensures forall i :: 0 <= i < |mem| && !(r.ok && rva <= i < rva + size) ==> r.mem[i] == mem[i]
    ensures r.ok && patch.Some? ==> forall i :: rva <= i < rva + size ==> r.mem[i] == patch.value[i - rva]
    ensures r.ok && patch.None? ==> forall i :: rva <= i < rva + size ==> r.mem[i] == Nop
  {
    if !env.hasModule || !env.protectOk || !InRange(mem, size, rva) then PatchResult(false, mem)
    else
      var bytes := if patch.Some? then patch.value[..size] else Nops(size);
      PatchResult(true, mem[..rva] + bytes + mem[rva + size..])
  }

  function Nops(n: nat): (s: seq<U8>)
    ensures |s| == n && forall i :: 0 <= i < n ==> s[i] == Nop
  {
    seq(n, _ => Nop)
  }

  /** The initializer-list overload: too short a list fails without writing;
      otherwise each element is cut to its low byte and the first `size` are
      written. */
  function PushList(mem: Memory, env: Env, size: nat, rva: nat, list: seq<int>): (r: PatchResult)
    ensures |list| < size ==> r == PatchResult(false, mem)
    ensures |list| >= size ==> r == PushBytes(mem, env, size, rva, Some(LowBytes(list)))
  {
    if |list| < size then PatchResult(false, mem)
    else PushBytes(mem, env, size, rva, Some(LowBytes(list)))
  }

  /** `static_cast<uint8_t>` of each element. */
  function LowBytes(list: seq<int>): (b: seq<U8>)
    ensures |b| == |list|
    ensures forall i :: 0 <= i < |list| ==> b[i] == LowByte(list[i])
  {
    seq(|list|, i requires 0 <= i < |list| => LowByte(list[i]))
  }

  /** The array and vector overloads: too short fails without writing. */
  function PushArray(mem: Memory, env: Env, size: nat, rva: nat, arr: seq<U8>): (r: PatchResult)
    ensures |arr| < size ==> r == PatchResult(false, mem)
    ensures |arr| >= size ==> r == PushBytes(mem, env, size, rva, Some(arr))
  {
    if |arr| < size then PatchResult(false, mem) else PushBytes(mem, env, size, rva, Some(arr))
  }

  /** A successful patch reads back as the patch, and extra list elements do
      not matter. */
  lemma ListPatchReadsBack(mem: Memory, env: Env, size: nat, rva: nat, list: seq<int>)
    requires |list| >= size && env.hasModule && env.protectOk && InRange(mem, size, rva)
    ensures var r := PushList(mem, env, size, rva, list);
      r.ok && r.mem[rva..rva + size] == LowBytes(list[..size])
  {
    var r := PushList(mem, env, size, rva, list);
    var window := r.mem[rva..rva + size];
    forall i | 0 <= i < size ensures window[i] == LowBytes(list[..size])[i] {
      assert window[i] == r.mem[rva + i];
    }
  }

  /** Writing the same patch twice is writing it once. */
  lemma PushIdempotent(mem: Memory, env: Env, size: nat, rva: nat, patch: Option<seq<U8>>)
    requires patch.Some? ==> |patch.value| >= size
    ensures var r := PushBytes(mem, env, size, rva, patch);
      PushBytes(r.mem, env, size, rva, patch) == r
  {
    var r := PushBytes(mem, env, size, rva, patch);
    var r2 := PushBytes(r.mem, env, size, rva, patch);
    assert r2.mem == r.mem;
  }

  /** Patches of disjoint ranges commute. */
  lemma DisjointPatchesCommute(mem: Memory, env: Env, s1: nat, a1: nat, p1: seq<U8>, s2: nat, a2: nat, p2: seq<U8>)
    requires |p1| >= s1 && |p2| >= s2
    requires a1 + s1 <= a2 || a2 + s2 <= a1
    ensures PushBytes(PushBytes(mem, env, s1, a1, Some(p1)).mem, env, s2, a2, Some(p2)).mem
         == PushBytes(PushBytes(mem, env, s2, a2, Some(p2)).mem, env, s1, a1, Some(p1)).mem
  {
    var x := PushBytes(PushBytes(mem, env, s1, a1, Some(p1)).mem, env, s2, a2, Some(p2)).mem;
    var y := PushBytes(PushBytes(mem, env, s2, a2, Some(p2)).mem, env, s1, a1, Some(p1)).mem;
    assert |x| == |y|;
    forall i | 0 <= i < |x| ensures x[i] == y[i] {
    }
  }
}

=== FILE: text.dfy ===
/** Byte-string helpers shared by the name checks: ASCII case folding as the
    C runtime's `_stricmp`/`_wcsicmp` perform it in the "C" locale. */
module Text {
  /** Upper-case ASCII letters fold to lower case; every other character is kept. */
  function FoldChar(c: char): (d: char)
    ensures 'A' <= c <= 'Z' ==> d as int == c as int + 32
    ensures !('A' <= c <= 'Z') ==> d == c
  {
    if 'A' <= c <= 'Z' then (c as int + 32) as char else c
  }

  function Fold(s: string): (t: string)
    ensures |t| == |s|
    ensures forall i :: 0 <= i < |s| ==> t[i] == FoldChar(s[i])
  {
    if s == [] then [] else [FoldChar(s[0])] + Fold(s[1..])
  }

  /** Case-insensitive equality, the reference meaning of a zero `_stricmp`. */
  predicate EqualsIgnoringCase(a: string, b: string)
  {
    Fold(a) == Fold(b)
  }

  /** The comparison loop of `_stricmp`: walk both strings until the folded
      characters differ or both end. */
  function CompareIgnoringCase(a: string, b: string): (same: bool)
    ensures same <==> EqualsIgnoringCase(a, b)
  {
    if a == [] || b == [] then a == b
    else if FoldChar(a[0]) != FoldChar(b[0]) then
      assert Fold(a)[0] != Fold(b)[0];
      false
    else
      var rest := CompareIgnoringCase(a[1..], b[1..]);
      assert Fold(a) == [FoldChar(a[0])] + Fold(a[1..]);
      assert Fold(b) == [FoldChar(b[0])] + Fold(b[1..]);
      rest
  }
}

=== FILE: titles.dfy ===
/** Which Wing Commander II episode the current process is running, decided
    from the titles of its visible top-level windows.
 */
module Titles {
  import Optional

  /** A top-level window: owning process, visibility, and its title text. */
  datatype Window = Window(pid: nat, visible: bool, title: string)

  /** `GetWindowTextW` into a 512-character buffer keeps at most 511 characters. */
  const TitleBuffer: nat := 512

  const VengeanceTitle := "Wing Commander II: Vengeance of the Kilrathi"
  const SpecialOps2Title := "Wing Commander II: Special Operations II"
  const SpecialOps1Title := "Wing Commander II: Special Operations I"

  /** `wcsstr`: does `needle` occur in `hay`. */
  predicate Contains(hay: string, needle: string)
  {
    exists i | 0 <= i <= |hay| - |needle| :: OccursAt(hay, needle, i)
  }

  predicate OccursAt(hay: string, needle: string, i: int)
  {
    0 <= i <= |hay| - |needle| && hay[i..i + |needle|] == needle
  }

  /** The title text a window yields. */
  function TitleText(w: Window): (t: string)
    ensures |t| <= TitleBuffer - 1
    ensures |w.title| < TitleBuffer ==> t == w.title
  {
    if |w.title| < TitleBuffer then w.title else w.title[..TitleBuffer - 1]
  }

  /** Whether one window passes the enumeration callback's tests. */
  predicate WindowMatches(w: Window, pid: nat, expected: string)
  {
    w.pid == pid && w.visible && |TitleText(w)| > 0 && Contains(TitleText(w), expected)
  }

  /** `Process_Has_Title`: a null title always succeeds; otherwise some window
      of the process, visible and with a non-empty title, contains it. */
  function HasTitle(windows: seq<Window>, pid: nat, expected: Optional.Option<string>): (found: bool)
    ensures expected.None? ==> found
    ensures expected.Some? ==>
      (found <==> exists i :: 0 <= i < |windows| && WindowMatches(windows[i], pid, expected.value))
  {
    if expected.None? then true
    else AnyMatch(windows, pid, expected.value)
  }

  /** The enumeration, stopping at the first match. */
  function AnyMatch(windows: seq<Window>, pid: nat, expected: string): (found: bool)
    ensures found <==> exists i :: 0 <= i < |windows| && WindowMatches(windows[i], pid, expected)
  {
    if windows == [] then false
    else if WindowMatches(windows[0], pid, expected) then true
    else
      var rest := AnyMatch(windows[1..], pid, expected);
      assert forall i :: 1 <= i < |windows| ==> windows[i] == windows[1..][i - 1];
      rest
  }

  /** An occurrence of a string is an occurrence of each of its prefixes. */
  lemma PrefixOccurs(hay: string, long: string, short: string, i: int)
    requires OccursAt(hay, long, i) && |short| <= |long| && long[..|short|] == short
    ensures OccursAt(hay, short, i)
  {
    assert hay[i..i + |short|] == hay[i..i + |long|][..|short|];
  }

  /** A window matching a title matches each prefix of it. */
  lemma PrefixMatches(w: Window, pid: nat, long: string, short: string)
    requires WindowMatches(w, pid, long) && |short| <= |long| && long[..|short|] == short
    ensures WindowMatches(w, pid, short)
  {
    var t := TitleText(w);
    var j :| 0 <= j <= |t| - |long| && OccursAt(t, long, j);
    PrefixOccurs(t, long, short, j);
  }

  /** The episode titles are nested: a Special Operations II window also
      contains the Special Operations I title, so II must be compared first. */
  lemma SpecialOpsTitlesNest()
    ensures Contains(SpecialOps2Title, SpecialOps1Title)
    ensures SpecialOps2Title[..|SpecialOps1Title|] == SpecialOps1Title
    ensures !Contains(SpecialOps1Title, SpecialOps2Title)
  {
    assert OccursAt(SpecialOps2Title, SpecialOps1Title, 0);
    assert |SpecialOps1Title| < |SpecialOps2Title|;
  }
}

=== FILE: widescreen.dfy ===
/** The aspect-ratio hot key: 4:3, then 16:9, then 16:10, then back to 4:3. */
module Widescreen {
  import opened Words

  datatype Ratio = Ratio(x: I32, y: I32)

  const Classic := Ratio(4, 3)
  const Wide := Ratio(16, 9)
  const WideTall := Ratio(16, 10)

  /** The default setting: full screen at 4:3. */
  const InitialFullscreen := true
  const InitialRatio := Classic

  /** `AspectRatioSwitch`: the next ratio of the cycle; an unrecognised ratio
      starts the cycle over at 4:3. */
  function Switch(r: Ratio): (n: Ratio)
    ensures n in {Classic, Wide, WideTall}
    ensures r == Classic ==> n == Wide
    ensures r == Wide ==> n == WideTall
    ensures r !in {Classic, Wide} ==> n == Classic
  {
    if r.x == 4 && r.y == 3 then Ratio(16, 9)
    else if r.x == 16 && r.y == 9 then Ratio(16, 10)
    else Ratio(4, 3)
  }

  /** Three switches from any ratio of the cycle come back to it. */
  lemma SwitchHasPeriodThree(r: Ratio)
    requires r in {Classic, Wide, WideTall}
    ensures Switch(Switch(Switch(r))) == r
    ensures Switch(r) != r && Switch(Switch(r)) != r
  {
  }

  /** After at most one switch every ratio is in the cycle, and from there all
      three are reached. */
  lemma SwitchReachesAll(r: Ratio)
    ensures var a := Switch(r); var b := Switch(a); var c := Switch(b);
      {a, b, c} == {Classic, Wide, WideTall}
  {
  }
}

=== FILE: words.dfy ===
/** Machine-word conventions shared by the whole model.

    The original code works on Windows `BYTE`, `WORD`, `DWORD`, `SHORT` and
    `int` values. Here they are unbounded integers restricted by subset types,
    and every place where the C++ code wraps or truncates is written out with
    an explicit modulus.
 */
module Words {

  const Two8: int := 0x100
  const Two16: int := 0x1_0000
  const Two31: int := 0x8000_0000
  const Two32: int := 0x1_0000_0000
  const Two64: int := 0x1_0000_0000_0000_0000

  type U8 = x: int | 0 <= x < 0x100
  type U16 = x: int | 0 <= x < 0x1_0000
  type U32 = x: int | 0 <= x < 0x1_0000_0000
  type U64 = x: int | 0 <= x < 0x1_0000_0000_0000_0000
  /** A C `SHORT`. */
  type I16 = x: int | -0x8000 <= x < 0x8000
  /** A C `int` on the 32-bit Windows targets of the original. */
  type I32 = x: int | -0x8000_0000 <= x < 0x8000_0000

  /** `now - since` on two `DWORD` tick counts: unsigned 32-bit subtraction. */
  function Elapsed(now: U32, since: U32): (d: U32)
    ensures now >= since ==> d == now - since
    ensures now < since ==> d == now + Two32 - since
    ensures (since + d) % Two32 == now
  {
    (now - since) % Two32
  }

  /** Two's-complement reinterpretation of a `DWORD` as an `int`. */
  function ToInt32(x: U32): (r: I32)
    ensures x < Two31 ==> r == x
    ensures x >= Two31 ==> r == x - Two32
    ensures (r + Two32) % Two32 == x
  {
    if x < Two31 then x else x - Two32
  }

  /** The low 32 bits of an integer result, read back as a signed `int`. */
  function WrapI32(x: int): (r: I32)
    ensures -Two31 <= x < Two31 ==> r == x
    ensures (r - x) % Two32 == 0
  {
    var low := x % Two32;
    if low < Two31 then low else low - Two32
  }

  /** Low byte of an integer, as `static_cast<uint8_t>` or `& 0xFF` gives it. */
  function LowByte(x: int): (r: U8)
    ensures 0 <= x < Two8 ==> r == x
    ensures (r - x) % Two8 == 0
  {
    x % Two8
  }

  /** C integer division, which truncates toward zero. */
  function TruncDiv(a: int, b: int): (q: int)
    requires b != 0
    ensures b > 0 && a >= 0 ==> q == a / b
    ensures b > 0 && a < 0 ==> q == -((-a) / b)
  {
    if (a >= 0) == (b > 0) then
      (if a >= 0 then a else -a) / (if b > 0 then b else -b)
    else
      -((if a >= 0 then a else -a) / (if b > 0 then b else -b))
  }

  /** A quotient by a positive divisor is at most `k` when the dividend is at
      most `k` times the divisor. */
  lemma QuotientAtMost(a: nat, b: int, k: nat)
    requires b > 0 && a <= b * k
    ensures a / b <= k
  {
    assert (a / b) * b <= a;
  }

  /** Cancelling a positive factor from a strict inequality. */
  lemma LessByFactor(x: int, y: int, d: nat)
    requires d > 0 && x * d < y * d
    ensures x < y
  {
    assert (y - x) * d > 0;
  }

  function Abs(x: int): nat { if x < 0 then -x else x }

  function Min(a: int, b: int): int { if a <= b then a else b }
  function Max(a: int, b: int): int { if a >= b then a else b }

  /** Clamp `x` into `[lo, hi]`. */
  function Clamp(x: int, lo: int, hi: int): (r: int)
    requires lo <= hi
    ensures lo <= r <= hi
    ensures lo <= x <= hi ==> r == x
    ensures x < lo ==> r == lo
    ensures x > hi ==> r == hi
  {
    if x < lo then lo else if x > hi then hi else x
  }
}

/** Failure-compatible optional values, used for null pointers and absent answers. */
module Optional {
  datatype Option<+T> = None | Some(value: T)
}

=== FILE: xinput.dfy ===
/** The XInput hook: suppression of mapped gamepad inputs in the state the
    game reads, the `XInputGetState` trampoline, and the module-name checks
    behind the `GetProcAddress` redirect. */
module XInputHook {
  import opened Words
  import opened Optional
  import opened Codes
  import opened Gamepad
  import opened Text

  const ErrorSuccess: U32 := 0
  const ErrorDeviceNotConnected: U32 := 1167

  /** The five XInput DLL names, in the order the loader tries them. */
  const XInputDlls: seq<string> :=
    ["xinput1_4.dll", "xinput1_3.dll", "xinput9_1_0.dll", "xinput1_2.dll", "xinput1_1.dll"]

  /** The bits of the two XInput buttons no code names (0x0400 and 0x0800). */
  const UnnamedBits: bv16 := 0x0C00

  /** The bit a digital code contributes to the clear mask when it is mapped. */
  function MaskBit(mapped: set<int>, code: int): bv16
    requires IsDigitalCode(code)
  {
    if code in mapped then ButtonBit(code) else 0
  }

  /** The button clear mask built from the fourteen digital codes. */
  function ClearMask(mapped: set<int>): bv16
  {
    MaskBit(mapped, XboxA) | MaskBit(mapped, XboxB) | MaskBit(mapped, XboxX) | MaskBit(mapped, XboxY)
    | MaskBit(mapped, XboxLB) | MaskBit(mapped, XboxRB)
    | MaskBit(mapped, XboxLSClick) | MaskBit(mapped, XboxRSClick)
    | MaskBit(mapped, XboxBack) | MaskBit(mapped, XboxStart)
    | MaskBit(mapped, XboxDPadUp) | MaskBit(mapped, XboxDPadDown)
    | MaskBit(mapped, XboxDPadLeft) | MaskBit(mapped, XboxDPadRight)
  }

  /** A button bit is one of the fourteen bits the digital codes name. */
  predicate IsButtonBit(bit: bv16)
  {
    bit == 0x1000 || bit == 0x2000 || bit == 0x4000 || bit == 0x8000
    || bit == 0x0100 || bit == 0x0200 || bit == 0x0040 || bit == 0x0080
    || bit == 0x0020 || bit == 0x0010 || bit == 0x0001 || bit == 0x0002
    || bit == 0x0004 || bit == 0x0008
  }

  /** The mask holds the bit of a digital code exactly when that code is mapped,
      and never holds a bit no code names. */
  lemma ClearMaskBits(mapped: set<int>, c: int)
    requires IsDigitalCode(c)
    ensures IsButtonBit(ButtonBit(c))
    ensures ClearMask(mapped) & ButtonBit(c) != 0 <==> c in mapped
    ensures ClearMask(mapped) & UnnamedBits == 0
  {
  }

  /** The button mask with the bits of mapped digital codes cleared. */
  function SuppressButtons(buttons: bv16, mapped: set<int>): (r: bv16)
    ensures forall c | IsDigitalCode(c) :: ButtonHeld(r, c) <==> ButtonHeld(buttons, c) && c !in mapped
    ensures r & UnnamedBits == buttons & UnnamedBits
  {
    var mask := ClearMask(mapped);
    forall c | IsDigitalCode(c)
      ensures ButtonHeld(buttons & !mask, c) <==> ButtonHeld(buttons, c) && c !in mapped
    {
      ClearMaskBits(mapped, c);
      ClearedBit(buttons, mask, ButtonBit(c));
    }
    ClearMaskBits(mapped, XboxA);
    UnnamedKept(buttons, mask);
    buttons & !mask
  }

  /** `KJ_ApplyXInputSuppression`: clear the buttons, triggers and thumb axes
      whose codes are mapped, so the game does not also act on them. */
  function Suppress(s: PadState, mapped: set<int>): (r: PadState)
    ensures r.packet == s.packet
    ensures forall c | IsDigitalCode(c) ::
      ButtonHeld(r.pad.buttons, c) <==> ButtonHeld(s.pad.buttons, c) && c !in mapped
    ensures r.pad.buttons & UnnamedBits == s.pad.buttons & UnnamedBits
    ensures r.pad.leftTrigger == (if XboxLT in mapped then 0 else s.pad.leftTrigger)
    ensures r.pad.rightTrigger == (if XboxRT in mapped then 0 else s.pad.rightTrigger)
    ensures r.pad.thumbLX == (if XboxLSLeft in mapped || XboxLSRight in mapped then 0 else s.pad.thumbLX)
    ensures r.pad.thumbLY == (if XboxLSUp in mapped || XboxLSDown in mapped then 0 else s.pad.thumbLY)
    ensures r.pad.thumbRX == (if XboxRSLeft in mapped || XboxRSRight in mapped then 0 else s.pad.thumbRX)
    ensures r.pad.thumbRY == (if XboxRSUp in mapped || XboxRSDown in mapped then 0 else s.pad.thumbRY)
  {
    var p := s.pad;
    PadState(s.packet, p.(
      buttons := SuppressButtons(p.buttons, mapped),
      leftTrigger := if XboxLT in mapped then 0 else p.leftTrigger,
      rightTrigger := if XboxRT in mapped then 0 else p.rightTrigger,
      thumbLX := if XboxLSLeft in mapped || XboxLSRight in mapped then 0 else p.thumbLX,
      thumbLY := if XboxLSUp in mapped || XboxLSDown in mapped then 0 else p.thumbLY,
      thumbRX := if XboxRSLeft in mapped || XboxRSRight in mapped then 0 else p.thumbRX,
      thumbRY := if XboxRSUp in mapped || XboxRSDown in mapped then 0 else p.thumbRY))
  }

  /** Clearing a mask keeps a single bit exactly when the mask does not hold it. */
  lemma ClearedBit(b: bv16, mask: bv16, bit: bv16)
    requires IsButtonBit(bit)
    ensures (b & !mask) & bit != 0 <==> b & bit != 0 && mask & bit == 0
  {
  }

  /** Clearing a mask that holds no unnamed bit keeps the unnamed bits. */
  lemma UnnamedKept(b: bv16, mask: bv16)
    requires mask & UnnamedBits == 0
    ensures (b & !mask) & UnnamedBits == b & UnnamedBits
  {
  }

  /** Suppressing twice is suppressing once. */
  lemma SuppressIdempotent(s: PadState, mapped: set<int>)
    ensures Suppress(Suppress(s, mapped), mapped) == Suppress(s, mapped)
  {
    var mask := ClearMask(mapped);
    assert (s.pad.buttons & !mask) & !mask == s.pad.buttons & !mask;
  }

  /** With no gamepad code mapped the state passes through untouched. */
  lemma SuppressNothingMapped(s: PadState, mapped: set<int>)
    requires forall c :: c in mapped ==> !IsGamepadCode(c)
    ensures Suppress(s, mapped) == s
  {
    var mask := ClearMask(mapped);
    assert mask == 0;
  }

  /** What the game's buffer holds after a call, and what the call returned. */
  datatype GetStateReply = GetStateReply(result: U32, state: Option<PadState>)

  /** `KJ_XInputGetState`: without an original function the device reads as
      not connected and the caller's buffer is untouched; otherwise the
      original's answer is returned, suppressed only when it succeeded into a
      real buffer. `answer` is what the original returned and left in the
      buffer (`None` for a null buffer). */
  function GetState(hasOriginal: bool, buffer: Option<PadState>, answer: GetStateReply,
                    mapped: set<int>): (r: GetStateReply)
    ensures !hasOriginal ==> r == GetStateReply(ErrorDeviceNotConnected, buffer)
    ensures hasOriginal ==> r.result == answer.result
    ensures hasOriginal && answer.result == ErrorSuccess && answer.state.Some? ==>
      r.state == Some(Suppress(answer.state.value, mapped))
    ensures hasOriginal && (answer.result != ErrorSuccess || answer.state.None?) ==> r == answer
  {
    if !hasOriginal then GetStateReply(ErrorDeviceNotConnected, buffer)
    else if answer.result == ErrorSuccess && answer.state.Some? then
      GetStateReply(answer.result, Some(Suppress(answer.state.value, mapped)))
    else answer
  }

  /** What `EnsureXInputOriginals` has found: whether it ran, which DLL of
      the list loaded, and whether that DLL exports `XInputGetState`. */
  datatype Originals = Originals(looked: bool, dll: Option<nat>, getState: bool)

  const NoOriginals := Originals(false, None, false)

  /** `EnsureXInputOriginals`: on the first call load the first DLL of the
      list that loads (`loads[i]` says whether the i-th would) and look up
      its `XInputGetState`; later calls change nothing. */
  function EnsureOriginals(o: Originals, loads: seq<bool>, exportsGetState: bool): (r: Originals)
    requires |loads| == |XInputDlls|
    ensures r.looked
    ensures o.looked ==> r == o
    ensures !o.looked ==> r.dll == FirstLoaded(loads) && (r.getState <==> r.dll.Some? && exportsGetState)
  {
    if o.looked then o
    else
      var dll := FirstLoaded(loads);
      Originals(true, dll, dll.Some? && exportsGetState)
  }

  /** `KJ_XInput_Shutdown`: free the library and forget the entry point, so
      the next call looks again. */
  function Shutdown(o: Originals): (r: Originals)
    ensures !r.looked && r.dll.None? && !r.getState
  {
    NoOriginals
  }

  /** The hooked `XInputGetState` together with its lazy lookup. */
  function HookedGetState(o: Originals, loads: seq<bool>, exportsGetState: bool,
                          buffer: Option<PadState>, answer: GetStateReply, mapped: set<int>)
    : (r: (Originals, GetStateReply))
    requires |loads| == |XInputDlls|
    ensures r.0 == EnsureOriginals(o, loads, exportsGetState)
    ensures !r.0.getState ==> r.1 == GetStateReply(ErrorDeviceNotConnected, buffer)
    ensures r.0.getState ==> r.1 == GetState(true, buffer, answer, mapped)
  {
    var o' := EnsureOriginals(o, loads, exportsGetState);
    (o', GetState(o'.getState, buffer, answer, mapped))
  }

  /** When no XInput DLL loads the pad reads as disconnected, whatever is mapped. */
  lemma NoDllMeansDisconnected(loads: seq<bool>, exportsGetState: bool, buffer: Option<PadState>,
                               answer: GetStateReply, mapped: set<int>)
    requires |loads| == |XInputDlls| && forall i :: 0 <= i < |loads| ==> !loads[i]
    ensures HookedGetState(NoOriginals, loads, exportsGetState, buffer, answer, mapped).1.result
      == ErrorDeviceNotConnected
  {
  }

  /** `EnsureXInputOriginals`: the index of the first DLL in the list that loads. */
  function FirstLoaded(loads: seq<bool>): (r: Option<nat>)
    ensures r.Some? ==> (r.value < |loads| && loads[r.value]
      && forall j :: 0 <= j < r.value ==> !loads[j])
    ensures r.None? <==> forall j :: 0 <= j < |loads| ==> !loads[j]
  {
    if loads == [] then None
    else if loads[0] then Some(0)
    else match FirstLoaded(loads[1..]) {
      case None => None
      case Some(k) => Some(k + 1)
    }
  }

  /** `KJ_IsXInputDllName`: null is not a name; otherwise a case-insensitive
      match against any of the five DLL names. */
  function IsXInputDllName(name: Option<string>): (r: bool)
    ensures r <==> name.Some? && exists i :: 0 <= i < |XInputDlls| && EqualsIgnoringCase(name.value, XInputDlls[i])
  {
    match name {
      case None => false
      case Some(n) => MatchesAny(n, XInputDlls)
    }
  }

  /** The chain of `_stricmp` tests, one name after another. */
  function MatchesAny(n: string, names: seq<string>): (r: bool)
    ensures r <==> exists i :: 0 <= i < |names| && EqualsIgnoringCase(n, names[i])
  {
    if names == [] then false
    else if CompareIgnoringCase(n, names[0]) then true
    else
      var rest := MatchesAny(n, names[1..]);
      assert forall i :: 1 <= i < |names| ==> names[i] == names[1..][i - 1];
      rest
  }

  predicate IsSeparator(c: char)
  {
    c == '\\' || c == '/'
  }

  /** `k` is where the file part of `path` starts: at the beginning or right
      after a separator, with no separator from there on. */
  predicate IsBasenameAt(path: string, k: int)
  {
    0 <= k <= |path| && (k == 0 || IsSeparator(path[k - 1]))
    && forall i :: k <= i < |path| ==> !IsSeparator(path[i])
  }

  /** A path has exactly one place where its file part starts. */
  lemma BasenameAtUnique(path: string, k1: int, k2: int)
    requires IsBasenameAt(path, k1) && IsBasenameAt(path, k2)
    ensures k1 == k2
  {
  }

  /** The file part of a module path: everything after the last `\` or `/`. */
  method Basename(path: string) returns (file: string)
    ensures |file| <= |path| && file == path[|path| - |file|..]
    ensures IsBasenameAt(path, |path| - |file|)
    ensures forall i :: 0 <= i < |file| ==> !IsSeparator(file[i])
    ensures file == path || IsSeparator(path[|path| - |file| - 1])
  {
    var start := 0;
    var p := 0;
    while p < |path|
      invariant 0 <= start <= p <= |path|
      invariant forall i :: start <= i < p ==> !IsSeparator(path[i])
      invariant start == 0 || IsSeparator(path[start - 1])
    {
      if IsSeparator(path[p]) {
        start := p + 1;
      }
      p := p + 1;
    }
    file := path[start..];
  }

  /** `KJ_IsXInputModuleHandle`: `path` is the module's file name, or `None`
      for a null handle or a failed name query. */
  method IsXInputModule(path: Option<string>) returns (r: bool)
    ensures path.None? ==> !r
    ensures path.Some? ==>
      (r <==> exists k :: IsBasenameAt(path.value, k) && IsXInputDllName(Some(path.value[k..])))
  {
    if path.None? {
      return false;
    }
    var file := Basename(path.value);
    var start := |path.value| - |file|;
    assert path.value[start..] == file;
    BasenameDecides(path.value, start);
    r := IsXInputDllName(Some(file));
  }

  /** Since the file part starts at one place only, asking whether some file
      part is an XInput name is asking it of the one found. */
  lemma BasenameDecides(path: string, start: int)
    requires IsBasenameAt(path, start)
    ensures (exists k :: IsBasenameAt(path, k) && IsXInputDllName(Some(path[k..])))
      <==> IsXInputDllName(Some(path[start..]))
  {
    forall k | IsBasenameAt(path, k)
      ensures k == start
    {
      BasenameAtUnique(path, k, start);
    }
  }

  /** Joining a directory and a separator-free file name puts the file part
      right after the joining separator, whatever the directory holds. */
  lemma JoinedPathBasename(dir: string, name: string)
    requires forall i :: 0 <= i < |name| ==> !IsSeparator(name[i])
    ensures var path := dir + ['\\'] + name;
      IsBasenameAt(path, |dir| + 1) && path[|dir| + 1..] == name
  {
    var path := dir + ['\\'] + name;
    assert path[|dir| + 1..] == name;
    assert forall i :: |dir| + 1 <= i < |path| ==> path[i] == name[i - |dir| - 1];
  }

  /** A last component that merely ends in an XInput DLL name is not one. */
  lemma LongerComponentRejected()
    ensures !IsXInputDllName(Some("myxinput1_4.dll"))
  {
    var n: string := "myxinput1_4.dll";
    assert FoldChar(n[0]) == 'm';
    forall i | 0 <= i < |XInputDlls| ensures !EqualsIgnoringCase(n, XInputDlls[i]) {
      assert FoldChar(XInputDlls[i][0]) == 'x';
      assert Fold(n)[0] != Fold(XInputDlls[i])[0];
    }
    assert !MatchesAny(n, XInputDlls);
  }

  /** The name argument of `GetProcAddress`: a pointer value at most 0xFFFF
      (null included) is an ordinal, larger ones point at a name. */
  datatype ProcName = Ordinal(value: U16) | Named(name: string)

  datatype ProcAnswer = RedirectToHook | Forward | NoProc

  /** `KJ_GetProcAddress`: hand out the hook only for `XInputGetState` asked of
      an XInput module by name; otherwise forward to the original, or answer
      null when the original could not be found. */
  function GetProcAddress(moduleIsXInput: bool, proc: ProcName, hasOriginal: bool): (r: ProcAnswer)
    ensures r == RedirectToHook <==>
      proc.Named? && EqualsIgnoringCase(proc.name, "XInputGetState") && moduleIsXInput
    ensures r != RedirectToHook ==> (r == Forward <==> hasOriginal)
  {
    if proc.Named? && CompareIgnoringCase(proc.name, "XInputGetState") && moduleIsXInput then RedirectToHook
    else if hasOriginal then Forward
    else NoProc
  }

  /** Upper-case DLL names are recognised too. */
  lemma DllNameIgnoresCase()
    ensures IsXInputDllName(Some("XINPUT1_4.DLL"))
  {
    assert Fold("XINPUT1_4.DLL") == Fold(XInputDlls[0]);
  }

  /** Another DLL name, or a null name, is not an XInput name. */
  lemma OtherDllNameRejected()
    ensures !IsXInputDllName(Some("dinput8.dll"))
    ensures !IsXInputDllName(None)
  {
    var n: string := "dinput8.dll";
    assert |Fold(n)| == 11;
    forall i | 0 <= i < |XInputDlls| ensures !EqualsIgnoringCase(n, XInputDlls[i]) {
      assert |Fold(XInputDlls[i])| >= 13;
    }
    assert !MatchesAny(n, XInputDlls);
  }

  /** A lookup by ordinal is always forwarded (or answered null). */
  lemma OrdinalNeverRedirected(moduleIsXInput: bool, n: U16, hasOriginal: bool)
    ensures GetProcAddress(moduleIsXInput, Ordinal(n), hasOriginal) != RedirectToHook
  {
  }
}
